=== FILE: README.md ===
# Proj4J core, modelled in Dafny

This project models the rule-based core of Proj4J, the Java port of the
PROJ.4 cartographic library. Everything is written as immutable datatypes
and pure functions over `real`, `int` and `string`. The modelled parts are:

- **Ellipsoids and datums.** How an `Ellipsoid` derives its eccentricity
  squared, with reciprocal flattening taking precedence over the pole
  radius. How a `Datum` gets its type from the length of its shift
  vector. The datum equality rule. The 3- and 7-parameter geocentric
  shifts to and from WGS84. The well-known ellipsoid and datum constants.
- **DatumParameters.** The parser's precedence state machine: setting one
  field clears a stored datum or ellipsoid.
- **Coordinate systems.** `CoordinateSystem` and
  `CoordinateReferenceSystem`: their constructors (including the default
  name that is computed and then lost), `CS_GEO`, the getters and the
  parameter string.
- **CoordinateTransformation.** The strategy flags the constructor
  computes, which compare objects by identity. The steps `transform` and
  `datumTransform` then run, in their fixed order.
- **GeocentricConverter.** The constants it derives from the radii, the
  latitude clamp-or-reject band, the one-step longitude wrap, and the
  bounded do-while solver of `convertGeocentricToGeodeticIter`.
- **PlateCarreeProjection.** Its forward and inverse formulas, which are
  exact mutual inverses.
- **Angle text.** `Angle.parse` and the `AngleFormat` pattern
  interpreter (`format`) and its deprecated `parse`. The round trip of
  `AngleFormatTestCase` is stated for each of the six standard patterns:
  format an angle, then read the text back with `Angle.parse`.

Java `null` is `Option.None`. A thrown exception is `Result.Err` carrying
the exception class and, where the source has one, its message. A
projection's `transformRadians` and `inverseTransformRadians` may throw
`ProjectionException`, so the pipeline's projection steps return a result
too. Object
identity (`srcCS != CoordinateSystem.CS_GEO`, `srcCS.getDatum() !=
destCS.getDatum()`) is modelled by `Ref`, an address beside the object's
state. A Java `double` is modelled by the exact real it denotes.

`sin`, `cos`, `sqrt`, `atan` and `atan2`, the geodetic formulas,
`ProjectionMath.dmsToDeg`/`dmsToRad` and `Double.toString` have no exact
definition here. They are passed in as function values (`Transcendentals`,
`Formulas`, `dms`, `show`), so every property holds for any such
functions. `Double.valueOf` on plain decimal text, `String.indexOf`,
`String.trim`, `%d`, `%02d`, `%.12f` and the saturating casts are defined
exactly (modules `DoubleParsing`, `JavaStrings`, `DecimalText`,
`JavaMath`).

The modules follow the Java classes:

| module | class |
|---|---|
| `Ellipsoids` | `datum/Ellipsoid.java` |
| `Datums` | `Datum.java` |
| `DatumParameters` | `parser/DatumParameters.java` |
| `CoordinateSystems`, `CoordinateReferenceSystems`, `ParameterText` | `CoordinateSystem.java`, `CoordinateReferenceSystem.java` |
| `Projections`, `PlateCarree` | `proj/PlateCarreeProjection.java` |
| `Geocentric` | `datum/GeocentricConverter.java` |
| `Transformations` | `CoordinateTransformation.java` |
| `Angles` | `units/Angle.java` |
| `AngleFormats` | `units/AngleFormat.java` |
| `AngleRoundTrips`, `DecimalReadBack` | the round trip of `AngleFormatTestCase.java` |
| `Outcomes`, `JavaMath`, `JavaStrings`, `DoubleParsing`, `DecimalText`, `Coordinates` | the Java runtime pieces the above use |

Two comparisons are worth stating plainly, because what the code does
may surprise a reader. `Datum.isEqual` finds `Datum.WGS84` and
`Datum.NAD83` equal (`Datums.Wgs84AndNad83AreEqual`): both are zero
3-parameter datums, and the ellipsoid guard compares a radius with itself,
so it never fires. `Ellipsoid.isEqual` is exact equality of the
equatorial radius and of es, with no tolerance.

## Model

| member | source | states |
|---|---|---|
| `Ellipsoids.FlatteningToEs` | trunk/src/main/java/org/osgeo/proj4j/datum/Ellipsoid.java:70-73 | the eccentricity squared of flattening 1/rf, as the closed form (2rf - 1)/rf² |
| `Ellipsoids.Create` | trunk/src/main/java/org/osgeo/proj4j/datum/Ellipsoid.java:58-79 | fails with IllegalArgumentException exactly when pole radius and reciprocal flattening are both 0; a non-zero rf fixes es and recomputes the pole radius; otherwise es satisfies (1 - es)a² = b² and b is kept |
| `Ellipsoids.SetEccentricitySquared` | trunk/src/main/java/org/osgeo/proj4j/datum/Ellipsoid.java:130-134 | es is stored verbatim; pole radius and eccentricity are derived from it; radius and names unchanged |
| `Ellipsoids.CreateWithEccentricity` | trunk/src/main/java/org/osgeo/proj4j/datum/Ellipsoid.java:81-86 | the four-argument constructor keeps radius, es and names as given |
| `Ellipsoids.FlatteningAgreesWithEccentricityConstructor` | trunk/src/main/java/org/osgeo/proj4j/datum/Ellipsoid.java:69-77 | rf takes precedence: the result is `isEqual` to the es-constructor's ellipsoid, and the pole radius passed alongside does not matter |
| `Ellipsoids.AccessorsReturnRadii` | trunk/src/main/java/org/osgeo/proj4j/datum/Ellipsoid.java:121-128 | `getA` returns the radius passed; `getB` returns the pole radius passed unless a flattening overrides it |
| `Ellipsoids.IsEqual` | trunk/src/main/java/org/osgeo/proj4j/datum/Ellipsoid.java:140-144 | exact equality of the equatorial radius and of es; its behaviour is stated by `Ellipsoids.IsEqualIsEquivalence` (an equivalence), `Ellipsoids.FlatteningAgreesWithEccentricityConstructor` (the two constructors agree under it) and `Ellipsoids.Wgs84IsNotGrs80` (a different es separates equal radii) |
| `Ellipsoids.IsEqualIsEquivalence` | trunk/src/main/java/org/osgeo/proj4j/datum/Ellipsoid.java:140-144 | `isEqual` is reflexive, symmetric and transitive |
| `Ellipsoids.SphereIsRound` | trunk/src/main/java/org/osgeo/proj4j/datum/Ellipsoid.java:33 | SPHERE has es = 0 and equal radii |
| `Ellipsoids.AustralianPoleRadiusIsRecomputed` | trunk/src/main/java/org/osgeo/proj4j/datum/Ellipsoid.java:48 | AUSTRALIAN's explicit pole radius is ignored in favour of its flattening |
| `Ellipsoids.Wgs84IsNotGrs80` | trunk/src/main/java/org/osgeo/proj4j/datum/Ellipsoid.java:42-47 | WGS84 and GRS80 share a radius but are not `isEqual` |
| `Ellipsoids.KrasovskyIsDegenerate` | trunk/src/main/java/org/osgeo/proj4j/datum/Ellipsoid.java:43 | as written KRASOVSKY has a pole radius of 298.3 and es above 0.999 |
| `Ellipsoids.KrasovskyIntended` | trunk/src/main/java/org/osgeo/proj4j/datum/Ellipsoid.java:39 | with 298.3 as reciprocal flattening, es lies between 0.0066 and 0.0068 |
| `Datums.Create3` | trunk/src/main/java/org/osgeo/proj4j/Datum.java:47-52 | a 3-parameter datum is of type 3PARAM, is a transform, and stores dx, dy, dz in order |
| `Datums.Create7` | trunk/src/main/java/org/osgeo/proj4j/Datum.java:54-60 | as written, slots 3 and 5 both hold rx and rz is dropped; the type is 7PARAM |
| `Datums.Create7Intended` | trunk/src/main/java/org/osgeo/proj4j/Datum.java:59 | the corrected constructor stores rx, ry, rz in slots 3, 4, 5 |
| `Datums.GetType` | trunk/src/main/java/org/osgeo/proj4j/Datum.java:79-88 | the type is never UNKNOWN or GRIDSHIFT; null and other lengths give WGS84 |
| `Datums.IsTransform` | trunk/src/main/java/org/osgeo/proj4j/Datum.java:90-93 | holds exactly when the shift vector is non-null of length 3 or 7 |
| `Datums.IsEqual` | trunk/src/main/java/org/osgeo/proj4j/Datum.java:95-121 | as written: equal exactly when the types agree and, for 3PARAM only, the vectors are equal |
| `Datums.FromGeocentricToWgs84` | trunk/src/main/java/org/osgeo/proj4j/Datum.java:124-151 | a 3-vector translates by exactly the shift; any length but 3 and 7 leaves the point alone |
| `Datums.ToGeocentricFromWgs84` | trunk/src/main/java/org/osgeo/proj4j/Datum.java:152-179 | a 3-vector translates back by exactly the shift; any length but 3 and 7 leaves the point alone |
| `Datums.ThreeParamRoundTrip` | trunk/src/main/java/org/osgeo/proj4j/Datum.java:124-160 | the two 3-parameter shifts undo each other in both orders |
| `Datums.SevenParamRoundTripWithoutRotation` | trunk/src/main/java/org/osgeo/proj4j/Datum.java:133-178 | with zero rotations and non-zero scale the 7-parameter shifts undo each other in both orders |
| `Datums.OtherLengthsLeavePointUnchanged` | trunk/src/main/java/org/osgeo/proj4j/Datum.java:124-179 | a vector of a length other than 3 and 7 leaves the point unchanged both ways |
| `Datums.IsEqualIgnoresEllipsoids` | trunk/src/main/java/org/osgeo/proj4j/Datum.java:100-104 | the as-written rule gives the same answer whatever the two ellipsoids are |
| `Datums.SevenParamDatumsAreAllEqual` | trunk/src/main/java/org/osgeo/proj4j/Datum.java:105-119 | any two 7-parameter datums are `isEqual` |
| `Datums.IsEqualReflexiveSymmetric` | trunk/src/main/java/org/osgeo/proj4j/Datum.java:95-111 | `isEqual` is reflexive and symmetric |
| `Datums.IsEqualIntended` | trunk/src/main/java/org/osgeo/proj4j/Datum.java:95-121 | the corrected `isEqual`; `Datums.IsEqualIntendedIsSound` states that it implies equal types, identical shift vectors and matching ellipsoids, and `Datums.IsEqualIntendedMakesShortcutExact` that skipping both shifts for such datums loses nothing |
| `Datums.IsEqualIntendedIsSound` | trunk/src/main/java/org/osgeo/proj4j/Datum.java:97-110 | under the corrected rule, equal datums have equal types, identical shift vectors and matching radii or eccentricities within 5e-11 |
| `Datums.IsEqualIntendedMakesShortcutExact` | trunk/src/main/java/org/osgeo/proj4j/CoordinateTransformation.java:118-119 | under the corrected rule, for a 3-parameter datum or a 7-parameter one without rotation, shifting to WGS84 with one datum and back with an equal one returns the point: skipping both shifts loses nothing |
| `Datums.Wgs84IsZeroThreeParam` | trunk/src/main/java/org/osgeo/proj4j/Datum.java:31 | `Datum.WGS84` is a zero 3-parameter datum, hence a transform |
| `Datums.Wgs84AndNad83AreEqual` | trunk/src/main/java/org/osgeo/proj4j/Datum.java:31-33 | WGS84 and NAD83 are `isEqual` both ways, although their ellipsoids differ |
| `Datums.Ire65LosesItsZRotation` | trunk/src/main/java/org/osgeo/proj4j/Datum.java:38 | IRE65's z-rotation slot holds its x rotation -1.042 instead of -0.631, and the shift rotates by it |
| `Datums.Create7IntendedAppliesRz` | trunk/src/main/java/org/osgeo/proj4j/Datum.java:143 | with the corrected constructor the shift rotates by rz |
| `Datums.Ire65EqualsNzgd49` | trunk/src/main/java/org/osgeo/proj4j/Datum.java:38-39 | IRE65 and NZGD49 are `isEqual` as written and unequal under the corrected rule |
| `Datums.EllipsoidGuardNeverRejects` | trunk/src/main/java/org/osgeo/proj4j/Datum.java:100-104 | a zero datum on Clarke 1866 is `isEqual` to WGS84 as written; the corrected guard rejects it |
| `DatumParameters.Init` | trunk/src/main/java/org/osgeo/proj4j/parser/DatumParameters.java:29-32 | a fresh state holds `Datum.WGS84` and no ellipsoid |
| `DatumParameters.GetEllipsoid` | trunk/src/main/java/org/osgeo/proj4j/parser/DatumParameters.java:41-46 | the result always reports the current a and es; without a stored one it is a "user" ellipsoid |
| `DatumParameters.GetDatum` | trunk/src/main/java/org/osgeo/proj4j/parser/DatumParameters.java:34-39 | without a stored datum, a "user" datum of the shift vector on `getEllipsoid()` |
| `DatumParameters.SetDatumTransform` | trunk/src/main/java/org/osgeo/proj4j/parser/DatumParameters.java:48-53 | stores the vector, clears the datum, touches nothing else |
| `DatumParameters.SetDatum` | trunk/src/main/java/org/osgeo/proj4j/parser/DatumParameters.java:55-58 | stores the datum, touches nothing else |
| `DatumParameters.SetEllipsoid` | trunk/src/main/java/org/osgeo/proj4j/parser/DatumParameters.java:60-65 | stores the ellipsoid and copies its a and es |
| `DatumParameters.SetA` | trunk/src/main/java/org/osgeo/proj4j/parser/DatumParameters.java:67-71 | clears the ellipsoid and changes a only |
| `DatumParameters.SetB` | trunk/src/main/java/org/osgeo/proj4j/parser/DatumParameters.java:73-77 | clears the ellipsoid; es satisfies (1 - es)a² = b² for the a of the moment |
| `DatumParameters.SetES` | trunk/src/main/java/org/osgeo/proj4j/parser/DatumParameters.java:79-83 | clears the ellipsoid and sets es only |
| `DatumParameters.SetRF` | trunk/src/main/java/org/osgeo/proj4j/parser/DatumParameters.java:85-89 | as written, 1 - es = (1 - rf)², the argument taken as the flattening |
| `DatumParameters.SetF` | trunk/src/main/java/org/osgeo/proj4j/parser/DatumParameters.java:91-96 | as written, es·f² = 2f - 1, the argument taken as the reciprocal flattening |
| `DatumParameters.SetRFIntended` | trunk/src/main/java/org/osgeo/proj4j/parser/DatumParameters.java:85 | the corrected setter clears the ellipsoid and keeps a |
| `DatumParameters.SetFIntended` | trunk/src/main/java/org/osgeo/proj4j/parser/DatumParameters.java:91 | the corrected setter clears the ellipsoid and keeps a |
| `DatumParameters.ApplyPreservesCoherence` | trunk/src/main/java/org/osgeo/proj4j/parser/DatumParameters.java:41-96 | every setter keeps a stored ellipsoid in step with a and es, so `getEllipsoid` always reports them |
| `DatumParameters.GetDatumAfter` | trunk/src/main/java/org/osgeo/proj4j/parser/DatumParameters.java:34-58 | `setDatum` wins; `setDatumTransform` yields a user datum; every other setter keeps a stored datum |
| `DatumParameters.FreshGetDatumIsWgs84` | trunk/src/main/java/org/osgeo/proj4j/parser/DatumParameters.java:29-37 | a fresh instance answers `Datum.WGS84` |
| `DatumParameters.DatumTransformThenDatum` | trunk/src/main/java/org/osgeo/proj4j/parser/DatumParameters.java:48-58 | after `setDatumTransform` the user datum's type follows the vector; a later `setDatum` restores the named datum |
| `DatumParameters.EllipsoidPrecedence` | trunk/src/main/java/org/osgeo/proj4j/parser/DatumParameters.java:60-71 | `setEllipsoid` last wins; `setA` after it forces a user ellipsoid keeping the named es |
| `DatumParameters.SetBDependsOnOrder` | trunk/src/main/java/org/osgeo/proj4j/parser/DatumParameters.java:67-77 | `setA` then `setB` and `setB` then `setA` give different es |
| `DatumParameters.SetRFTreatsArgumentAsFlattening` | trunk/src/main/java/org/osgeo/proj4j/parser/DatumParameters.java:85-96 | WGS84's rf through `setRF`, or its f through `setF`, gives es below -88000 |
| `DatumParameters.IntendedSettersMatchEllipsoid` | trunk/src/main/java/org/osgeo/proj4j/datum/Ellipsoid.java:70-73 | the corrected setters agree with the Ellipsoid constructor, with each other, and keep es in (0, 1] |
| `CoordinateSystems.DefaultName` | trunk/src/main/java/org/osgeo/proj4j/CoordinateSystem.java:39-44 | the projection's name or "null-proj", followed by "-CS" |
| `CoordinateSystems.GetEllipsoid` | trunk/src/main/java/org/osgeo/proj4j/CoordinateSystem.java:62-65 | the projection's ellipsoid; a null dereference exactly when there is no projection |
| `CoordinateSystems.GetParameterString` | trunk/src/main/java/org/osgeo/proj4j/CoordinateSystem.java:72-82 | "" for null parameters, else every parameter in order, each followed by one space |
| `CoordinateSystems.GettersReturnArguments` | trunk/src/main/java/org/osgeo/proj4j/CoordinateSystem.java:47-70 | the getters return the constructor's arguments unchanged |
| `CoordinateSystems.NullNameStaysNull` | trunk/src/main/java/org/osgeo/proj4j/CoordinateSystem.java:31-45 | a null name stays null; the computed default never reaches `getName` |
| `CoordinateSystems.CsGeoIsBare` | trunk/src/main/java/org/osgeo/proj4j/CoordinateSystem.java:22 | `CS_GEO` has no parameters, datum or projection, and its ellipsoid lookup fails |
| `CoordinateReferenceSystems.GetEllipsoid` | trunk/src/main/java/org/osgeo/proj4j/CoordinateReferenceSystem.java:68-71 | the projection's ellipsoid; a null dereference exactly when there is no projection |
| `CoordinateReferenceSystems.GetParameterString` | trunk/src/main/java/org/osgeo/proj4j/CoordinateReferenceSystem.java:78-88 | "" for null parameters, else every parameter in order, each followed by one space |
| `CoordinateReferenceSystems.GettersReturnArguments` | trunk/src/main/java/org/osgeo/proj4j/CoordinateReferenceSystem.java:53-76 | the getters return the constructor's arguments unchanged |
| `CoordinateReferenceSystems.NullNameStaysNull` | trunk/src/main/java/org/osgeo/proj4j/CoordinateReferenceSystem.java:37-51 | a null name stays null; the computed default never reaches `getName` |
| `CoordinateReferenceSystems.CsGeoIsBare` | trunk/src/main/java/org/osgeo/proj4j/CoordinateReferenceSystem.java:28 | `CS_GEO` has no parameters, datum or projection, and its ellipsoid lookup fails |
| `ParameterText.Join` | trunk/src/main/java/org/osgeo/proj4j/CoordinateSystem.java:74-82 | the buffer loop produces the reference layout, whose length is the parameters' total plus one per parameter |
| `ParameterText.SpacedLayout` | trunk/src/main/java/org/osgeo/proj4j/CoordinateSystem.java:77-80 | parameter i sits right after the text of the parameters before it and is followed by exactly one space |
| `ParameterText.SpacedLength` | trunk/src/main/java/org/osgeo/proj4j/CoordinateReferenceSystem.java:83-86 | the layout adds exactly one character per parameter |
| `PlateCarree.Project` | trunk/src/main/java/org/osgeo/proj4j/proj/PlateCarreeProjection.java:51-57 | the forward formulas; `PlateCarree.InverseUndoesProject` and `PlateCarree.ProjectUndoesInverse` state that `ProjectInverse` undoes it in both orders, and `PlateCarree.ProjectIsRectilinear` that it maps meridians and parallels to straight lines |
| `PlateCarree.ProjectInverse` | trunk/src/main/java/org/osgeo/proj4j/proj/PlateCarreeProjection.java:71-77 | the inverse formulas, defined when the cosine of the latitude of true scale is non-zero; `PlateCarree.InverseUndoesProject` and `PlateCarree.ProjectUndoesInverse` state that it and `Project` are mutual inverses |
| `PlateCarree.HasInverse` | trunk/src/main/java/org/osgeo/proj4j/proj/PlateCarreeProjection.java:27-29 | always true |
| `PlateCarree.IsRectilinear` | trunk/src/main/java/org/osgeo/proj4j/proj/PlateCarreeProjection.java:31-33 | always true |
| `PlateCarree.InverseUndoesProject` | trunk/src/main/java/org/osgeo/proj4j/proj/PlateCarreeProjection.java:51-77 | inverse after forward is the identity when cos(φts) ≠ 0 |
| `PlateCarree.ProjectUndoesInverse` | trunk/src/main/java/org/osgeo/proj4j/proj/PlateCarreeProjection.java:71-77 | forward after inverse is the identity when cos(φts) ≠ 0 |
| `PlateCarree.ProjectIsRectilinear` | trunk/src/main/java/org/osgeo/proj4j/proj/PlateCarreeProjection.java:51-57 | meridians map to vertical lines, parallels to horizontal ones, and y differences are kept |
| `PlateCarree.AsProjection` | trunk/src/main/java/org/osgeo/proj4j/proj/PlateCarreeProjection.java:51-77 | the projection handed to the pipeline never throws, and its inverse undoes its forward mapping |
| `Geocentric.Create` | trunk/src/main/java/org/osgeo/proj4j/datum/GeocentricConverter.java:53-60 | a2 = a², b2 = b², e2·a² = a² - b², ep2·b² = a² - b² |
| `Geocentric.FromEllipsoid` | trunk/src/main/java/org/osgeo/proj4j/datum/GeocentricConverter.java:50-52 | the converter takes the ellipsoid's `getA` and `getB` |
| `Geocentric.SecondEccentricityAgrees` | trunk/src/main/java/org/osgeo/proj4j/datum/GeocentricConverter.java:56-59 | (1 - e2)a² = b² and ep2(1 - e2) = e2 |
| `Geocentric.ConverterAgreesWithEllipsoid` | trunk/src/main/java/org/osgeo/proj4j/datum/GeocentricConverter.java:50-58 | for an ellipsoid given by two radii, the converter's e2 is the ellipsoid's es |
| `Geocentric.ClampLatitude` | trunk/src/main/java/org/osgeo/proj4j/datum/GeocentricConverter.java:95-102 | accepted exactly inside ±1.001·π/2; just beyond a pole is the pole; further out is IllegalStateException "Latitude is out of range: " followed by the latitude's text; in range is unchanged |
| `Geocentric.ClampLatitudeIdempotent` | trunk/src/main/java/org/osgeo/proj4j/datum/GeocentricConverter.java:95-98 | clamping a clamped latitude changes nothing |
| `Geocentric.WrapLongitude` | trunk/src/main/java/org/osgeo/proj4j/datum/GeocentricConverter.java:104 | a longitude beyond π loses exactly one turn; others are kept; (-π, 3π] lands in (-π, π] |
| `Geocentric.WrapLongitudeIsSingleStep` | trunk/src/main/java/org/osgeo/proj4j/datum/GeocentricConverter.java:104 | a longitude beyond 3π stays beyond π: the wrap is no modulo |
| `Geocentric.GeodeticToGeocentric` | trunk/src/main/java/org/osgeo/proj4j/datum/GeocentricConverter.java:76-116 | succeeds exactly when the latitude guard does, failing with the guard's exception, and applies the formula to the wrapped longitude, clamped latitude and height |
| `Geocentric.MissingHeightIsZero` | trunk/src/main/java/org/osgeo/proj4j/datum/GeocentricConverter.java:80 | a missing z gives the same result as height 0 |
| `Geocentric.Iterate` | trunk/src/main/java/org/osgeo/proj4j/datum/GeocentricConverter.java:150-171 | the solver takes between 1 and 100 steps, stops early only on convergence, and stops after one step when the first converges |
| `Geocentric.IterateOnce` | trunk/src/main/java/org/osgeo/proj4j/datum/GeocentricConverter.java:165-171 | one loop pass either continues from the corrected estimate or ends the solve there |
| `Geocentric.ToGeodetic` | trunk/src/main/java/org/osgeo/proj4j/datum/GeocentricConverter.java:173-175 | the longitude is atan2(y, x) and a height is always set |
| `Geocentric.GeocentricToGeodetic` | trunk/src/main/java/org/osgeo/proj4j/datum/GeocentricConverter.java:123-176 | the do-while loop returns the solver's point after 1 to 100 steps, one when the first step converges, converged whenever fewer than 100 |
| `Geocentric.RunSolver` | trunk/src/main/java/org/osgeo/proj4j/datum/GeocentricConverter.java:143-171 | the loop computes the recursive solver's latitude, height and step count |
| `Transformations.Create` | trunk/src/main/java/org/osgeo/proj4j/CoordinateTransformation.java:30-57 | each flag as an if-and-only-if over the pair; converters exist exactly when going via geocentric; the null dereferences the constructor meets |
| `Transformations.InverseProject` | trunk/src/main/java/org/osgeo/proj4j/CoordinateTransformation.java:65-78 | a null dereference without a source projection; otherwise the projection's inverse, including the `ProjectionException` it may throw |
| `Transformations.ForwardProject` | trunk/src/main/java/org/osgeo/proj4j/CoordinateTransformation.java:95-101 | a null dereference without a target projection; otherwise the projection's forward mapping, including the `ProjectionException` it may throw |
| `Transformations.Transform` | trunk/src/main/java/org/osgeo/proj4j/CoordinateTransformation.java:67-104 | `transform`; `Transformations.TransformRunsLiveStages` states that it runs exactly the live steps in their fixed order, and `Transformations.WithoutDatumStepProjectionsCompose`, `EqualDatumsShortcut`, `NullTargetDatumFailsLate` and `OutOfRangeLatitudeFails` give its result in those cases |
| `Transformations.DatumTransform` | trunk/src/main/java/org/osgeo/proj4j/CoordinateTransformation.java:113-150 | `datumTransform`; `Transformations.DatumTransformIsDatumSteps` states that it is the five datum steps, each run only when live, and `Datums.IsEqualIntendedMakesShortcutExact` when its `isEqual` shortcut is exact |
| `Transformations.DatumTransformIsDatumSteps` | trunk/src/main/java/org/osgeo/proj4j/CoordinateTransformation.java:113-150 | `datumTransform` equals the five datum stages run in their fixed order, each only when live |
| `Transformations.TransformRunsLiveStages` | trunk/src/main/java/org/osgeo/proj4j/CoordinateTransformation.java:67-104 | `transform` runs exactly the live stages, in order, with z starting at 0 |
| `Transformations.LiveStepsFollowTheFlags` | trunk/src/main/java/org/osgeo/proj4j/CoordinateTransformation.java:38-56 | which stages are live, from the constructor's flags |
| `Transformations.GeographicPairIsIdentity` | trunk/src/main/java/org/osgeo/proj4j/CoordinateTransformation.java:72-98 | with `CS_GEO` or null on both sides the point is copied unchanged |
| `Transformations.GeographicSideNeverShifts` | trunk/src/main/java/org/osgeo/proj4j/CoordinateTransformation.java:38-41 | `CS_GEO` on either side rules out the datum step |
| `Transformations.SameSystemNeverShifts` | trunk/src/main/java/org/osgeo/proj4j/CoordinateTransformation.java:40-41 | a system paired with itself never shifts datums and builds no converter |
| `Transformations.WithoutDatumStepProjectionsCompose` | trunk/src/main/java/org/osgeo/proj4j/CoordinateTransformation.java:72-102 | without the datum step the result is forward(inverse(src)), each skipped on a geographic side, and a failing projection's exception is the result |
| `Transformations.EqualDatumsShortcut` | trunk/src/main/java/org/osgeo/proj4j/CoordinateTransformation.java:118-119 | `isEqual` datums skip the shift even when the strategy goes via geocentric |
| `Transformations.NullTargetDatumFailsLate` | trunk/src/main/java/org/osgeo/proj4j/CoordinateTransformation.java:48-50 | a shifting source datum hides a null target datum from the constructor; `transform` then fails with a null dereference on every point the source projection can invert |
| `Transformations.OutOfRangeLatitudeFails` | trunk/src/main/java/org/osgeo/proj4j/CoordinateTransformation.java:126-130 | a latitude the converter rejects stops `transform` with the converter's IllegalStateException and its message |
| `JavaMath.IntCast` | trunk/src/main/java/org/osgeo/proj4j/units/AngleFormat.java:129 | `(int)` saturates into the int range and is the floor for a non-negative value that fits |
| `JavaMath.Round` | trunk/src/main/java/org/osgeo/proj4j/units/AngleFormat.java:126 | `Math.round` is within 1/2 of its argument and saturates into the long range |
| `JavaStrings.IndexOf` | trunk/src/main/java/org/osgeo/proj4j/units/Angle.java:33 | -1 exactly when absent, else the position of the first occurrence |
| `JavaStrings.Trim` | trunk/src/main/java/org/osgeo/proj4j/units/Angle.java:65 | the result neither starts nor ends with a blank, and text without blanks at its ends is unchanged |
| `DoubleParsing.ParseDouble` | trunk/src/main/java/org/osgeo/proj4j/units/Angle.java:39 | every failure is a NumberFormatException |
| `DecimalText.NatToString` | trunk/src/main/java/org/osgeo/proj4j/units/AngleFormat.java:158 | digits worth n, with no leading zero |
| `DecimalText.IntToString` | trunk/src/main/java/org/osgeo/proj4j/units/AngleFormat.java:158 | a minus sign exactly for a negative value, then digits |
| `DecimalText.ZeroPad` | trunk/src/main/java/org/osgeo/proj4j/units/AngleFormat.java:171 | exactly `width` digits worth n |
| `DecimalText.Pad02` | trunk/src/main/java/org/osgeo/proj4j/units/AngleFormat.java:162 | for 0..99 exactly two digits worth the value; otherwise the plain `%d` text |
| `DecimalText.RoundedUnits` | trunk/src/main/java/org/osgeo/proj4j/units/AngleFormat.java:171 | the value in units of 10^-12, rounded half up |
| `DecimalText.Fixed12` | trunk/src/main/java/org/osgeo/proj4j/units/AngleFormat.java:171 | `%.12f`: the integer part, a point and twelve rounded places; a minus sign when negative |
| `DecimalText.KeptLength` | trunk/src/main/java/org/osgeo/proj4j/units/AngleFormat.java:172-178 | where the text ends once trailing zeros are dropped, never before position 3 |
| `DecimalText.StripTrailingZeros` | trunk/src/main/java/org/osgeo/proj4j/units/AngleFormat.java:172-179 | the backwards loop computes the F field's text |
| `DecimalText.FractionOfPlaces` | trunk/src/main/java/org/osgeo/proj4j/units/AngleFormat.java:168-180 | F keeps 1 to 12 digits of "0." and twelve places, and they are worth the twelve places once scaled |
| `DecimalText.FractionOfFixed12` | trunk/src/main/java/org/osgeo/proj4j/units/AngleFormat.java:169-179 | on `%.12f` of a value below one, F keeps 1 to 12 digits worth the rounded value |
| `DecimalText.Fixed12BelowOne` | trunk/src/main/java/org/osgeo/proj4j/units/AngleFormat.java:130 | a value below one that does not round up prints as "0." and its twelve rounded places |
| `DecimalText.DigitsValueConcat` | trunk/src/main/java/org/osgeo/proj4j/units/AngleFormat.java:179 | the value of joined digit strings is the first shifted by the length of the second, plus the second |
| `DecimalReadBack.ParseIntToString` | trunk/src/main/java/org/osgeo/proj4j/units/AngleFormat.java:158 | `Double.valueOf` reads `%d` text back as the integer |
| `DecimalReadBack.ParseNatToString` | trunk/src/main/java/org/osgeo/proj4j/units/Angle.java:39 | `Double.valueOf` reads `Integer.toString` text back as the integer |
| `DecimalReadBack.ParsePad02` | trunk/src/main/java/org/osgeo/proj4j/units/Angle.java:46 | `Double.valueOf` reads `%02d` text of 0..99 back as the value |
| `DecimalReadBack.UnsignedDecimal` | trunk/src/main/java/org/osgeo/proj4j/units/Angle.java:65 | digits, a point and digits are read as the whole plus the scaled fraction |
| `DecimalReadBack.NegatedDecimal` | trunk/src/main/java/org/osgeo/proj4j/units/Angle.java:65 | the same after a minus sign is read negated |
| `Angles.HemisphereOf` | trunk/src/main/java/org/osgeo/proj4j/units/Angle.java:21 | a hemisphere letter exactly for W, S, E, N in either case (and the long s, which upper-cases to S) |
| `Angles.StripHemisphere` | trunk/src/main/java/org/osgeo/proj4j/units/Angle.java:20-32 | removes exactly one final hemisphere letter, negating only for W and S; any other text is kept whole |
| `Angles.DegreeMarker` | trunk/src/main/java/org/osgeo/proj4j/units/Angle.java:33-35 | the first 'd', else the first '°', else -1 exactly when neither occurs |
| `Angles.MinuteMarker` | trunk/src/main/java/org/osgeo/proj4j/units/Angle.java:40-42 | the first 'm', else the first apostrophe, else -1 exactly when neither occurs |
| `Angles.CheckRanges` | trunk/src/main/java/org/osgeo/proj4j/units/Angle.java:54-57 | passes exactly when 0 ≤ m ≤ 59 and 0 ≤ s < 60; the minutes message takes priority |
| `Angles.MarkedMinutesSeconds` | trunk/src/main/java/org/osgeo/proj4j/units/Angle.java:43-57 | a marked field yields range-checked minutes and seconds, or a NumberFormatException |
| `Angles.MinutesSeconds` | trunk/src/main/java/org/osgeo/proj4j/units/Angle.java:40-62 | without a minute marker the seconds are 0; every failure is a NumberFormatException |
| `Angles.ReadFields` | trunk/src/main/java/org/osgeo/proj4j/units/Angle.java:36-62 | every failure to read the fields is a NumberFormatException |
| `Angles.ParseMagnitude` | trunk/src/main/java/org/osgeo/proj4j/units/Angle.java:33-66 | without a degree marker the text is read as a plain decimal |
| `Angles.Signed` | trunk/src/main/java/org/osgeo/proj4j/units/Angle.java:67-68 | negates a value when asked and passes an error on unchanged |
| `Angles.Parse` | trunk/src/main/java/org/osgeo/proj4j/units/Angle.java:13-70 | every failure is a NumberFormatException |
| `Angles.HemisphereOfIntended` | trunk/src/main/java/org/osgeo/proj4j/units/Angle.java:24 | as `HemisphereOf`, except that the lower-case 's' is no hemisphere |
| `Angles.ParseIntended` | trunk/src/main/java/org/osgeo/proj4j/units/Angle.java:22-31 | the corrected parser fails only with NumberFormatException |
| `Angles.HemisphereSuffix` | trunk/src/main/java/org/osgeo/proj4j/units/Angle.java:20-32 | a final W/S negates the rest, E/N is dropped, any other character stays part of the number |
| `Angles.HemisphereIgnoresCase` | trunk/src/main/java/org/osgeo/proj4j/units/Angle.java:21-28 | each hemisphere letter is read the same in both cases |
| `Angles.MarkedText` | trunk/src/main/java/org/osgeo/proj4j/units/Angle.java:36-57 | degrees, 'd', minutes, marker, seconds and an optional closing '"' or 's' read as the three numbers, range checked, errors in reading order |
| `Angles.UnmarkedText` | trunk/src/main/java/org/osgeo/proj4j/units/Angle.java:58-63 | degrees, 'd' and minutes read as degrees and minutes with no seconds and no range check |
| `Angles.EmptyField` | trunk/src/main/java/org/osgeo/proj4j/units/Angle.java:59-60 | an empty field after the degree marker is 0 minutes for `Angle.parse` and an error for `AngleFormat.parse` |
| `AngleFormats.Default` | trunk/src/main/java/org/osgeo/proj4j/units/AngleFormat.java:54-56 | the default pattern is `DdM` in radians |
| `AngleFormats.WithPattern` | trunk/src/main/java/org/osgeo/proj4j/units/AngleFormat.java:58-68 | the one-argument constructor keeps the pattern and works in radians |
| `AngleFormats.FloorToInt` | trunk/src/main/java/org/osgeo/proj4j/units/AngleFormat.java:133 | `(int) Math.floor` is the floor whenever that fits an int |
| `AngleFormats.Prepare` | trunk/src/main/java/org/osgeo/proj4j/units/AngleFormat.java:78-94 | the hemisphere field takes the sign exactly for a negative angle when the pattern has W or N; otherwise D carries a minus sign; the number is the magnitude |
| `AngleFormats.FieldsInRange` | trunk/src/main/java/org/osgeo/proj4j/units/AngleFormat.java:120-137 | whole degrees, minutes 0..59 and seconds 0..59, together within a second below the degrees, which are within 1e-12 of the unsnapped degrees |
| `AngleFormats.SnapPreventsCarry` | trunk/src/main/java/org/osgeo/proj4j/units/AngleFormat.java:122-127 | after the snap the decimal degrees never round up to a whole degree at twelve places |
| `AngleFormats.RenderConcat` | trunk/src/main/java/org/osgeo/proj4j/units/AngleFormat.java:140-142 | a pattern made of two parts writes the first part's text, then the second's |
| `AngleFormats.LiteralPatternIsCopied` | trunk/src/main/java/org/osgeo/proj4j/units/AngleFormat.java:193-195 | a pattern with no field letters is copied verbatim |
| `AngleFormats.FormatLong` | trunk/src/main/java/org/osgeo/proj4j/units/AngleFormat.java:70-72 | a long is written as the same double |
| `AngleFormats.HasHemisphereField` | trunk/src/main/java/org/osgeo/proj4j/units/AngleFormat.java:79-86 | the backwards search finds W or N exactly when the pattern has one |
| `AngleFormats.AppendPiece` | trunk/src/main/java/org/osgeo/proj4j/units/AngleFormat.java:142-196 | each case of the switch appends that character's piece |
| `AngleFormats.RenderInto` | trunk/src/main/java/org/osgeo/proj4j/units/AngleFormat.java:140-197 | the loop appends the pattern's pieces, left to right, after what `result` held |
| `AngleFormats.Format` | trunk/src/main/java/org/osgeo/proj4j/units/AngleFormat.java:74-199 | the text `format` writes for x; `AngleFormats.FormatInto` states that the `StringBuffer` loop appends exactly it, and the `AngleRoundTrips` lemmas that `Angle.parse` reads it back for each standard pattern |
| `AngleFormats.FormatInto` | trunk/src/main/java/org/osgeo/proj4j/units/AngleFormat.java:74-199 | `format` appends the pattern's text for x to the buffer |
| `AngleFormats.Magnitude` | trunk/src/main/java/org/osgeo/proj4j/units/AngleFormat.java:253-260 | without a degree marker a plain decimal, converted to radians unless the format is in degrees |
| `AngleFormats.Parse` | trunk/src/main/java/org/osgeo/proj4j/units/AngleFormat.java:208-267 | the parse position is the length without a hemisphere letter; every failure is a NumberFormatException |
| `AngleFormats.NonEmptyFieldAgrees` | trunk/src/main/java/org/osgeo/proj4j/units/AngleFormat.java:251-252 | both parsers read non-empty text after the degree marker alike |
| `AngleFormats.ParseAgreesWithAngleParse` | trunk/src/main/java/org/osgeo/proj4j/units/AngleFormat.java:208-267 | on a format in degrees, `parse` gives what `Angle.parse` gives, error for error, when something follows the degree marker |
| `AngleFormats.MagnitudeAgrees` | trunk/src/main/java/org/osgeo/proj4j/units/AngleFormat.java:226-256 | with the suffix gone, both parsers read the same magnitude |
| `AngleFormats.EmptyMinutesDiffer` | trunk/src/main/java/org/osgeo/proj4j/units/Angle.java:58-60 | "12d": `Angle.parse` gives 12 degrees, `AngleFormat.parse` an empty-string NumberFormatException |
| `AngleRoundTrips.DegreesTextReadBack` | trunk/src/main/java/org/osgeo/proj4j/units/AngleFormat.java:158 | the D field is a plain number read back as the signed whole degrees |
| `AngleRoundTrips.TwoDigitsReadBack` | trunk/src/main/java/org/osgeo/proj4j/units/AngleFormat.java:160-167 | the M and S fields are plain numbers read back as their values |
| `AngleRoundTrips.FieldTexts` | trunk/src/main/java/org/osgeo/proj4j/units/AngleFormat.java:129-167 | the D, M and S texts are plain numbers read back as the fields `format` computed |
| `AngleRoundTrips.SecondsPatternText` | trunk/src/main/java/org/osgeo/proj4j/units/AngleFormat.java:44 | `DdM'S"` writes degrees, 'd', two-digit minutes, apostrophe, two-digit seconds and '"' |
| `AngleRoundTrips.MinutesPatternText` | trunk/src/main/java/org/osgeo/proj4j/units/AngleFormat.java:43 | `DdM` writes degrees, 'd' and two-digit minutes |
| `AngleRoundTrips.HemispherePatterns` | trunk/src/main/java/org/osgeo/proj4j/units/AngleFormat.java:45-46 | the long and latitude patterns are `DdM'S"` plus W or N |
| `AngleRoundTrips.HemispherePatternText` | trunk/src/main/java/org/osgeo/proj4j/units/AngleFormat.java:181-192 | the W or N field comes after the `DdM'S"` text |
| `AngleRoundTrips.HemisphereFormatText` | trunk/src/main/java/org/osgeo/proj4j/units/AngleFormat.java:181-192 | the whole text ends with W/S or E/N as the angle is negative or not |
| `AngleRoundTrips.AbbreviatedPatternText` | trunk/src/main/java/org/osgeo/proj4j/units/AngleFormat.java:47 | `DdMmSs` writes its text ending in the letter 's' |
| `AngleRoundTrips.DecimalPatternText` | trunk/src/main/java/org/osgeo/proj4j/units/AngleFormat.java:48 | `D.F` writes the degrees, a point and the kept places |
| `AngleRoundTrips.HemisphereFields` | trunk/src/main/java/org/osgeo/proj4j/units/AngleFormat.java:78-94 | with a W or N field the degrees carry no sign and the letter is negative exactly for a negative angle |
| `AngleRoundTrips.HemispherePatternFields` | trunk/src/main/java/org/osgeo/proj4j/units/AngleFormat.java:78-94 | the same, with the degrees non-negative |
| `AngleRoundTrips.NegatingSuffix` | trunk/src/main/java/org/osgeo/proj4j/units/Angle.java:23-26 | W or S after a readable magnitude negates it |
| `AngleRoundTrips.KeepingSuffix` | trunk/src/main/java/org/osgeo/proj4j/units/Angle.java:27-30 | E or N after a readable magnitude keeps it |
| `AngleRoundTrips.HemisphereReadBack` | trunk/src/main/java/org/osgeo/proj4j/units/Angle.java:67-68 | the hemisphere letter gives the magnitude its sign |
| `AngleRoundTrips.SecondsMagnitude` | trunk/src/main/java/org/osgeo/proj4j/units/Angle.java:36-57 | `DdM'S"` text is read as the signed degrees, minutes and seconds `format` computed |
| `AngleRoundTrips.SecondsPatternRoundTrip` | trunk/src/test/java/org/osgeo/proj4j/AngleFormatTestCase.java:133-147 | `Angle.parse` of `DdM'S"` text gives dms of exactly the fields `format` computed |
| `AngleRoundTrips.MinutesPatternRoundTrip` | trunk/src/test/java/org/osgeo/proj4j/AngleFormatTestCase.java:133-147 | `Angle.parse` of `DdM` text gives dms of the degrees and minutes, with 0 seconds |
| `AngleRoundTrips.HemispherePatternRoundTrip` | trunk/src/test/java/org/osgeo/proj4j/AngleFormatTestCase.java:133-147 | `Angle.parse` of `DdM'S"W` or `DdM'S"N` text gives the fields, negated exactly for a negative angle |
| `AngleRoundTrips.HemisphereValueReadBack` | trunk/src/test/java/org/osgeo/proj4j/AngleFormatTestCase.java:140-143 | the same with the value of the fields named |
| `AngleRoundTrips.AbbreviatedMagnitude` | trunk/src/main/java/org/osgeo/proj4j/units/Angle.java:36-62 | `DdMmS` text is read as the three fields |
| `AngleRoundTrips.AbbreviatedWholeMagnitude` | trunk/src/main/java/org/osgeo/proj4j/units/Angle.java:48-53 | with the 's' taken for seconds, `DdMmSs` text is read as the three fields |
| `AngleRoundTrips.SecondsLetterNegates` | trunk/src/main/java/org/osgeo/proj4j/units/Angle.java:20-32 | as written, a closing 's' after a readable magnitude negates it |
| `AngleRoundTrips.SecondsLetterKept` | trunk/src/main/java/org/osgeo/proj4j/units/Angle.java:48-49 | under the corrected suffix rule, the closing 's' stays for the seconds |
| `AngleRoundTrips.AbbreviatedPatternAsWritten` | trunk/src/test/java/org/osgeo/proj4j/AngleFormatTestCase.java:133-147 | as written, `Angle.parse` of `DdMmSs` text is the fields negated, whatever the sign of the angle |
| `AngleRoundTrips.AbbreviatedValueAsWritten` | trunk/src/test/java/org/osgeo/proj4j/AngleFormatTestCase.java:140-143 | the same with the value of the fields named |
| `AngleRoundTrips.AbbreviatedPatternRoundTrip` | trunk/src/test/java/org/osgeo/proj4j/AngleFormatTestCase.java:133-147 | the corrected parser reads `DdMmSs` text as the fields with their own sign |
| `AngleRoundTrips.AbbreviatedValueRoundTrip` | trunk/src/test/java/org/osgeo/proj4j/AngleFormatTestCase.java:140-147 | the same with the value of the fields named |
| `AngleRoundTrips.InstanceFields` | trunk/src/main/java/org/osgeo/proj4j/units/AngleFormat.java:129-137 | 10.5 degrees has fields 10, 30 and 0 |
| `AngleRoundTrips.AbbreviationCounterexample` | trunk/src/test/java/org/osgeo/proj4j/AngleFormatTestCase.java:133-147 | 10.5 degrees written as `10d30m00s` reads back as -10.5 degrees |
| `AngleRoundTrips.AbbreviationInstanceIntended` | trunk/src/test/java/org/osgeo/proj4j/AngleFormatTestCase.java:147 | the corrected parser reads the same text as +10.5 degrees |
| `AngleRoundTrips.RoundedUnitsError` | trunk/src/main/java/org/osgeo/proj4j/units/AngleFormat.java:169-171 | twelve-place rounding is within half a place |
| `AngleRoundTrips.FractionValue` | trunk/src/main/java/org/osgeo/proj4j/units/AngleFormat.java:168-180 | the F text is non-empty digits worth the decimal degrees within half of the twelfth place |
| `AngleRoundTrips.DecimalTextReadBack` | trunk/src/main/java/org/osgeo/proj4j/units/Angle.java:64-66 | signed digits, a point and digits are read back as the whole plus the fraction, with the sign |
| `AngleRoundTrips.DecimalValueReadBack` | trunk/src/test/java/org/osgeo/proj4j/AngleFormatTestCase.java:140-143 | `Angle.parse` of `D.F` text gives exactly the value the text spells |
| `AngleRoundTrips.DecimalMagnitudeError` | trunk/src/main/java/org/osgeo/proj4j/units/AngleFormat.java:120-180 | the unsigned `D.F` value is within 1.5e-12 of the magnitude of the angle |
| `AngleRoundTrips.DecimalValueError` | trunk/src/main/java/org/osgeo/proj4j/units/AngleFormat.java:146-180 | the signed `D.F` value is within 1.5e-12 of the angle and never on the other side of zero |
| `AngleRoundTrips.DecimalResultError` | trunk/src/test/java/org/osgeo/proj4j/AngleFormatTestCase.java:133-147 | `Angle.parse` of the `D.F` text succeeds, within 1.5e-12 of the angle and never on the other side of zero |
| `AngleRoundTrips.DecimalPatternRoundTrip` | trunk/src/test/java/org/osgeo/proj4j/AngleFormatTestCase.java:122-150 | for every angle whose degrees fit an int, format with `D.F` then `Angle.parse` succeeds, within 1.5e-12 and with the same sign |

## Left out

- Floating point. A `double` is its exact real value. Rounding, overflow to infinity, NaN and negative zero are not modelled. Members that divide therefore require a non-zero divisor. These are `Ellipsoids.Create` (equatorial radius when only the pole radius is given), `DatumParameters.SetB` (a), `DatumParameters.SetF` (f), `Geocentric.Create` (both radii), `PlateCarree.ProjectInverse` (the cosine), `Datums.ToGeocentricFromWgs84` (the 7-parameter scale), `Transformations.Create` (both radii of both ellipsoids, only when it builds converters), and `Transformations.Transform` and `Transformations.DatumTransform` (the target datum's 7-parameter scale, only when the reverse shift of a datum step runs). In Java these divisions give infinities or NaN instead of failing.
- `Datums.FromGeocentricToWgs84` and `Datums.ToGeocentricFromWgs84` require a non-null shift vector. The source dereferences it, and its only caller guards the calls with `isTransform`.
- Trigonometry and square roots (`Math.sin`, `cos`, `sqrt`, `atan`, `atan2`) and the geodetic formulas and radii of curvature of `GeocentricConverter`. They are parameters, so the solver's numerics are not modelled, only its guards, its step bound and its stopping rule.
- `ProjectionMath.dmsToDeg` and `dmsToRad`, `Double.toString` (the R field) and the `Projection` base class are not part of this model. They are passed in as functions.
- `Math.toDegrees`/`toRadians` are written as the exact formulas. The round trips are stated for formats in degrees (`isDegrees = true`), as `AngleFormatTestCase` uses them.
- `Double.valueOf` is modelled for plain decimal text (trim, sign, digits with one point, exponent, type suffix). Hexadecimal text, "NaN" and "Infinity" are not.
- `DoubleParsing.ParseDouble`: the contract states only that failures are NumberFormatExceptions. Its values are stated by the `DecimalReadBack` lemmas for the texts `format` writes.
- `DecimalText.RoundedUnits`: `%.12f` rounds half up on the exact real, not on the decimal expansion of the double.
- `DecimalText.Fixed12`: for a negative value the contract only states the minus sign. `format` applies it only to non-negative decimal degrees.
- `AngleRoundTrips.SecondsPatternRoundTrip`: the test's 2″ tolerance is stated as exact read-back of the printed fields through `dmsToDeg`, because `dmsToDeg` is not part of this model.
- `AngleRoundTrips.MinutesPatternRoundTrip`: the 118″ tolerance is stated likewise, with seconds read back as 0.
- `AngleRoundTrips.HemispherePatternRoundTrip`: the 2″ tolerance is stated likewise.
- `AngleRoundTrips.DecimalPatternRoundTrip`: the 1″ tolerance is stated as the much tighter 1.5e-12 degrees.
- `AngleRoundTrips.SecondsPatternRoundTrip`, `MinutesPatternRoundTrip` and the other round trips hold for angles whose degrees fit an `int`. Beyond that, `(int) Math.floor` saturates.
- `AngleRoundTrips.DegreesTextReadBack`: a D field of "-0" (an angle in (-1, 0) without a hemisphere field) is read back as 0. Reals have no negative zero, whereas Java's `Double.valueOf("-0")` is -0.0, which `dmsToDeg` may treat differently.
- `Angles.Parse` and `AngleFormats.Parse`: their own contracts state only the error class and the parse position. Their values are stated by `Angles.HemisphereSuffix`, `Angles.MarkedText`, `Angles.UnmarkedText` and the round-trip lemmas.
- `AngleFormats.Parse` sets the `ParsePosition` index. The `ParsePosition` object and its null check are not modelled; the index is returned instead.
- The factories (`CRSFactory`, `CoordinateSystemFactory`, `CoordinateTransformFactory`), `Proj4Parser` and the file-backed registries are not part of this model.
- The scratch buffers that `CoordinateTransformation` reuses between calls are not modelled, so neither is their lack of thread safety. `transform` is a pure function.
- `AngleFormats.FormatInto` and the round trips: `format` calls `String.format` without a `Locale`, so `%d`, `%02d` and `%.12f` use the default locale, which can supply non-ASCII digits that `Double.valueOf` does not read. The model fixes a locale with ASCII digits. The decimal separator of `%.12f` does not matter, because the F field skips it.
- `DatumParameters.SetEllipsoid` and `DatumParameters.SetDatum` take a non-null argument. `setEllipsoid(null)` throws a NullPointerException when it reads the eccentricity, and is not modelled, because the parser that calls these setters is not part of this model.
- Projections other than Plate Carrée (for instance `TCCProjection`, which throws `ProjectionException`) are not part of this model. The pipeline takes any projection, and its failures pass through `transform`.
- `Angles.Parse` and `AngleFormats.Parse` take a non-null text. `Angle.parse(null)` and `AngleFormat.parse(null, pos)` throw a NullPointerException at the first `text.length()`; a `string` cannot be null, so that path is not modelled.
- `ParameterText.Join`, `CoordinateSystems.GetParameterString` and `CoordinateReferenceSystems.GetParameterString` take a parameter array whose elements are non-null. A null element is appended by `StringBuffer.append` as the text "null"; the elements are `string`, so that rendering is not modelled. A null array itself is modelled and gives "".
- Grid-shift datums and prime meridians are left as TODOs in the source and are not modelled.
- Names, `toString` and `clone` are carried as data where they exist, with no properties stated.

## Findings

The datum and ellipsoid constants and the transformation pipeline keep the
as-written behaviour, because they model the code. Each corrected
definition is stated beside the as-written one, with its intended property
proved.

| source | as written | input that shows it | evidently intended | confidence | as-written member | corrected member |
|---|---|---|---|---|---|---|
| trunk/src/main/java/org/osgeo/proj4j/Datum.java:59 | the 7-parameter constructor stores `rx` in slot 5 and drops `rz` | IRE65: the z rotation applied is -1.042, not -0.631 | `rz` in slot 5 | high, not executed | `Datums.Create7`, `Datums.Ire65LosesItsZRotation` | `Datums.Create7Intended`, `Datums.Create7IntendedAppliesRz` |
| trunk/src/main/java/org/osgeo/proj4j/Datum.java:100 | the ellipsoid guard compares this datum's radius with itself | a zero 3-parameter datum on Clarke 1866 is `isEqual` to WGS84 | compare with `datum.ellipsoid` | high, not executed | `Datums.IsEqual`, `Datums.EllipsoidGuardNeverRejects` | `Datums.IsEqualIntended`, `Datums.IsEqualIntendedIsSound` |
| trunk/src/main/java/org/osgeo/proj4j/Datum.java:105 | the test names `TYPE_3PARAM` twice, so 7-parameter vectors are never compared | IRE65 `isEqual` NZGD49 | `TYPE_3PARAM` or `TYPE_7PARAM` | high, not executed | `Datums.SevenParamDatumsAreAllEqual`, `Datums.Ire65EqualsNzgd49` | `Datums.IsEqualIntended`, `Datums.IsEqualIntendedMakesShortcutExact` |
| trunk/src/main/java/org/osgeo/proj4j/datum/Ellipsoid.java:43 | KRASOVSKY passes 298.3 as the pole radius | es above 0.999: a flat disc | 298.3 as reciprocal flattening | high, not executed | `Ellipsoids.KrasovskyIsDegenerate` | `Ellipsoids.KrasovskyIntended` |
| trunk/src/main/java/org/osgeo/proj4j/parser/DatumParameters.java:85-96 | `setRF` uses its argument as the flattening; `setF` uses the reciprocal of its argument as the flattening | `setRF(298.257223563)` gives es below -88000 | es = f(2 - f) with f = 1/rf, and f as given | medium, not executed (the caller is not part of this model) | `DatumParameters.SetRF`, `DatumParameters.SetRFTreatsArgumentAsFlattening` | `DatumParameters.SetRFIntended`, `DatumParameters.IntendedSettersMatchEllipsoid` |
| trunk/src/main/java/org/osgeo/proj4j/units/Angle.java:21-29 | a final lower-case 's' is upper-cased and read as South | 10.5 degrees formatted with `DdMmSs` is `10d30m00s`, which parses as -10.5 | the 's' that `DdMmSs` writes is read as the seconds abbreviation | high, not executed | `AngleRoundTrips.AbbreviationCounterexample`, `AngleRoundTrips.AbbreviatedPatternAsWritten` | `Angles.ParseIntended`, `AngleRoundTrips.AbbreviatedPatternRoundTrip` |

=== FILE: angle.dfy ===
/** `org.osgeo.proj4j.units.Angle.parse`: degrees, minutes and seconds
    text such as 29d30'15"W read as an angle in degrees. The pieces shared
    with `AngleFormat.parse` (the hemisphere suffix, the markers and the
    minutes-and-seconds field) are defined here once.

    `ProjectionMath.dmsToDeg` is not part of this model; it is passed in as
    the function `dms`. */
module Angles {
  import opened Outcomes
  import opened JavaStrings
  import opened DecimalText
  import opened DoubleParsing

  /** `AngleFormat.CH_DEG_SYMBOL`, the degree sign. */
  const DEGREE_SIGN: char := '\U{00B0}'

  const MINUTES_RANGE: string := "Minutes must be between 0 and 59"
  const SECONDS_RANGE: string := "Seconds must be between 0 and 59"

  /** `Character.toUpperCase(c)` when it is one of the hemisphere letters
      W, S, E and N: the lower-case letters and the long s map to their
      capitals. */
  function HemisphereOf(c: char): (h: Option<char>)
    ensures h.Some? ==> h.value in "WSEN"
    ensures h.Some? <==> c in "WwSs\U{017F}EeNn"
  {
    if c == 'W' || c == 'w' then Some('W')
    else if c == 'S' || c == 's' || c == '\U{017F}' then Some('S')
    else if c == 'E' || c == 'e' then Some('E')
    else if c == 'N' || c == 'n' then Some('N')
    else None
  }

  /** The text without its hemisphere suffix, and whether the suffix asks
      for the angle to be negated. */
  datatype Stripped = Stripped(negate: bool, text: string)

  /** Whether the last character is one of the four hemisphere letters. */
  predicate HasSuffix(text: string, hemisphere: char -> Option<char>) {
    |text| > 0 && hemisphere(text[|text| - 1]).Some? && hemisphere(text[|text| - 1]).value in "WSEN"
  }

  /** The suffix test: a last character whose upper case is W or S is
      removed and negates; one whose upper case is E or N is removed. */
  function StripHemisphere(text: string, hemisphere: char -> Option<char>): (r: Stripped)
    ensures |r.text| <= |text| && r.text == text[..|r.text|]
    ensures r.negate <==> HasSuffix(text, hemisphere) && hemisphere(text[|text| - 1]).value in "WS"
    ensures HasSuffix(text, hemisphere) ==> |r.text| + 1 == |text|
    ensures !HasSuffix(text, hemisphere) ==> r == Stripped(false, text)
  {
    if |text| > 0 && hemisphere(text[|text| - 1]).Some? then
      var h := hemisphere(text[|text| - 1]).value;
      if h == 'W' || h == 'S' then Stripped(true, text[..|text| - 1])
      else if h == 'E' || h == 'N' then Stripped(false, text[..|text| - 1])
      else Stripped(false, text)
    else Stripped(false, text)
  }

  /** The degree marker: the first 'd', or else the first degree sign, or
      -1. */
  function DegreeMarker(t: string): (i: int)
    ensures -1 <= i < |t|
    ensures 'd' in t ==> i == IndexOf(t, 'd')
    ensures 'd' !in t ==> i == IndexOf(t, DEGREE_SIGN)
    ensures i == -1 <==> 'd' !in t && DEGREE_SIGN !in t
  {
    var i := IndexOf(t, 'd');
    if i == -1 then IndexOf(t, DEGREE_SIGN) else i
  }

  /** The minute marker: the first 'm', or else the first apostrophe, or
      -1. */
  function MinuteMarker(t: string): (j: int)
    ensures -1 <= j < |t|
    ensures 'm' in t ==> j == IndexOf(t, 'm')
    ensures 'm' !in t ==> j == IndexOf(t, '\'')
    ensures j == -1 <==> 'm' !in t && '\'' !in t
    ensures j >= 0 ==> t[j] == 'm' || t[j] == '\''
  {
    var j := IndexOf(t, 'm');
    if j == -1 then IndexOf(t, '\'') else j
  }

  /** The range checks on the minutes and the seconds, minutes first. The
      seconds message says 59 although 59.5 passes. */
  function CheckRanges(m: real, s: real): (r: Result<(real, real)>)
    ensures r.Ok? <==> 0.0 <= m <= 59.0 && 0.0 <= s < 60.0
    ensures r.Ok? ==> r.value == (m, s)
    ensures r.Err? && (m < 0.0 || m > 59.0) ==> r.error == NumberFormat(MINUTES_RANGE)
    ensures r.Err? && 0.0 <= m <= 59.0 ==> r.error == NumberFormat(SECONDS_RANGE)
  {
    if m < 0.0 || m > 59.0 then Err(NumberFormat(MINUTES_RANGE))
    else if s < 0.0 || s >= 60.0 then Err(NumberFormat(SECONDS_RANGE))
    else Ok((m, s))
  }

  /** The text after the degree marker when it holds a minute marker at
      `j`: minutes before the marker (none is 0), a trailing 's' or '"'
      dropped, seconds after the marker (none is 0), then the range
      checks. */
  function MarkedMinutesSeconds(mmss: string, j: nat): (r: Result<(real, real)>)
    requires j < |mmss| && (mmss[j] == 'm' || mmss[j] == '\'')
    ensures r.Err? ==> r.error.NumberFormat?
    ensures r.Ok? ==> 0.0 <= r.value.0 <= 59.0 && 0.0 <= r.value.1 < 60.0
  {
    var m :- if j != 0 then ParseDouble(mmss[..j]) else Ok(0.0);
    var rest := SecondsEnd(mmss);
    assert j < |rest| by {
      if |rest| < |mmss| { assert mmss[|rest|] != mmss[j]; }
    }
    var s :- if j != |rest| - 1 then ParseDouble(rest[j + 1..]) else Ok(0.0);
    CheckRanges(m, s)
  }

  /** The text after the degree marker: with a minute marker, minutes and
      seconds; without one, all of it is minutes. `Angle.parse` reads empty
      text there as 0 minutes; `AngleFormat.parse` hands it to
      `Double.valueOf`. */
  function MinutesSeconds(mmss: string, emptyIsZero: bool): (r: Result<(real, real)>)
    ensures r.Err? ==> r.error.NumberFormat?
    ensures r.Ok? && MinuteMarker(mmss) == -1 ==> r.value.1 == 0.0
  {
    var j := MinuteMarker(mmss);
    if j != -1 then MarkedMinutesSeconds(mmss, j)
    else if emptyIsZero && |mmss| == 0 then Ok((0.0, 0.0))
    else
      var m :- ParseDouble(mmss);
      Ok((m, 0.0))
  }

  /** Degrees before the marker at `i`, then minutes and seconds after
      it. */
  function ReadFields(t: string, i: nat, emptyIsZero: bool): (r: Result<(real, real, real)>)
    requires i < |t|
    ensures r.Err? ==> r.error.NumberFormat?
  {
    var d :- ParseDouble(t[..i]);
    var ms :- MinutesSeconds(t[i + 1..], emptyIsZero);
    Ok((d, ms.0, ms.1))
  }

  /** `Angle.parse` after the hemisphere suffix is gone: with a degree
      marker the three fields go through `dms`; without one the text is a
      plain decimal. */
  function ParseMagnitude(dms: (real, real, real) -> real, t: string): (r: Result<real>)
    ensures r.Err? ==> r.error.NumberFormat?
    ensures DegreeMarker(t) == -1 ==> r == ParseDouble(t)
  {
    var i := DegreeMarker(t);
    if i == -1 then ParseDouble(t)
    else
      var f :- ReadFields(t, i, true);
      Ok(dms(f.0, f.1, f.2))
  }

  /** A parsed value, negated when the suffix asks for it; an error is
      passed on. */
  function Signed(negate: bool, r: Result<real>): (s: Result<real>)
    ensures s.Ok? <==> r.Ok?
    ensures s.Ok? ==> s.value == if negate then -r.value else r.value
    ensures s.Err? ==> s == r
  {
    if r.Ok? && negate then Ok(-r.value) else r
  }

  /** `Angle.parse` as written: the hemisphere suffix, then the magnitude,
      negated for W and S. A lower-case 's' counts as S. */
  function Parse(dms: (real, real, real) -> real, text: string): (r: Result<real>)
    ensures r.Err? ==> r.error.NumberFormat?
  {
    var st := StripHemisphere(text, HemisphereOf);
    Signed(st.negate, ParseMagnitude(dms, st.text))
  }

  /** The hemisphere letters with the lower-case 's' left out: that letter
      is the seconds abbreviation `AngleFormat` writes. */
  function HemisphereOfIntended(c: char): (h: Option<char>)
    ensures c != 's' ==> h == HemisphereOf(c)
    ensures c == 's' ==> h.None?
  {
    if c == 's' then None else HemisphereOf(c)
  }

  /** `Angle.parse` with only the capital S (and the long s) meaning
      south, so that a trailing seconds abbreviation is read as seconds. */
  function ParseIntended(dms: (real, real, real) -> real, text: string): (r: Result<real>)
    ensures r.Err? ==> r.error.NumberFormat?
  {
    var st := StripHemisphere(text, HemisphereOfIntended);
    Signed(st.negate, ParseMagnitude(dms, st.text))
  }

  // ---------------------------------------------------------------------
  // Properties of the suffix and of the fields.

  /** The suffix test on a text with a known last character. */
  lemma {:induction false} StripLast(t: string, c: char, hemisphere: char -> Option<char>)
    ensures var h := hemisphere(c);
            StripHemisphere(t + [c], hemisphere)
              == if h == Some('W') || h == Some('S') then Stripped(true, t)
                 else if h == Some('E') || h == Some('N') then Stripped(false, t)
                 else Stripped(false, t + [c])
  {
    var u := t + [c];
    assert u[|u| - 1] == c;
    assert u[..|u| - 1] == t;
  }

  /** A last character whose upper case is W or S is removed and negates
      the rest; one whose upper case is E or N is removed and changes
      nothing; any other is kept. */
  lemma {:induction false} HemisphereSuffix(dms: (real, real, real) -> real, t: string, c: char)
    ensures HemisphereOf(c) == Some('W') || HemisphereOf(c) == Some('S') ==>
              Parse(dms, t + [c]) == Signed(true, ParseMagnitude(dms, t))
    ensures HemisphereOf(c) == Some('E') || HemisphereOf(c) == Some('N') ==>
              Parse(dms, t + [c]) == ParseMagnitude(dms, t)
    ensures HemisphereOf(c).None? ==> Parse(dms, t + [c]) == ParseMagnitude(dms, t + [c])
  {
    var h := HemisphereOf(c);
    if h == Some('W') || h == Some('S') {
      WestOrSouthSuffix(dms, t, c);
    } else if h == Some('E') || h == Some('N') {
      EastOrNorthSuffix(dms, t, c);
    } else {
      StripLast(t, c, HemisphereOf);
    }
  }

  lemma {:induction false} WestOrSouthSuffix(dms: (real, real, real) -> real, t: string, c: char)
    requires HemisphereOf(c) == Some('W') || HemisphereOf(c) == Some('S')
    ensures Parse(dms, t + [c]) == Signed(true, ParseMagnitude(dms, t))
  {
    StripLast(t, c, HemisphereOf);
  }

  lemma {:induction false} EastOrNorthSuffix(dms: (real, real, real) -> real, t: string, c: char)
    requires HemisphereOf(c) == Some('E') || HemisphereOf(c) == Some('N')
    ensures Parse(dms, t + [c]) == ParseMagnitude(dms, t)
  {
    StripLast(t, c, HemisphereOf);
  }

  /** Both cases of each hemisphere letter are read the same way. */
  lemma HemisphereIgnoresCase(c: char)
    requires c in "wsenWSEN"
    ensures HemisphereOf(c).Some?
    ensures c == 'w' || c == 'W' ==> HemisphereOf(c) == Some('W')
    ensures c == 's' || c == 'S' ==> HemisphereOf(c) == Some('S')
    ensures c == 'e' || c == 'E' ==> HemisphereOf(c) == Some('E')
    ensures c == 'n' || c == 'N' ==> HemisphereOf(c) == Some('N')
  {
  }

  /** Text of a number as the formatter writes it: digits, with a minus
      sign or a point, ending in a digit. It holds none of the markers. */
  predicate PlainNumber(t: string) {
    |t| > 0 && IsDigit(t[|t| - 1])
    && forall i :: 0 <= i < |t| ==> IsDigit(t[i]) || t[i] == '-' || t[i] == '.'
  }

  /** The degree marker of degrees, 'd' and a rest is the 'd'. */
  lemma {:induction false} DegreeMarkerAfter(dt: string, rest: string)
    requires PlainNumber(dt)
    ensures var t := dt + "d" + rest;
            DegreeMarker(t) == |dt| && t[..|dt|] == dt && t[|dt| + 1..] == rest
  {
    var t := dt + "d" + rest;
    assert t == dt + ("d" + rest);
    assert 'd' !in dt by {
      forall i | 0 <= i < |dt| ensures dt[i] != 'd' { }
    }
    IndexOfConcat(dt, "d" + rest, 'd');
    assert IndexOf("d" + rest, 'd') == 0;
    assert t[..|dt|] == dt;
    assert t[|dt| + 1..] == rest;
  }

  /** A plain number holds no minute marker. */
  lemma PlainNumberHasNoMarker(t: string)
    requires PlainNumber(t)
    ensures 'm' !in t && '\'' !in t
  {
    forall i | 0 <= i < |t| ensures t[i] != 'm' && t[i] != '\'' { }
  }

  /** What a trailing 's' or '"' leaves of the field. */
  function SecondsEnd(mmss: string): (rest: string)
    ensures |rest| <= |mmss| && rest == mmss[..|rest|]
    ensures |rest| < |mmss| ==> |rest| + 1 == |mmss| && mmss[|rest|] in "s\""
  {
    if EndsWith(mmss, 's') || EndsWith(mmss, '"') then mmss[..|mmss| - 1] else mmss
  }

  /** The field's value once the minute marker, the minutes text and the
      seconds text are known. */
  lemma {:induction false} MarkedValue(mmss: string, j: nat, mt: string, st: string)
    requires j < |mmss| && (mmss[j] == 'm' || mmss[j] == '\'')
    requires j != 0 && mmss[..j] == mt
    requires j + 1 < |SecondsEnd(mmss)| && SecondsEnd(mmss)[j + 1..] == st
    ensures MarkedMinutesSeconds(mmss, j)
              == (var m :- ParseDouble(mt); var s :- ParseDouble(st); CheckRanges(m, s))
  {
  }

  /** Where the minute marker of minutes, a marker and the rest is. */
  lemma {:induction false} MinuteMarkerAfter(mt: string, mark: char, st: string, tail: string)
    requires PlainNumber(mt) && PlainNumber(st)
    requires mark == 'm' || mark == '\''
    requires tail == "" || tail == "\"" || tail == "s"
    ensures var mmss := mt + [mark] + st + tail;
            MinuteMarker(mmss) == |mt| && mmss[..|mt|] == mt
  {
    var mmss := mt + [mark] + st + tail;
    PlainNumberHasNoMarker(mt);
    PlainNumberHasNoMarker(st);
    var back := [mark] + st + tail;
    assert mmss == mt + back;
    if mark == 'm' {
      IndexOfConcat(mt, back, 'm');
      assert IndexOf(back, 'm') == 0;
    } else {
      assert 'm' !in back by {
        assert forall i :: 0 <= i < |back| ==> back[i] != 'm';
      }
      IndexOfConcat(mt, back, 'm');
      IndexOfConcat(mt, back, '\'');
      assert IndexOf(back, '\'') == 0;
    }
    assert mmss[..|mt|] == mt;
  }

  /** The seconds text between the minute marker and the optional closing
      character. */
  lemma {:induction false} SecondsAfter(mt: string, mark: char, st: string, tail: string)
    requires PlainNumber(st)
    requires tail == "" || tail == "\"" || tail == "s"
    ensures var rest := SecondsEnd(mt + [mark] + st + tail);
            rest == mt + [mark] + st && rest[|mt| + 1..] == st
  {
    var mmss := mt + [mark] + st + tail;
    if tail == "" {
      assert mmss == mt + [mark] + st;
      assert mmss[|mmss| - 1] == st[|st| - 1];
    } else {
      assert mmss[..|mmss| - 1] == mt + [mark] + st;
    }
    assert (mt + [mark] + st)[|mt| + 1..] == st;
  }

  /** The minutes-and-seconds field written as minutes, a minute marker,
      seconds and an optional closing '"' or 's': its minutes and seconds
      are the two numbers, range checked. */
  lemma {:induction false} MarkedField(mt: string, mark: char, st: string, tail: string, emptyIsZero: bool)
    requires PlainNumber(mt) && PlainNumber(st)
    requires mark == 'm' || mark == '\''
    requires tail == "" || tail == "\"" || tail == "s"
    ensures MinuteMarker(mt + [mark] + st + tail) == |mt|
    ensures MinutesSeconds(mt + [mark] + st + tail, emptyIsZero)
              == (var m :- ParseDouble(mt); var s :- ParseDouble(st); CheckRanges(m, s))
  {
    var mmss := mt + [mark] + st + tail;
    MinuteMarkerAfter(mt, mark, st, tail);
    SecondsAfter(mt, mark, st, tail);
    MarkedValue(mmss, |mt|, mt, st);
  }

  /** The minutes-and-seconds field with no minute marker: all of it is the
      minutes and the seconds are 0. No range check is made on that
      branch. */
  lemma {:induction false} UnmarkedField(mt: string, emptyIsZero: bool)
    requires PlainNumber(mt)
    ensures MinuteMarker(mt) == -1
    ensures MinutesSeconds(mt, emptyIsZero) == (var m :- ParseDouble(mt); Ok((m, 0.0)))
  {
    PlainNumberHasNoMarker(mt);
  }

  /** The fields once the degrees text and the text after the marker are
      known. */
  lemma {:induction false} FieldsAt(t: string, i: nat, dt: string, mmss: string, emptyIsZero: bool)
    requires i < |t| && t[..i] == dt && t[i + 1..] == mmss
    ensures ReadFields(t, i, emptyIsZero)
              == (var d :- ParseDouble(dt); var ms :- MinutesSeconds(mmss, emptyIsZero); Ok((d, ms.0, ms.1)))
  {
  }

  /** Text written as degrees, 'd', minutes, a minute marker, seconds and
      an optional closing '"' or 's' is read as its three numbers, the
      minutes and seconds range checked, errors in reading order. */
  lemma {:induction false} MarkedText(dms: (real, real, real) -> real, dt: string, mt: string,
                                      mark: char, st: string, tail: string)
    requires PlainNumber(dt) && PlainNumber(mt) && PlainNumber(st)
    requires mark == 'm' || mark == '\''
    requires tail == "" || tail == "\"" || tail == "s"
    ensures ParseMagnitude(dms, dt + "d" + (mt + [mark] + st + tail))
              == (var d :- ParseDouble(dt); var m :- ParseDouble(mt); var s :- ParseDouble(st);
                  var ms :- CheckRanges(m, s); Ok(dms(d, ms.0, ms.1)))
  {
    var rest := mt + [mark] + st + tail;
    var t := dt + "d" + rest;
    DegreeMarkerAfter(dt, rest);
    FieldsAt(t, |dt|, dt, rest, true);
    MarkedField(mt, mark, st, tail, true);
  }

  /** Text written as degrees, 'd' and minutes is read as degrees and
      minutes with no seconds; the minutes are not range checked. */
  lemma {:induction false} UnmarkedText(dms: (real, real, real) -> real, dt: string, mt: string)
    requires PlainNumber(dt) && PlainNumber(mt)
    ensures ParseMagnitude(dms, dt + "d" + mt)
              == (var d :- ParseDouble(dt); var m :- ParseDouble(mt); Ok(dms(d, m, 0.0)))
  {
    var t := dt + "d" + mt;
    DegreeMarkerAfter(dt, mt);
    FieldsAt(t, |dt|, dt, mt, true);
    UnmarkedField(mt, true);
  }

  /** `Angle.parse` of an empty minutes field is 0 minutes; `AngleFormat`'s
      reading of it fails on the empty number. */
  lemma EmptyField()
    ensures MinutesSeconds("", true) == Ok((0.0, 0.0))
    ensures MinutesSeconds("", false) == Err(NumberFormat(EMPTY_STRING))
  {
  }
}

=== FILE: angle_format.dfy ===
/** `org.osgeo.proj4j.units.AngleFormat`: an angle written after a pattern
    whose letters stand for its fields (R the number, D whole degrees, M
    minutes, S seconds, F the decimal places of the degrees, W east or
    west, N north or south) and whose other characters are copied; and the
    deprecated reading of such text back.

    `Double.toString`, used by the R field, and `ProjectionMath.dmsToDeg`
    and `dmsToRad` are not part of this model; they are passed in. */
module AngleFormats {
  import opened Outcomes
  import opened JavaMath
  import opened JavaStrings
  import opened DecimalText
  import opened DoubleParsing
  import opened Angles

  /** `ddmmssPattern`: degrees and minutes, without seconds despite the
      name. */
  const DDMM: string := "DdM"
  /** `ddmmssPattern2`. */
  const DDMMSS: string := "DdM'S\""
  /** `ddmmssLongPattern`: a longitude, its sign as E or W. */
  const DDMMSS_LONG: string := "DdM'S\"W"
  /** `ddmmssLatPattern`: a latitude, its sign as N or S. */
  const DDMMSS_LAT: string := "DdM'S\"N"
  /** `ddmmssPattern4`: minutes and seconds with the letters m and s. */
  const DDMMSS_ABBREV: string := "DdMmSs"
  /** `decimalPattern`: decimal degrees. */
  const DECIMAL: string := "D.F"

  /** An `AngleFormat`: the pattern, and whether the numbers it is given
      are degrees (otherwise radians). */
  datatype AngleFormat = AngleFormat(pattern: string, isDegrees: bool)

  /** The constructors: no pattern is `DDMM`, and no unit is radians. */
  function Default(): (f: AngleFormat)
    ensures f.pattern == DDMM && !f.isDegrees
  {
    WithPattern(DDMM)
  }

  function WithPattern(pattern: string): (f: AngleFormat)
    ensures f.pattern == pattern && !f.isDegrees
  {
    AngleFormat(pattern, false)
  }

  /** The distance within which a value in degrees is taken to be the
      whole number it rounds to, so that the F field never rounds up to a
      whole degree. */
  const SNAP: real := 0.000000000001

  /** What `format` computes before it writes anything. */
  datatype Fields = Fields(
    /** Whether the pattern's W or N field is to say west or south. */
    negative: bool,
    /** -1 when the D field carries a minus sign. */
    sign: int,
    /** The magnitude of the angle, in the unit it was given in. */
    number: real,
    /** The magnitude in degrees, after the snap to a whole degree. */
    degrees: real,
    /** `integer_degrees`, `decimal_degrees`, `integer_minutes` and
        `integer_seconds`. */
    d: int, dd: real, m: int, s: int)

  /** `(int) Math.floor(x)`. */
  function FloorToInt(x: real): (n: int)
    ensures INT_MIN <= n <= INT_MAX
    ensures INT_MIN as real <= x < (INT_MAX + 1) as real ==> n == x.Floor
  {
    IntCast(x.Floor as real)
  }

  /** The sign handling, the conversion to degrees, the snap and the
      truncations that give the fields. */
  function Prepare(f: AngleFormat, x: real): (p: Fields)
    ensures p.negative <==> x < 0.0 && ('W' in f.pattern || 'N' in f.pattern)
    ensures p.sign == -1 <==> x < 0.0 && !p.negative
    ensures p.sign == 1 || p.sign == -1
    ensures p.number == Abs(x)
  {
    var negative := x < 0.0 && ('W' in f.pattern || 'N' in f.pattern);
    var n0 := if negative then -x else x;
    var sign := if n0 < 0.0 then -1 else 1;
    var number := if n0 < 0.0 then -n0 else n0;
    var deg0 := if f.isDegrees then number else ToDegrees(number);
    var degrees := if Abs(Round(deg0) as real - deg0) <= SNAP then Round(deg0) as real else deg0;
    var d := FloorToInt(degrees);
    var dd := degrees - d as real;
    var minutes := dd * 60.0;
    var m := FloorToInt(minutes);
    var seconds := (minutes - m as real) * 60.0;
    var s := FloorToInt(seconds);
    Fields(negative, sign, number, degrees, d, dd, m, s)
  }

  /** What one character of the pattern appends. */
  function Piece(show: real -> string, p: Fields, c: char): string {
    match c
    case 'R' => show(p.number)
    case 'D' => (if p.sign == -1 then "-" else "") + IntToString(p.d)
    case 'M' => Pad02(p.m)
    case 'S' => Pad02(p.s)
    case 'F' => FractionDigits(Fixed12(p.dd))
    case 'W' => if p.negative then "W" else "E"
    case 'N' => if p.negative then "S" else "N"
    case _ => [c]
  }

  /** The pieces of one angle's fields, as a function of the pattern
      character. */
  function Pieces(show: real -> string, p: Fields): char -> string {
    c => Piece(show, p, c)
  }

  lemma PiecesApply(show: real -> string, p: Fields, c: char)
    ensures Pieces(show, p)(c) == Piece(show, p, c)
  {
  }

  /** The F field writes the twelve places of the fraction without their
      trailing zeros. */
  lemma FractionPieceIs(show: real -> string, p: Fields)
    ensures Piece(show, p, 'F') == FractionDigits(Fixed12(p.dd))
  {
  }

  /** The pieces of a pattern, left to right. */
  function Render(piece: char -> string, pattern: string): (text: string)
    ensures |pattern| == 0 ==> text == ""
  {
    if |pattern| == 0 then ""
    else Render(piece, pattern[..|pattern| - 1]) + piece(pattern[|pattern| - 1])
  }

  /** Rendering a pattern made of two parts writes the first part's text,
      then the second's. */
  lemma {:induction false} RenderConcat(piece: char -> string, a: string, b: string)
    ensures Render(piece, a + b) == Render(piece, a) + Render(piece, b)
    decreases |b|
  {
    if |b| == 0 {
      assert a + b == a;
    } else {
      var b' := b[..|b| - 1];
      var ab := a + b;
      assert ab[..|ab| - 1] == a + b' && ab[|ab| - 1] == b[|b| - 1];
      RenderConcat(piece, a, b');
    }
  }

  /** A pattern without field letters is copied as it stands. */
  lemma {:induction false} LiteralPatternIsCopied(show: real -> string, p: Fields, pattern: string)
    requires forall i :: 0 <= i < |pattern| ==> pattern[i] !in "RDMSFWN"
    ensures Render(Pieces(show, p), pattern) == pattern
  {
    if |pattern| > 0 {
      var q := pattern[..|pattern| - 1];
      LiteralPatternIsCopied(show, p, q);
      assert pattern == q + [pattern[|pattern| - 1]];
    }
  }

  /** `format(double, ...)`: the text the pattern gives for `x`. */
  function Format(show: real -> string, f: AngleFormat, x: real): string {
    Render(Pieces(show, Prepare(f, x)), f.pattern)
  }

  /** `format(long, ...)`: the long as a double. */
  function FormatLong(show: real -> string, f: AngleFormat, n: int): (text: string)
    requires LONG_MIN <= n <= LONG_MAX
    ensures text == Format(show, f, n as real)
  {
    Format(show, f, n as real)
  }

  /** The backwards search of the pattern for a W or N field. */
  method HasHemisphereField(pattern: string) returns (found: bool)
    ensures found <==> 'W' in pattern || 'N' in pattern
  {
    found := false;
    var i := |pattern| - 1;
    while i >= 0
      invariant -1 <= i < |pattern|
      invariant forall k :: i < k < |pattern| ==> pattern[k] != 'W' && pattern[k] != 'N'
    {
      if pattern[i] == 'W' || pattern[i] == 'N' {
        found := true;
        return;
      }
      i := i - 1;
    }
  }

  /** One more character of the pattern appends its piece. */
  lemma RenderPrefix(piece: char -> string, pattern: string, i: nat)
    requires i < |pattern|
    ensures Render(piece, pattern[..i + 1]) == Render(piece, pattern[..i]) + piece(pattern[i])
  {
    var next := pattern[..i + 1];
    assert next[..|next| - 1] == pattern[..i];
  }

  /** The piece of one pattern character as the loop computes it: the F
      piece by the loop that drops trailing zeros. */
  method AppendPiece(show: real -> string, p: Fields, c: char) returns (piece: string)
    ensures piece == Pieces(show, p)(c)
  {
    if c == 'F' {
      piece := StripTrailingZeros(Fixed12(p.dd));
      FractionPieceIs(show, p);
    } else {
      piece := Piece(show, p, c);
    }
    PiecesApply(show, p, c);
  }

  /** The loop that appends one piece per pattern character to `result`. */
  method RenderInto(show: real -> string, p: Fields, pattern: string, result: string) returns (out: string)
    ensures out == result + Render(Pieces(show, p), pattern)
  {
    out := result;
    var i := 0;
    while i < |pattern|
      invariant 0 <= i <= |pattern|
      invariant out == result + Render(Pieces(show, p), pattern[..i])
    {
      var piece := AppendPiece(show, p, pattern[i]);
      RenderPrefix(Pieces(show, p), pattern, i);
      AppendAssociates(result, Render(Pieces(show, p), pattern[..i]), piece);
      out := out + piece;
      i := i + 1;
    }
    assert pattern[..|pattern|] == pattern;
  }

  lemma AppendAssociates(a: string, b: string, c: string)
    ensures a + b + c == a + (b + c)
  {
  }

  /** `format` as written: for a negative angle, the search of the pattern
      for W or N decides whether the sign goes to that field; then the
      fields are computed and the pieces appended to `result`. */
  method FormatInto(show: real -> string, f: AngleFormat, x: real, result: string) returns (out: string)
    ensures out == result + Format(show, f, x)
  {
    var negative := false;
    if x < 0.0 {
      negative := HasHemisphereField(f.pattern);
    }
    var p := Prepare(f, x);
    assert p.negative == negative;
    out := RenderInto(show, p, f.pattern, result);
  }

  // ---------------------------------------------------------------------
  // The fields.

  /** The magnitude in degrees before the snap. */
  function Unsnapped(f: AngleFormat, x: real): real {
    if f.isDegrees then Abs(x) else ToDegrees(Abs(x))
  }

  /** The fields of an angle whose degrees fit an `int`: whole degrees,
      minutes and seconds in range, and together within a second of arc
      below the degrees they come from, which are within `SNAP` of the
      unsnapped degrees. */
  lemma FieldsInRange(f: AngleFormat, x: real)
    requires Prepare(f, x).degrees < INT_MAX as real
    ensures var p := Prepare(f, x);
            0.0 <= p.degrees && p.d == p.degrees.Floor && 0.0 <= p.dd < 1.0
            && p.dd == p.degrees - p.d as real
            && 0 <= p.m <= 59 && 0 <= p.s <= 59
            && p.d as real + p.m as real / 60.0 + p.s as real / 3600.0 <= p.degrees
            && p.degrees < p.d as real + p.m as real / 60.0 + (p.s + 1) as real / 3600.0
            && Abs(p.degrees - Unsnapped(f, x)) <= SNAP
  {
    var p := Prepare(f, x);
    var deg0 := Unsnapped(f, x);
    assert deg0 >= 0.0;
    assert p.degrees >= 0.0 by {
      if Abs(Round(deg0) as real - deg0) <= SNAP {
        assert Round(deg0) >= 0;
      }
    }
    var minutes := p.dd * 60.0;
    assert p.m == minutes.Floor;
    var seconds := (minutes - p.m as real) * 60.0;
    assert p.s == seconds.Floor;
  }

  /** The snap keeps the F field from rounding up to a whole degree: the
      decimal degrees, rounded to twelve places, stay below one. */
  lemma SnapPreventsCarry(f: AngleFormat, x: real)
    requires Prepare(f, x).degrees < INT_MAX as real
    ensures RoundedUnits(Prepare(f, x).dd) < Pow10(PLACES)
  {
    var p := Prepare(f, x);
    var deg0 := Unsnapped(f, x);
    FieldsInRange(f, x);
    assert Pow10(PLACES) == 1000000000000;
    if Abs(Round(deg0) as real - deg0) <= SNAP {
      assert p.degrees == Round(deg0) as real;
      assert p.dd == 0.0;
    } else {
      assert p.degrees == deg0;
      assert p.dd < 1.0 - SNAP by {
        if p.dd >= 0.5 {
          assert (deg0 + 0.5).Floor == p.d + 1;
          assert Round(deg0) == p.d + 1;
        }
      }
    }
  }

  // ---------------------------------------------------------------------
  // Reading text back.

  /** What the deprecated `parse` gives: the angle, and the index its
      parse position is set to. */
  datatype Parsed = Parsed(value: real, index: nat)

  /** The angle after the hemisphere suffix is gone. With a degree marker
      the fields go through `dmsToDeg` or `dmsToRad`, and an empty
      minutes field is a number format error; without one the text is a
      decimal, converted to radians unless the format is in degrees. */
  function Magnitude(f: AngleFormat, dmsToDeg: (real, real, real) -> real,
                     dmsToRad: (real, real, real) -> real, t: string): (r: Result<real>)
    ensures r.Err? ==> r.error.NumberFormat?
    ensures DegreeMarker(t) == -1 ==>
              r.Ok? == ParseDouble(t).Ok?
              && (r.Ok? ==> r.value == if f.isDegrees then ParseDouble(t).value
                                       else ToRadians(ParseDouble(t).value))
  {
    var i := DegreeMarker(t);
    if i != -1 then
      var fl :- ReadFields(t, i, false);
      Ok(if f.isDegrees then dmsToDeg(fl.0, fl.1, fl.2) else dmsToRad(fl.0, fl.1, fl.2))
    else
      var x :- ParseDouble(t);
      Ok(if f.isDegrees then x else ToRadians(x))
  }

  /** `parse(String, ParsePosition)`: the hemisphere suffix, the magnitude,
      the index set to the length of the text without the suffix, and the
      negation for W and S. */
  function Parse(f: AngleFormat, dmsToDeg: (real, real, real) -> real,
                 dmsToRad: (real, real, real) -> real, text: string): (r: Result<Parsed>)
    ensures r.Err? ==> r.error.NumberFormat?
    ensures r.Ok? ==> r.value.index == if |text| > 0 && HemisphereOf(text[|text| - 1]).Some?
                                       then |text| - 1 else |text|
  {
    var st := StripHemisphere(text, HemisphereOf);
    var v :- Magnitude(f, dmsToDeg, dmsToRad, st.text);
    Ok(Parsed(if st.negate then -v else v, |st.text|))
  }

  /** Minutes and seconds are read the same way by both parsers unless the
      text after the degree marker is empty. */
  lemma {:induction false} NonEmptyFieldAgrees(mmss: string)
    requires |mmss| > 0
    ensures MinutesSeconds(mmss, false) == MinutesSeconds(mmss, true)
  {
  }

  /** On a format in degrees, `AngleFormat.parse` gives what `Angle.parse`
      gives, error for error, as long as something follows the degree
      marker. */
  lemma {:induction false} ParseAgreesWithAngleParse(pattern: string, dmsToDeg: (real, real, real) -> real,
                                                     dmsToRad: (real, real, real) -> real, text: string)
    requires var t := StripHemisphere(text, HemisphereOf).text;
             DegreeMarker(t) == -1 || DegreeMarker(t) + 1 < |t|
    ensures var r := Parse(AngleFormat(pattern, true), dmsToDeg, dmsToRad, text);
            var q := Angles.Parse(dmsToDeg, text);
            (r.Ok? <==> q.Ok?) && (r.Ok? ==> r.value.value == q.value) && (r.Err? ==> r.error == q.error)
  {
    MagnitudeAgrees(pattern, dmsToDeg, dmsToRad, StripHemisphere(text, HemisphereOf).text);
  }

  /** Without the hemisphere suffix, both parsers read the same
      magnitude. */
  lemma {:induction false} MagnitudeAgrees(pattern: string, dmsToDeg: (real, real, real) -> real,
                                           dmsToRad: (real, real, real) -> real, t: string)
    requires DegreeMarker(t) == -1 || DegreeMarker(t) + 1 < |t|
    ensures Magnitude(AngleFormat(pattern, true), dmsToDeg, dmsToRad, t) == ParseMagnitude(dmsToDeg, t)
  {
    var i := DegreeMarker(t);
    if i != -1 {
      NonEmptyFieldAgrees(t[i + 1..]);
      assert ReadFields(t, i, false) == ReadFields(t, i, true);
    }
  }

  /** Degrees followed by the degree marker: the marker is found, and the
      text has no hemisphere suffix. */
  lemma {:induction false} BareDegreeMarker(dt: string)
    requires PlainNumber(dt)
    ensures DegreeMarker(dt + "d") == |dt|
    ensures StripHemisphere(dt + "d", HemisphereOf) == Stripped(false, dt + "d")
  {
    var t := dt + "d";
    DegreeMarkerAfter(dt, "");
    assert dt + "d" + "" == t;
    assert t[|t| - 1] == 'd';
  }

  /** The fields of degrees followed by the degree marker and nothing
      else. */
  lemma {:induction false} BareDegreeFields(dt: string, emptyIsZero: bool)
    requires ParseDouble(dt).Ok?
    ensures ReadFields(dt + "d", |dt|, emptyIsZero)
              == (var ms :- MinutesSeconds("", emptyIsZero); Ok((ParseDouble(dt).value, ms.0, ms.1)))
  {
    var t := dt + "d";
    assert t[..|dt|] == dt && t[|dt| + 1..] == "";
    FieldsAt(t, |dt|, dt, "", emptyIsZero);
  }

  /** A degree marker with nothing after it: `Angle.parse` reads no
      minutes as 0, `AngleFormat.parse` fails on the empty number. */
  lemma {:induction false} EmptyMinutesDiffer(f: AngleFormat, dmsToDeg: (real, real, real) -> real,
                                              dmsToRad: (real, real, real) -> real, dt: string)
    requires PlainNumber(dt) && ParseDouble(dt).Ok?
    ensures Angles.Parse(dmsToDeg, dt + "d") == Ok(dmsToDeg(ParseDouble(dt).value, 0.0, 0.0))
    ensures Parse(f, dmsToDeg, dmsToRad, dt + "d") == Err(NumberFormat(EMPTY_STRING))
  {
    BareDegreeMarker(dt);
    BareDegreeFields(dt, true);
    BareDegreeFields(dt, false);
    EmptyField();
  }
}

=== FILE: angle_round_trip.dfy ===
/** Reading back what `AngleFormat` writes with `Angle.parse`, pattern by
    pattern, for a format in degrees: the text is read as exactly the
    fields the formatter computed, and for the decimal pattern as a value
    within a trillionth and a half of a degree of the angle. */
module AngleRoundTrips {
  import opened Outcomes
  import opened JavaMath
  import opened DecimalText
  import opened DoubleParsing
  import opened DecimalReadBack
  import opened Angles
  import opened AngleFormats

  // ---------------------------------------------------------------------
  // The texts of the fields.

  /** One more pattern character appends its piece. */
  lemma {:induction false} RenderSnoc(piece: char -> string, q: string, c: char)
    ensures Render(piece, q + [c]) == Render(piece, q) + piece(c)
  {
    var u := q + [c];
    assert u[..|u| - 1] == q && u[|u| - 1] == c;
  }

  lemma {:induction false} Render3(piece: char -> string, a: char, b: char, c: char)
    ensures Render(piece, [a, b, c]) == piece(a) + piece(b) + piece(c)
  {
    RenderSnoc(piece, [], a);
    assert [] + [a] == [a];
    RenderSnoc(piece, [a], b);
    assert [a] + [b] == [a, b];
    RenderSnoc(piece, [a, b], c);
    assert [a, b] + [c] == [a, b, c];
  }

  lemma {:induction false} Render6(piece: char -> string, a: char, b: char, c: char, d: char, e: char, g: char)
    ensures Render(piece, [a, b, c, d, e, g])
              == piece(a) + piece(b) + piece(c) + piece(d) + piece(e) + piece(g)
  {
    Render3(piece, a, b, c);
    RenderSnoc(piece, [a, b, c], d);
    assert [a, b, c] + [d] == [a, b, c, d];
    RenderSnoc(piece, [a, b, c, d], e);
    assert [a, b, c, d] + [e] == [a, b, c, d, e];
    RenderSnoc(piece, [a, b, c, d, e], g);
    assert [a, b, c, d, e] + [g] == [a, b, c, d, e, g];
  }

  /** Whole degrees, after a minus sign when `negative`. */
  function SignedText(negative: bool, n: int): string {
    if negative then "-" + IntToString(n) else IntToString(n)
  }

  /** The D field: the whole degrees, after a minus sign when the angle is
      negative and no W or N field carries the sign. */
  function DegreesText(p: Fields): string
    requires p.d >= 0
  {
    SignedText(p.sign == -1, p.d)
  }

  /** The whole degrees with the sign the D field gives them. */
  function SignedDegrees(p: Fields): real {
    if p.sign == -1 then -(p.d as real) else p.d as real
  }

  /** What the field letters of the patterns append. */
  lemma FieldPieces(show: real -> string, p: Fields)
    requires p.d >= 0
    ensures Pieces(show, p)('D') == DegreesText(p)
    ensures Pieces(show, p)('M') == Pad02(p.m) && Pieces(show, p)('S') == Pad02(p.s)
  {
    PiecesApply(show, p, 'D');
    PiecesApply(show, p, 'M');
    PiecesApply(show, p, 'S');
  }

  lemma FractionPiece(show: real -> string, p: Fields)
    ensures Pieces(show, p)('F') == FractionDigits(Fixed12(p.dd))
  {
    PiecesApply(show, p, 'F');
  }

  lemma HemispherePieces(show: real -> string, p: Fields)
    ensures Pieces(show, p)('W') == (if p.negative then "W" else "E")
    ensures Pieces(show, p)('N') == (if p.negative then "S" else "N")
  {
    PiecesApply(show, p, 'W');
    PiecesApply(show, p, 'N');
  }

  /** The other characters of the patterns are copied. */
  lemma MarkerPieces(show: real -> string, p: Fields)
    ensures Pieces(show, p)('d') == "d" && Pieces(show, p)('m') == "m" && Pieces(show, p)('s') == "s"
    ensures Pieces(show, p)('\'') == "'" && Pieces(show, p)('"') == "\"" && Pieces(show, p)('.') == "."
  {
    PiecesApply(show, p, 'd');
    PiecesApply(show, p, 'm');
    PiecesApply(show, p, 's');
    PiecesApply(show, p, '\'');
    PiecesApply(show, p, '"');
    PiecesApply(show, p, '.');
  }

  /** Digits are a plain number, with or without a minus sign. */
  lemma DigitsArePlain(t: string)
    requires |t| > 0 && AllDigits(t)
    ensures PlainNumber(t) && PlainNumber("-" + t)
  {
    var u := "-" + t;
    assert forall i :: 1 <= i < |u| ==> u[i] == t[i - 1];
  }

  /** Signed whole degrees are a plain number read back as their value
      `v`. */
  lemma {:induction false} SignedTextReadBack(negative: bool, n: int, v: real)
    requires n >= 0 && v == if negative then -(n as real) else n as real
    ensures PlainNumber(SignedText(negative, n))
    ensures ParseDouble(SignedText(negative, n)) == Ok(v)
  {
    DigitsArePlain(IntToString(n));
    if negative {
      ParseNegatedIntToString(n);
    } else {
      ParseIntToString(n);
    }
  }

  /** The D field of non-negative whole degrees is a plain number read back
      as the signed degrees. */
  lemma {:induction false} DegreesTextReadBack(p: Fields)
    requires p.d >= 0
    ensures PlainNumber(DegreesText(p))
    ensures ParseDouble(DegreesText(p)) == Ok(SignedDegrees(p))
  {
    SignedTextReadBack(p.sign == -1, p.d, SignedDegrees(p));
  }

  /** The M and S fields are plain numbers read back as their values. */
  lemma {:induction false} TwoDigitsReadBack(n: int)
    requires 0 <= n <= 59
    ensures PlainNumber(Pad02(n)) && ParseDouble(Pad02(n)) == Ok(n as real)
  {
    DigitsArePlain(Pad02(n));
    ParsePad02(n);
  }

  /** The fields of an angle whose degrees fit an `int` are written as
      plain numbers and read back as they were computed. */
  lemma {:induction false} FieldTexts(f: AngleFormat, x: real)
    requires Prepare(f, x).degrees < INT_MAX as real
    ensures Prepare(f, x).d >= 0
    ensures var p := Prepare(f, x);
            PlainNumber(DegreesText(p)) && ParseDouble(DegreesText(p)) == Ok(SignedDegrees(p))
            && PlainNumber(Pad02(p.m)) && ParseDouble(Pad02(p.m)) == Ok(p.m as real)
            && PlainNumber(Pad02(p.s)) && ParseDouble(Pad02(p.s)) == Ok(p.s as real)
            && 0 <= p.m <= 59 && 0 <= p.s <= 59
  {
    var p := Prepare(f, x);
    FieldsInRange(f, x);
    DegreesTextReadBack(p);
    TwoDigitsReadBack(p.m);
    TwoDigitsReadBack(p.s);
  }

  // ---------------------------------------------------------------------
  // Reading marked text.

  /** Text whose last character is no hemisphere letter is read whole. */
  lemma {:induction false} NoSuffixReadWhole(dms: (real, real, real) -> real, t: string)
    requires |t| > 0 && HemisphereOf(t[|t| - 1]).None?
    ensures Angles.Parse(dms, t) == ParseMagnitude(dms, t)
  {
  }

  /** Degrees, minutes and seconds with their markers, read back as the
      three numbers when these are in range. */
  lemma {:induction false} ReadMarked(dms: (real, real, real) -> real, dt: string, mt: string, mark: char,
                                      st: string, tail: string, d: real, m: real, s: real)
    requires PlainNumber(dt) && PlainNumber(mt) && PlainNumber(st)
    requires mark == 'm' || mark == '\''
    requires tail == "" || tail == "\"" || tail == "s"
    requires ParseDouble(dt) == Ok(d) && ParseDouble(mt) == Ok(m) && ParseDouble(st) == Ok(s)
    requires 0.0 <= m <= 59.0 && 0.0 <= s < 60.0
    ensures ParseMagnitude(dms, dt + "d" + (mt + [mark] + st + tail)) == Ok(dms(d, m, s))
  {
    MarkedText(dms, dt, mt, mark, st, tail);
  }

  /** The same text without a closing 's' has no hemisphere suffix and is
      read whole by `Angle.parse`. */
  lemma {:induction false} ParseMarked(dms: (real, real, real) -> real, dt: string, mt: string, mark: char,
                                       st: string, tail: string, d: real, m: real, s: real)
    requires PlainNumber(dt) && PlainNumber(mt) && PlainNumber(st)
    requires mark == 'm' || mark == '\''
    requires tail == "" || tail == "\""
    requires ParseDouble(dt) == Ok(d) && ParseDouble(mt) == Ok(m) && ParseDouble(st) == Ok(s)
    requires 0.0 <= m <= 59.0 && 0.0 <= s < 60.0
    ensures Angles.Parse(dms, dt + "d" + (mt + [mark] + st + tail)) == Ok(dms(d, m, s))
  {
    LastOfMarked(dt, mt, mark, st, tail);
    NoSuffixReadWhole(dms, dt + "d" + (mt + [mark] + st + tail));
    ReadMarked(dms, dt, mt, mark, st, tail, d, m, s);
  }

  /** Such text ends in a digit or '"'. */
  lemma {:induction false} LastOfMarked(dt: string, mt: string, mark: char, st: string, tail: string)
    requires PlainNumber(st)
    requires tail == "" || tail == "\""
    ensures var text := dt + "d" + (mt + [mark] + st + tail);
            |text| > 0 && HemisphereOf(text[|text| - 1]).None?
  {
    var text := dt + "d" + (mt + [mark] + st + tail);
    assert text[|text| - 1] == if tail == "" then st[|st| - 1] else '"';
  }

  // ---------------------------------------------------------------------
  // Pattern by pattern.

  /** The text `DdM'S"` gives. */
  lemma {:induction false} SecondsPatternText(show: real -> string, p: Fields)
    requires p.d >= 0
    ensures Render(Pieces(show, p), DDMMSS)
              == DegreesText(p) + "d" + (Pad02(p.m) + ['\''] + Pad02(p.s) + "\"")
  {
    assert DDMMSS == ['D', 'd', 'M', '\'', 'S', '"'];
    Render6(Pieces(show, p), 'D', 'd', 'M', '\'', 'S', '"');
    FieldPieces(show, p);
    MarkerPieces(show, p);
    Regroup(DegreesText(p), "d", Pad02(p.m), ['\''], Pad02(p.s), "\"");
  }

  /** Six pieces joined left to right are the first two before the other
      four. */
  lemma Regroup(a: string, b: string, c: string, d: string, e: string, g: string)
    ensures a + b + c + d + e + g == a + b + (c + d + e + g)
  {
  }

  /** ... and the first two before the next three, then the last. */
  lemma RegroupLast(a: string, b: string, c: string, d: string, e: string, g: string)
    ensures a + b + c + d + e + g == a + b + (c + d + e) + g
  {
  }

  /** The text `format` writes for `DdM'S"` with the degrees of `x`, read
      by `Angle.parse`: the signed degrees, the minutes and the seconds the
      formatter computed. */
  lemma {:induction false} SecondsPatternRoundTrip(show: real -> string, dms: (real, real, real) -> real, x: real)
    requires Prepare(AngleFormat(DDMMSS, true), x).degrees < INT_MAX as real
    ensures Prepare(AngleFormat(DDMMSS, true), x).d >= 0
    ensures var p := Prepare(AngleFormat(DDMMSS, true), x);
            Angles.Parse(dms, Format(show, AngleFormat(DDMMSS, true), x))
              == Ok(dms(SignedDegrees(p), p.m as real, p.s as real))
  {
    var f := AngleFormat(DDMMSS, true);
    var p := Prepare(f, x);
    FieldTexts(f, x);
    SecondsPatternText(show, p);
    ParseMarked(dms, DegreesText(p), Pad02(p.m), '\'', Pad02(p.s), "\"", SignedDegrees(p), p.m as real, p.s as real);
  }

  /** The text `DdM` gives. */
  lemma {:induction false} MinutesPatternText(show: real -> string, p: Fields)
    requires p.d >= 0
    ensures Render(Pieces(show, p), DDMM) == DegreesText(p) + "d" + Pad02(p.m)
  {
    assert DDMM == ['D', 'd', 'M'];
    Render3(Pieces(show, p), 'D', 'd', 'M');
    FieldPieces(show, p);
    MarkerPieces(show, p);
  }

  /** Degrees, 'd' and minutes, read back as degrees and minutes. */
  lemma {:induction false} ParseUnmarked(dms: (real, real, real) -> real, dt: string, mt: string, d: real, m: real)
    requires PlainNumber(dt) && PlainNumber(mt)
    requires ParseDouble(dt) == Ok(d) && ParseDouble(mt) == Ok(m)
    ensures Angles.Parse(dms, dt + "d" + mt) == Ok(dms(d, m, 0.0))
  {
    LastOfUnmarked(dt, mt);
    NoSuffixReadWhole(dms, dt + "d" + mt);
    UnmarkedText(dms, dt, mt);
  }

  /** Such text ends in a digit. */
  lemma {:induction false} LastOfUnmarked(dt: string, mt: string)
    requires PlainNumber(mt)
    ensures var text := dt + "d" + mt;
            |text| > 0 && HemisphereOf(text[|text| - 1]).None?
  {
    var text := dt + "d" + mt;
    assert text[|text| - 1] == mt[|mt| - 1];
  }

  /** The text `format` writes for `DdM`, read by `Angle.parse`: the signed
      degrees and the minutes the formatter computed, and no seconds. */
  lemma {:induction false} MinutesPatternRoundTrip(show: real -> string, dms: (real, real, real) -> real, x: real)
    requires Prepare(AngleFormat(DDMM, true), x).degrees < INT_MAX as real
    ensures Prepare(AngleFormat(DDMM, true), x).d >= 0
    ensures var p := Prepare(AngleFormat(DDMM, true), x);
            Angles.Parse(dms, Format(show, AngleFormat(DDMM, true), x))
              == Ok(dms(SignedDegrees(p), p.m as real, 0.0))
  {
    var f := AngleFormat(DDMM, true);
    var p := Prepare(f, x);
    FieldTexts(f, x);
    MinutesPatternText(show, p);
    ParseUnmarked(dms, DegreesText(p), Pad02(p.m), SignedDegrees(p), p.m as real);
  }

  /** The text `DdM'S"` gives, as a whole. */
  function SecondsText(p: Fields): string
    requires p.d >= 0
  {
    DegreesText(p) + "d" + (Pad02(p.m) + ['\''] + Pad02(p.s) + "\"")
  }

  /** That text read by `Angle.parse` once any suffix is gone: the signed
      degrees, the minutes and the seconds. */
  lemma {:induction false} SecondsMagnitude(dms: (real, real, real) -> real, f: AngleFormat, x: real, p: Fields)
    requires f.isDegrees && p == Prepare(f, x) && p.degrees < INT_MAX as real
    ensures p.d >= 0
    ensures ParseMagnitude(dms, SecondsText(p)) == Ok(dms(SignedDegrees(p), p.m as real, p.s as real))
  {
    FieldTexts(f, x);
    ReadMarked(dms, DegreesText(p), Pad02(p.m), '\'', Pad02(p.s), "\"", SignedDegrees(p), p.m as real, p.s as real);
  }

  /** The text of `DdM'S"` followed by a hemisphere field. */
  lemma {:induction false} HemispherePatternText(show: real -> string, p: Fields, h: char)
    requires p.d >= 0 && (h == 'W' || h == 'N')
    ensures Render(Pieces(show, p), DDMMSS + [h]) == SecondsText(p) + Pieces(show, p)(h)
  {
    RenderSnoc(Pieces(show, p), DDMMSS, h);
    SecondsPatternText(show, p);
  }

  /** A W or S after a readable magnitude negates it. */
  lemma {:induction false} NegatingSuffix(dms: (real, real, real) -> real, t: string, c: char, v: real)
    requires c == 'W' || c == 'S'
    requires ParseMagnitude(dms, t) == Ok(v)
    ensures Angles.Parse(dms, t + [c]) == Ok(-v)
  {
    WestOrSouthSuffix(dms, t, c);
    NegatedOk(ParseMagnitude(dms, t), v);
  }

  /** Negating a readable value, with the value kept apart from the text it
      was read from. */
  lemma NegatedOk(r: Result<real>, v: real)
    requires r == Ok(v)
    ensures Signed(true, r) == Ok(-v)
  {
  }

  /** An E or N after a readable magnitude leaves it as it is. */
  lemma {:induction false} KeepingSuffix(dms: (real, real, real) -> real, t: string, c: char, v: real)
    requires c == 'E' || c == 'N'
    requires ParseMagnitude(dms, t) == Ok(v)
    ensures Angles.Parse(dms, t + [c]) == Ok(v)
  {
    EastOrNorthSuffix(dms, t, c);
  }

  /** The text `format` writes for `DdM'S"W` or `DdM'S"N`, read by
      `Angle.parse`: the degrees, minutes and seconds of the magnitude,
      negated by the W or S the formatter wrote for a negative angle.
      `p` names the fields `format` computes; `HemispherePatternFields`
      says the degrees carry no sign of their own here. */
  lemma {:induction false} HemispherePatternRoundTrip(show: real -> string, dms: (real, real, real) -> real,
                                                      h: char, x: real, p: Fields)
    requires h == 'W' || h == 'N'
    requires p == Prepare(AngleFormat(DDMMSS + [h], true), x) && p.degrees < INT_MAX as real
    ensures Angles.Parse(dms, Format(show, AngleFormat(DDMMSS + [h], true), x))
              == Ok(if p.negative then -dms(SignedDegrees(p), p.m as real, p.s as real)
                    else dms(SignedDegrees(p), p.m as real, p.s as real))
  {
    HemisphereValueReadBack(show, dms, AngleFormat(DDMMSS + [h], true), h, x, p,
                            dms(SignedDegrees(p), p.m as real, p.s as real));
  }

  /** With a W or N field the degrees are not negative, carry no sign of
      their own, and the letter is negative exactly for a negative
      angle. */
  lemma {:induction false} HemispherePatternFields(h: char, x: real, p: Fields)
    requires h == 'W' || h == 'N'
    requires p == Prepare(AngleFormat(DDMMSS + [h], true), x) && p.degrees < INT_MAX as real
    ensures p.d >= 0 && p.sign == 1 && SignedDegrees(p) == p.d as real
    ensures p.negative <==> x < 0.0
  {
    HemisphereFields(AngleFormat(DDMMSS + [h], true), x, h);
    FieldsInRange(AngleFormat(DDMMSS + [h], true), x);
  }

  /** The same with the magnitude's value named. */
  lemma {:induction false} HemisphereValueReadBack(show: real -> string, dms: (real, real, real) -> real,
                                                   f: AngleFormat, h: char, x: real, p: Fields, v: real)
    requires (h == 'W' || h == 'N') && f.pattern == DDMMSS + [h] && f.isDegrees
    requires p == Prepare(f, x) && p.degrees < INT_MAX as real
    requires v == dms(SignedDegrees(p), p.m as real, p.s as real)
    ensures Angles.Parse(dms, Format(show, f, x)) == Ok(if p.negative then -v else v)
  {
    SecondsMagnitude(dms, f, x, p);
    HemisphereReadBack(show, dms, f, h, x, p, v);
  }

  /** The hemisphere letter after a readable magnitude gives it its
      sign. */
  lemma {:induction false} HemisphereReadBack(show: real -> string, dms: (real, real, real) -> real,
                                              f: AngleFormat, h: char, x: real, p: Fields, v: real)
    requires (h == 'W' || h == 'N') && f.pattern == DDMMSS + [h]
    requires p == Prepare(f, x) && p.d >= 0
    requires ParseMagnitude(dms, SecondsText(p)) == Ok(v)
    ensures Angles.Parse(dms, Format(show, f, x)) == Ok(if p.negative then -v else v)
  {
    var c := HemisphereLetter(h, p.negative);
    HemisphereFormatText(show, f, x, h, p);
    if p.negative {
      NegatingSuffix(dms, SecondsText(p), c, v);
    } else {
      KeepingSuffix(dms, SecondsText(p), c, v);
    }
  }

  /** The two hemisphere patterns are the seconds pattern and one more
      field. */
  lemma HemispherePatterns()
    ensures DDMMSS_LONG == DDMMSS + ['W'] && DDMMSS_LAT == DDMMSS + ['N']
  {
  }

  /** The letter a W or N field writes. */
  function HemisphereLetter(h: char, negative: bool): char {
    if h == 'W' then (if negative then 'W' else 'E') else (if negative then 'S' else 'N')
  }

  /** A pattern with a W or N field keeps the sign out of the degrees. */
  lemma {:induction false} HemisphereFields(f: AngleFormat, x: real, h: char)
    requires (h == 'W' || h == 'N') && f.pattern == DDMMSS + [h]
    ensures var p := Prepare(f, x);
            p.sign == 1 && (p.negative <==> x < 0.0)
  {
    assert h in f.pattern by {
      assert f.pattern[6] == h;
    }
  }

  /** The whole text `DdM'S"W` or `DdM'S"N` gives. */
  lemma {:induction false} HemisphereFormatText(show: real -> string, f: AngleFormat, x: real, h: char, p: Fields)
    requires (h == 'W' || h == 'N') && f.pattern == DDMMSS + [h]
    requires p == Prepare(f, x) && p.d >= 0
    ensures Format(show, f, x) == SecondsText(p) + [HemisphereLetter(h, p.negative)]
  {
    HemispherePatternText(show, p, h);
    HemispherePieces(show, p);
  }

  // ---------------------------------------------------------------------
  // The abbreviated pattern `DdMmSs`: its closing 's' is the seconds
  // abbreviation, which `Angle.parse` takes for South.

  /** The text `DdMmSs` gives, without its closing 's'. */
  function AbbreviatedText(p: Fields): string
    requires p.d >= 0
  {
    DegreesText(p) + "d" + (Pad02(p.m) + ['m'] + Pad02(p.s))
  }

  /** The whole text `DdMmSs` gives. */
  lemma {:induction false} AbbreviatedPatternText(show: real -> string, p: Fields)
    requires p.d >= 0
    ensures Render(Pieces(show, p), DDMMSS_ABBREV) == AbbreviatedText(p) + "s"
  {
    assert DDMMSS_ABBREV == ['D', 'd', 'M', 'm', 'S', 's'];
    Render6(Pieces(show, p), 'D', 'd', 'M', 'm', 'S', 's');
    FieldPieces(show, p);
    MarkerPieces(show, p);
    RegroupLast(DegreesText(p), "d", Pad02(p.m), ['m'], Pad02(p.s), "s");
  }

  /** The text without its 's' is read as the three fields. */
  lemma {:induction false} AbbreviatedMagnitude(dms: (real, real, real) -> real, f: AngleFormat, x: real, p: Fields)
    requires f.isDegrees && p == Prepare(f, x) && p.degrees < INT_MAX as real
    ensures p.d >= 0
    ensures ParseMagnitude(dms, AbbreviatedText(p)) == Ok(dms(SignedDegrees(p), p.m as real, p.s as real))
  {
    FieldTexts(f, x);
    ReadUnclosed(dms, DegreesText(p), Pad02(p.m), Pad02(p.s), SignedDegrees(p), p.m as real, p.s as real);
  }

  /** Degrees, minutes and seconds with 'd' and 'm' and nothing after the
      seconds. */
  lemma {:induction false} ReadUnclosed(dms: (real, real, real) -> real, dt: string, mt: string,
                                        st: string, d: real, m: real, s: real)
    requires PlainNumber(dt) && PlainNumber(mt) && PlainNumber(st)
    requires ParseDouble(dt) == Ok(d) && ParseDouble(mt) == Ok(m) && ParseDouble(st) == Ok(s)
    requires 0.0 <= m <= 59.0 && 0.0 <= s < 60.0
    ensures ParseMagnitude(dms, dt + "d" + (mt + ['m'] + st)) == Ok(dms(d, m, s))
  {
    assert mt + ['m'] + st == mt + ['m'] + st + "";
    ReadMarked(dms, dt, mt, 'm', st, "", d, m, s);
  }

  /** The text with its 's' is read as the same three fields once the 's'
      is taken for the seconds abbreviation. */
  lemma {:induction false} AbbreviatedWholeMagnitude(dms: (real, real, real) -> real, f: AngleFormat, x: real, p: Fields)
    requires f.isDegrees && p == Prepare(f, x) && p.degrees < INT_MAX as real
    ensures p.d >= 0
    ensures ParseMagnitude(dms, AbbreviatedText(p) + "s") == Ok(dms(SignedDegrees(p), p.m as real, p.s as real))
  {
    FieldTexts(f, x);
    var dt, mt, st := DegreesText(p), Pad02(p.m), Pad02(p.s);
    Regroup(dt, "d", mt, ['m'], st, "s");
    RegroupLast(dt, "d", mt, ['m'], st, "s");
    ReadMarked(dms, dt, mt, 'm', st, "s", SignedDegrees(p), p.m as real, p.s as real);
  }

  /** `Angle.parse` as written: a closing 's' after a readable magnitude
      negates it. */
  lemma {:induction false} SecondsLetterNegates(dms: (real, real, real) -> real, t: string, v: real)
    requires ParseMagnitude(dms, t) == Ok(v)
    ensures Angles.Parse(dms, t + "s") == Ok(-v)
  {
    WestOrSouthSuffix(dms, t, 's');
    NegatedOk(ParseMagnitude(dms, t), v);
  }

  /** With the 's' left out of the hemisphere letters the text is read
      whole. */
  lemma {:induction false} SecondsLetterKept(dms: (real, real, real) -> real, t: string)
    ensures ParseIntended(dms, t + "s") == ParseMagnitude(dms, t + "s")
  {
    StripLast(t, 's', HemisphereOfIntended);
  }

  /** The text `format` writes for `DdMmSs`, read by `Angle.parse` as
      written: the degrees, minutes and seconds the formatter computed,
      negated, whatever the sign of the angle. `p` names the fields
      `format` computes. */
  lemma {:induction false} AbbreviatedPatternAsWritten(show: real -> string, dms: (real, real, real) -> real,
                                                       x: real, p: Fields)
    requires p == Prepare(AngleFormat(DDMMSS_ABBREV, true), x) && p.degrees < INT_MAX as real
    ensures Angles.Parse(dms, Format(show, AngleFormat(DDMMSS_ABBREV, true), x))
              == Ok(-dms(SignedDegrees(p), p.m as real, p.s as real))
  {
    AbbreviatedValueAsWritten(show, dms, AngleFormat(DDMMSS_ABBREV, true), x, p,
                              dms(SignedDegrees(p), p.m as real, p.s as real));
  }

  lemma {:induction false} AbbreviatedValueAsWritten(show: real -> string, dms: (real, real, real) -> real,
                                                     f: AngleFormat, x: real, p: Fields, v: real)
    requires f.pattern == DDMMSS_ABBREV && f.isDegrees
    requires p == Prepare(f, x) && p.degrees < INT_MAX as real
    requires v == dms(SignedDegrees(p), p.m as real, p.s as real)
    ensures Angles.Parse(dms, Format(show, f, x)) == Ok(-v)
  {
    AbbreviatedMagnitude(dms, f, x, p);
    AbbreviatedPatternText(show, p);
    SecondsLetterNegates(dms, AbbreviatedText(p), v);
  }

  /** The same text read with the 's' taken for seconds: the degrees,
      minutes and seconds the formatter computed, with the sign the
      degrees carry. */
  lemma {:induction false} AbbreviatedPatternRoundTrip(show: real -> string, dms: (real, real, real) -> real,
                                                       x: real, p: Fields)
    requires p == Prepare(AngleFormat(DDMMSS_ABBREV, true), x) && p.degrees < INT_MAX as real
    ensures ParseIntended(dms, Format(show, AngleFormat(DDMMSS_ABBREV, true), x))
              == Ok(dms(SignedDegrees(p), p.m as real, p.s as real))
  {
    AbbreviatedValueRoundTrip(show, dms, AngleFormat(DDMMSS_ABBREV, true), x, p,
                              dms(SignedDegrees(p), p.m as real, p.s as real));
  }

  lemma {:induction false} AbbreviatedValueRoundTrip(show: real -> string, dms: (real, real, real) -> real,
                                                     f: AngleFormat, x: real, p: Fields, v: real)
    requires f.pattern == DDMMSS_ABBREV && f.isDegrees
    requires p == Prepare(f, x) && p.degrees < INT_MAX as real
    requires v == dms(SignedDegrees(p), p.m as real, p.s as real)
    ensures ParseIntended(dms, Format(show, f, x)) == Ok(v)
  {
    AbbreviatedWholeMagnitude(dms, f, x, p);
    AbbreviatedPatternText(show, p);
    SecondsLetterKept(dms, AbbreviatedText(p));
  }

  /** The fields `format` computes for 10.5 degrees: 10 degrees, 30
      minutes, 0 seconds. */
  lemma InstanceFields()
    ensures Prepare(AngleFormat(DDMMSS_ABBREV, true), 10.5) == Fields(false, 1, 10.5, 10.5, 10, 0.5, 30, 0)
  {
    assert 'W' !in DDMMSS_ABBREV && 'N' !in DDMMSS_ABBREV;
  }

  /** An instance: `format` writes 10.5 degrees with `DdMmSs` as 10d30m00s,
      which `Angle.parse` reads as minus ten and a half degrees. */
  lemma {:induction false} AbbreviationCounterexample(show: real -> string, dms: (real, real, real) -> real, x: real)
    requires x == 10.5
    ensures Angles.Parse(dms, Format(show, AngleFormat(DDMMSS_ABBREV, true), x)) == Ok(-dms(10.0, 30.0, 0.0))
  {
    InstanceFields();
    AbbreviatedValueAsWritten(show, dms, AngleFormat(DDMMSS_ABBREV, true), x,
                              Fields(false, 1, 10.5, 10.5, 10, 0.5, 30, 0), dms(10.0, 30.0, 0.0));
  }

  /** Read with the 's' taken for seconds, the same text is ten and a half
      degrees again. */
  lemma {:induction false} AbbreviationInstanceIntended(show: real -> string, dms: (real, real, real) -> real, x: real)
    requires x == 10.5
    ensures ParseIntended(dms, Format(show, AngleFormat(DDMMSS_ABBREV, true), x)) == Ok(dms(10.0, 30.0, 0.0))
  {
    InstanceFields();
    AbbreviatedPatternRoundTrip(show, dms, x, Fields(false, 1, 10.5, 10.5, 10, 0.5, 30, 0));
  }

  // ---------------------------------------------------------------------
  // The decimal pattern `D.F`: whole degrees, a point and up to twelve
  // places, read back within a snap and a half of the angle.

  /** What the F field writes for the fields `p`. */
  function FractionText(p: Fields): string {
    FractionDigits(Fixed12(p.dd))
  }

  /** What digits after a point are worth. */
  function FractionWorth(b: string): (w: real)
    requires AllDigits(b)
    ensures w >= 0.0
  {
    DigitsValue(b) as real / Pow10(|b|) as real
  }

  /** The text `D.F` gives. */
  lemma {:induction false} DecimalPatternText(show: real -> string, p: Fields)
    requires p.d >= 0
    ensures Render(Pieces(show, p), DECIMAL) == DegreesText(p) + "." + FractionText(p)
  {
    assert DECIMAL == ['D', '.', 'F'];
    Render3(Pieces(show, p), 'D', '.', 'F');
    FieldPieces(show, p);
    FractionPiece(show, p);
    MarkerPieces(show, p);
  }

  lemma {:induction false} Pow10Add(i: nat, j: nat)
    ensures Pow10(i) * Pow10(j) == Pow10(i + j)
  {
    if j > 0 {
      Pow10Add(i, j - 1);
      assert Pow10(i) * Pow10(j) == 10 * (Pow10(i) * Pow10(j - 1));
    }
  }

  /** A fraction keeps its value when both its parts are scaled. */
  lemma ScaledFraction(a: nat, p: nat, q: nat)
    requires p >= 1 && q >= 1
    ensures a as real / p as real == (a * q) as real / (p * q) as real
  {
    assert (a * q) as real == a as real * q as real;
    assert (p * q) as real == p as real * q as real;
  }

  /** A value rounded half up to twelve places is within half a place of
      it. */
  lemma RoundedUnitsError(x: real)
    requires x >= 0.0
    ensures Abs(RoundedUnits(x) as real / Pow10(PLACES) as real - x) <= SNAP / 2.0
  {
    assert Pow10(PLACES) == 1000000000000;
  }

  /** The F field is worth the decimal degrees to within half of the last
      of its twelve places. */
  lemma {:induction false} FractionValue(f: AngleFormat, x: real, p: Fields)
    requires p == Prepare(f, x) && p.degrees < INT_MAX as real
    ensures var b := FractionText(p);
            |b| > 0 && AllDigits(b)
            && Abs(FractionWorth(b) - p.dd) <= SNAP / 2.0
  {
    FieldsInRange(f, x);
    SnapPreventsCarry(f, x);
    FractionTextValue(p.dd, FractionText(p));
  }

  /** What the F field keeps of a value below one that does not round up
      to one is worth the value to within half of the last place. */
  lemma {:induction false} FractionTextValue(dd: real, b: string)
    requires 0.0 <= dd && RoundedUnits(dd) < Pow10(PLACES)
    requires b == FractionDigits(Fixed12(dd))
    ensures |b| > 0 && AllDigits(b) && Abs(FractionWorth(b) - dd) <= SNAP / 2.0
  {
    var n := RoundedUnits(dd);
    FractionOfFixed12(dd, n, b);
    FractionScaled(b, n);
    RoundedUnitsError(dd);
  }

  /** Digits worth `n` once scaled to twelve places are worth `n` units of
      the twelfth place. */
  lemma {:induction false} FractionScaled(b: string, n: nat)
    requires |b| <= PLACES && AllDigits(b) && DigitsValue(b) * Pow10(PLACES - |b|) == n
    ensures FractionWorth(b) == n as real / Pow10(PLACES) as real
  {
    Pow10Add(|b|, PLACES - |b|);
    ScaledFraction(DigitsValue(b), Pow10(|b|), Pow10(PLACES - |b|));
  }

  /** Signed whole degrees, a point and digits are a plain number. */
  lemma {:induction false} DecimalTextIsPlain(negative: bool, n: int, b: string)
    requires n >= 0 && |b| > 0 && AllDigits(b)
    ensures PlainNumber(SignedText(negative, n) + "." + b)
  {
    var a := SignedText(negative, n);
    DigitsArePlain(IntToString(n));
    var t := a + "." + b;
    forall i | 0 <= i < |t|
      ensures IsDigit(t[i]) || t[i] == '-' || t[i] == '.'
    {
      if i > |a| {
        assert t[i] == b[i - |a| - 1];
      }
    }
    assert t[|t| - 1] == b[|b| - 1];
  }

  /** ... and are read back as the whole degrees plus the fraction, `w`,
      with the sign. `t` names the text. */
  lemma {:induction false} DecimalTextReadBack(negative: bool, n: int, b: string, w: real, t: string)
    requires n >= 0 && |b| > 0 && AllDigits(b)
    requires w == n as real + DigitsValue(b) as real / Pow10(|b|) as real
    requires t == SignedText(negative, n) + "." + b
    ensures ParseDouble(t) == Ok(if negative then -w else w)
  {
    if negative {
      NegatedDecimalText(n, NatToString(n), b, w, t);
    } else {
      UnsignedDecimalText(n, NatToString(n), b, w, t);
    }
  }

  lemma {:induction false} NegatedDecimalText(n: nat, a: string, b: string, w: real, t: string)
    requires a == NatToString(n) && |b| > 0 && AllDigits(b)
    requires w == n as real + DigitsValue(b) as real / Pow10(|b|) as real
    requires t == SignedText(true, n) + "." + b
    ensures ParseDouble(t) == Ok(-w)
  {
    assert t == "-" + (a + "." + b);
    NegatedDecimal(a, b, w, t);
  }

  lemma {:induction false} UnsignedDecimalText(n: nat, a: string, b: string, w: real, t: string)
    requires a == NatToString(n) && |b| > 0 && AllDigits(b)
    requires w == n as real + DigitsValue(b) as real / Pow10(|b|) as real
    requires t == SignedText(false, n) + "." + b
    ensures ParseDouble(t) == Ok(w)
  {
    UnsignedDecimal(a, b, w, t);
  }

  /** A plain number is read by `Angle.parse` as `Double.valueOf` reads
      it. */
  lemma {:induction false} PlainNumberReadWhole(dms: (real, real, real) -> real, t: string)
    requires PlainNumber(t)
    ensures Angles.Parse(dms, t) == ParseDouble(t)
  {
    assert 'd' !in t && DEGREE_SIGN !in t by {
      forall i | 0 <= i < |t| ensures t[i] != 'd' && t[i] != DEGREE_SIGN { }
    }
    NoSuffixReadWhole(dms, t);
  }

  /** The value `D.F` writes for the fields `p`: the whole degrees plus the
      fraction, with the sign the D field gives. */
  function DecimalValue(p: Fields): real {
    var b := FractionText(p);
    var u := p.d as real + (if AllDigits(b) then FractionWorth(b) else 0.0);
    if p.sign == -1 then -u else u
  }

  /** The text `format` writes for `D.F`, read by `Angle.parse`: the value
      it writes. */
  lemma {:induction false} DecimalValueReadBack(show: real -> string, dms: (real, real, real) -> real,
                                                f: AngleFormat, x: real, p: Fields)
    requires f.pattern == DECIMAL && f.isDegrees
    requires p == Prepare(f, x) && p.degrees < INT_MAX as real
    ensures Angles.Parse(dms, Format(show, f, x)) == Ok(DecimalValue(p))
  {
    FieldsInRange(f, x);
    FractionValue(f, x, p);
    var b := FractionText(p);
    DecimalPatternText(show, p);
    DecimalTextIsPlain(p.sign == -1, p.d, b);
    var w := p.d as real + FractionWorth(b);
    DecimalTextReadBack(p.sign == -1, p.d, b, w, DegreesText(p) + "." + b);
    DecimalValueSigned(p, w);
    PlainNumberReadWhole(dms, DegreesText(p) + "." + b);
  }

  /** The value of `D.F` is the whole degrees plus the fraction, with the
      sign of the D field. */
  lemma DecimalValueSigned(p: Fields, w: real)
    requires AllDigits(FractionText(p)) && w == p.d as real + FractionWorth(FractionText(p))
    ensures DecimalValue(p) == if p.sign == -1 then -w else w
  {
  }

  /** Without the sign, the value `D.F` writes is within a snap and a half
      of the magnitude of the angle. */
  lemma {:induction false} DecimalMagnitudeError(f: AngleFormat, x: real, p: Fields)
    requires f.pattern == DECIMAL && f.isDegrees
    requires p == Prepare(f, x) && p.degrees < INT_MAX as real
    ensures var b := FractionText(p);
            AllDigits(b)
            && var u := p.d as real + FractionWorth(b);
               0.0 <= u && Abs(u - Abs(x)) <= SNAP + SNAP / 2.0
  {
    FractionValue(f, x, p);
    DegreesNearAngle(f, x, p);
    SumError(p.d as real, p.dd, p.degrees, FractionWorth(FractionText(p)), Abs(x));
  }

  /** In a format in degrees, the snapped degrees are within a snap of the
      magnitude of the angle. */
  lemma DegreesNearAngle(f: AngleFormat, x: real, p: Fields)
    requires f.isDegrees && p == Prepare(f, x) && p.degrees < INT_MAX as real
    ensures 0 <= p.d && p.dd == p.degrees - p.d as real
    ensures Abs(p.degrees - Abs(x)) <= SNAP
  {
    FieldsInRange(f, x);
  }

  /** Whole degrees plus a fraction within half a snap of the decimal
      degrees, which are within a snap of the angle. */
  lemma SumError(d: real, dd: real, degrees: real, fraction: real, magnitude: real)
    requires 0.0 <= d && dd == degrees - d && 0.0 <= fraction
    requires Abs(fraction - dd) <= SNAP / 2.0 && Abs(degrees - magnitude) <= SNAP
    ensures 0.0 <= d + fraction && Abs(d + fraction - magnitude) <= SNAP + SNAP / 2.0
  {
  }

  /** That value is within a snap and a half of the angle, on the same
      side of zero. */
  lemma {:induction false} DecimalValueError(f: AngleFormat, x: real, p: Fields)
    requires f.pattern == DECIMAL && f.isDegrees
    requires p == Prepare(f, x) && p.degrees < INT_MAX as real
    ensures Abs(DecimalValue(p) - x) <= SNAP + SNAP / 2.0
    ensures x < 0.0 ==> DecimalValue(p) <= 0.0
    ensures x >= 0.0 ==> DecimalValue(p) >= 0.0
  {
    assert 'W' !in f.pattern && 'N' !in f.pattern by {
      assert f.pattern == ['D', '.', 'F'];
    }
    assert p.sign == -1 <==> x < 0.0;
    DecimalMagnitudeError(f, x, p);
  }

  /** The text `format` writes for `D.F` with the degrees of `x`, read by
      `Angle.parse`: within a snap and a half of `x`, on the same side of
      zero. `p` names the fields `format` computes. */
  lemma {:induction false} DecimalPatternRoundTrip(show: real -> string, dms: (real, real, real) -> real,
                                                   x: real, p: Fields)
    requires p == Prepare(AngleFormat(DECIMAL, true), x) && p.degrees < INT_MAX as real
    ensures var r := Angles.Parse(dms, Format(show, AngleFormat(DECIMAL, true), x));
            r.Ok? && Abs(r.value - x) <= SNAP + SNAP / 2.0
            && (x < 0.0 ==> r.value <= 0.0) && (x >= 0.0 ==> r.value >= 0.0)
  {
    DecimalResultError(show, dms, x, p, Angles.Parse(dms, Format(show, AngleFormat(DECIMAL, true), x)));
  }

  lemma {:induction false} DecimalResultError(show: real -> string, dms: (real, real, real) -> real,
                                              x: real, p: Fields, r: Result<real>)
    requires p == Prepare(AngleFormat(DECIMAL, true), x) && p.degrees < INT_MAX as real
    requires r == Angles.Parse(dms, Format(show, AngleFormat(DECIMAL, true), x))
    ensures r.Ok? && Abs(r.value - x) <= SNAP + SNAP / 2.0
    ensures x < 0.0 ==> r.value <= 0.0
    ensures x >= 0.0 ==> r.value >= 0.0
  {
    DecimalValueReadBack(show, dms, AngleFormat(DECIMAL, true), x, p);
    DecimalValueError(AngleFormat(DECIMAL, true), x, p);
  }
}

=== FILE: coordinate_reference_system.dfy ===
/** `org.osgeo.proj4j.CoordinateReferenceSystem`: the same members as
    `CoordinateSystem` in a class of its own. A name, the parameter strings it
    was built from, a datum and a projection, each of which may be null. */
module CoordinateReferenceSystems {
  import opened Outcomes
  import opened Ellipsoids
  import opened Datums
  import opened Projections
  import ParameterText
  import CoordinateSystems

  datatype CoordinateReferenceSystem = CoordinateReferenceSystem(
    name: Option<string>,
    params: Option<seq<string>>,
    datum: Option<Ref<Datum>>,
    proj: Option<Projection>)

  /** The constructor stores its four arguments. It also computes
      `CoordinateSystems.DefaultName(proj)` for a null name, but into its
      parameter, so the computed name is lost. */
  function Create(name: Option<string>, params: Option<seq<string>>,
                  datum: Option<Ref<Datum>>, proj: Option<Projection>): CoordinateReferenceSystem
  {
    CoordinateReferenceSystem(name, params, datum, proj)
  }

  /** The address of the `CS_GEO` object. */
  const GEO_ADDRESS: nat := 0

  /** `CS_GEO`: geographic coordinates, with no parameters, datum or
      projection. */
  function CsGeo(): Ref<CoordinateReferenceSystem> {
    Ref(GEO_ADDRESS, Create(Some("CS_GEO"), None, None, None))
  }

  function GetName(cs: CoordinateReferenceSystem): Option<string> { cs.name }
  function GetParameters(cs: CoordinateReferenceSystem): Option<seq<string>> { cs.params }
  function GetDatum(cs: CoordinateReferenceSystem): Option<Ref<Datum>> { cs.datum }
  function GetProjection(cs: CoordinateReferenceSystem): Option<Projection> { cs.proj }

  /** `getEllipsoid` asks the projection for it, so a coordinate system
      without one fails with a null dereference. */
  function GetEllipsoid(cs: CoordinateReferenceSystem): (r: Result<Ellipsoid>)
    ensures r.Err? <==> cs.proj.None?
    ensures r.Err? ==> r.error == NullDereference
    ensures r.Ok? ==> r.value == cs.proj.value.ellipsoid
  {
    if cs.proj.None? then Err(NullDereference) else Ok(cs.proj.value.ellipsoid)
  }

  /** `getParameterString` */
  method GetParameterString(cs: CoordinateReferenceSystem) returns (s: string)
    ensures cs.params.None? ==> s == ""
    ensures cs.params.Some? ==> s == ParameterText.Spaced(cs.params.value)
  {
    s := ParameterText.Join(cs.params);
  }

  /** The getters hand back the constructor's arguments unchanged. */
  lemma GettersReturnArguments(name: Option<string>, params: Option<seq<string>>,
                               datum: Option<Ref<Datum>>, proj: Option<Projection>)
    ensures GetName(Create(name, params, datum, proj)) == name
    ensures GetParameters(Create(name, params, datum, proj)) == params
    ensures GetDatum(Create(name, params, datum, proj)) == datum
    ensures GetProjection(Create(name, params, datum, proj)) == proj
  {
  }

  /** The computed default name never reaches `getName`: a null name stays
      null. */
  lemma NullNameStaysNull(params: Option<seq<string>>, datum: Option<Ref<Datum>>, proj: Option<Projection>)
    ensures GetName(Create(None, params, datum, proj)) == None
    ensures GetName(Create(None, params, datum, proj)) != Some(CoordinateSystems.DefaultName(proj))
  {
  }

  /** `CS_GEO` has no parameters, datum or projection, so its parameter
      string is empty and asking for its ellipsoid fails. */
  lemma CsGeoIsBare()
    ensures GetName(CsGeo().target) == Some("CS_GEO")
    ensures GetParameters(CsGeo().target).None?
    ensures GetDatum(CsGeo().target).None?
    ensures GetProjection(CsGeo().target).None?
    ensures GetEllipsoid(CsGeo().target) == Err(NullDereference)
  {
  }
}

=== FILE: coordinate_system.dfy ===
/** `org.osgeo.proj4j.CoordinateSystem`: a name, the parameter strings it was
    built from, a datum and a projection, each of which may be null. */
module CoordinateSystems {
  import opened Outcomes
  import opened Ellipsoids
  import opened Datums
  import opened Projections
  import ParameterText

  datatype CoordinateSystem = CoordinateSystem(
    name: Option<string>,
    params: Option<seq<string>>,
    datum: Option<Ref<Datum>>,
    proj: Option<Projection>)

  /** The name the constructor computes for a null name argument: the
      projection's name, or "null-proj" without one, followed by "-CS". */
  function DefaultName(proj: Option<Projection>): (n: string)
    ensures |n| >= 3 && n[|n| - 3..] == "-CS"
    ensures proj.None? ==> n[..|n| - 3] == "null-proj"
    ensures proj.Some? ==> n[..|n| - 3] == proj.value.name
  {
    (if proj.Some? then proj.value.name else "null-proj") + "-CS"
  }

  /** The constructor stores its four arguments. It also computes
      `DefaultName(proj)` for a null name, but into its parameter, so the
      computed name is lost. */
  function Create(name: Option<string>, params: Option<seq<string>>,
                  datum: Option<Ref<Datum>>, proj: Option<Projection>): CoordinateSystem
  {
    CoordinateSystem(name, params, datum, proj)
  }

  /** The address of the `CS_GEO` object. */
  const GEO_ADDRESS: nat := 0

  /** `CS_GEO`: geographic coordinates, with no parameters, datum or
      projection. */
  function CsGeo(): Ref<CoordinateSystem> {
    Ref(GEO_ADDRESS, Create(Some("CS_GEO"), None, None, None))
  }

  function GetName(cs: CoordinateSystem): Option<string> { cs.name }
  function GetParameters(cs: CoordinateSystem): Option<seq<string>> { cs.params }
  function GetDatum(cs: CoordinateSystem): Option<Ref<Datum>> { cs.datum }
  function GetProjection(cs: CoordinateSystem): Option<Projection> { cs.proj }

  /** `getEllipsoid` asks the projection for it, so a coordinate system
      without one fails with a null dereference. */
  function GetEllipsoid(cs: CoordinateSystem): (r: Result<Ellipsoid>)
    ensures r.Err? <==> cs.proj.None?
    ensures r.Err? ==> r.error == NullDereference
    ensures r.Ok? ==> r.value == cs.proj.value.ellipsoid
  {
    if cs.proj.None? then Err(NullDereference) else Ok(cs.proj.value.ellipsoid)
  }

  /** `getParameterString` */
  method GetParameterString(cs: CoordinateSystem) returns (s: string)
    ensures cs.params.None? ==> s == ""
    ensures cs.params.Some? ==> s == ParameterText.Spaced(cs.params.value)
  {
    s := ParameterText.Join(cs.params);
  }

  /** The getters hand back the constructor's arguments unchanged. */
  lemma GettersReturnArguments(name: Option<string>, params: Option<seq<string>>,
                               datum: Option<Ref<Datum>>, proj: Option<Projection>)
    ensures GetName(Create(name, params, datum, proj)) == name
    ensures GetParameters(Create(name, params, datum, proj)) == params
    ensures GetDatum(Create(name, params, datum, proj)) == datum
    ensures GetProjection(Create(name, params, datum, proj)) == proj
  {
  }

  /** The computed default name never reaches `getName`: a null name stays
      null. */
  lemma NullNameStaysNull(params: Option<seq<string>>, datum: Option<Ref<Datum>>, proj: Option<Projection>)
    ensures GetName(Create(None, params, datum, proj)) == None
    ensures GetName(Create(None, params, datum, proj)) != Some(DefaultName(proj))
  {
  }

  /** `CS_GEO` has no parameters, datum or projection, so its parameter
      string is empty and asking for its ellipsoid fails. */
  lemma CsGeoIsBare()
    ensures GetName(CsGeo().target) == Some("CS_GEO")
    ensures GetParameters(CsGeo().target).None?
    ensures GetDatum(CsGeo().target).None?
    ensures GetProjection(CsGeo().target).None?
    ensures GetEllipsoid(CsGeo().target) == Err(NullDereference)
  {
  }
}

=== FILE: coordinates.dfy ===
/** The coordinate values that flow through the transformation pipeline. */
module Coordinates {
  import opened Outcomes

  /** A planar or geographic point (`java.awt.geom.Point2D.Double`):
      projected units, or longitude/latitude in radians. */
  datatype Point2 = Point2(x: real, y: real)

  /** A geodetic position (`ProjCoordinate` read as longitude, latitude and
      height). A missing height (`None`) is the NaN `z` that
      `hasValidZOrdinate` rejects. */
  datatype Geodetic = Geodetic(lon: real, lat: real, height: Option<real>)

  /** An earth-centred cartesian position in metres (`ProjCoordinate` read
      as X, Y, Z). */
  datatype Vec3 = Vec3(x: real, y: real, z: real)
}

=== FILE: datum.dfy ===
/** `org.osgeo.proj4j.Datum`: an ellipsoid plus an optional vector of shift
    parameters relating the datum's geocentric frame to WGS84's. */
module Datums {
  import opened Outcomes
  import opened JavaMath
  import opened Ellipsoids
  import opened Coordinates

  /** The `TYPE_*` constants. */
  datatype DatumType = Unknown | Wgs84Type | ThreeParam | SevenParam | GridShift

  /** The integer value of each `TYPE_*` constant. */
  function TypeCode(t: DatumType): int {
    match t
    case Unknown => 0
    case Wgs84Type => 1
    case ThreeParam => 2
    case SevenParam => 3
    case GridShift => 4
  }

  /** `transform` is `None` when the Java array is `null`. */
  datatype Datum = Datum(code: string, name: string, ellipsoid: Ellipsoid, transform: Option<seq<real>>)

  /** The constructor `(code, transform, ellipsoid, name)`: stores its arguments. */
  function Create(code: string, transform: Option<seq<real>>, ellipsoid: Ellipsoid, name: string): Datum {
    Datum(code, name, ellipsoid, transform)
  }

  /** The 3-parameter constructor: a pure translation. */
  function Create3(code: string, dx: real, dy: real, dz: real, ellipsoid: Ellipsoid, name: string): (d: Datum)
    ensures GetType(d) == ThreeParam && IsTransform(d)
    ensures d.transform.value[0] == dx && d.transform.value[1] == dy && d.transform.value[2] == dz
  {
    Create(code, Some([dx, dy, dz]), ellipsoid, name)
  }

  /** The 7-parameter constructor as written: the slot of the z rotation
      receives `rx` a second time, and `rz` is dropped. */
  function Create7(code: string, dx: real, dy: real, dz: real, rx: real, ry: real, rz: real, mbf: real,
                   ellipsoid: Ellipsoid, name: string): (d: Datum)
    ensures GetType(d) == SevenParam && IsTransform(d)
    ensures d.transform.value[3] == d.transform.value[5] == rx
    ensures d.transform.value[..3] == [dx, dy, dz] && d.transform.value[4] == ry && d.transform.value[6] == mbf
  {
    Create(code, Some([dx, dy, dz, rx, ry, rx, mbf]), ellipsoid, name)
  }

  /** The 7-parameter constructor with `rz` stored in the z-rotation slot. */
  function Create7Intended(code: string, dx: real, dy: real, dz: real, rx: real, ry: real, rz: real, mbf: real,
                           ellipsoid: Ellipsoid, name: string): (d: Datum)
    ensures GetType(d) == SevenParam
    ensures d.transform.value[3] == rx && d.transform.value[4] == ry && d.transform.value[5] == rz
  {
    Create(code, Some([dx, dy, dz, rx, ry, rz, mbf]), ellipsoid, name)
  }

  /** `getType`: the datum type follows from the length of the shift vector
      alone; a null vector and every length other than 3 and 7 give WGS84. */
  function GetType(d: Datum): (t: DatumType)
    ensures t in {Wgs84Type, ThreeParam, SevenParam}
  {
    if d.transform.None? then Wgs84Type
    else if |d.transform.value| == 3 then ThreeParam
    else if |d.transform.value| == 7 then SevenParam
    else Wgs84Type
  }

  /** `isTransform`: the datum carries a shift to apply. */
  predicate IsTransform(d: Datum)
    ensures IsTransform(d) <==> d.transform.Some? && (|d.transform.value| == 3 || |d.transform.value| == 7)
  {
    GetType(d) == ThreeParam || GetType(d) == SevenParam
  }

  /** `isEqual` as written. The ellipsoid guard compares this datum's radius
      with itself and so never rejects; the shift vectors are compared only
      when the type is 3-parameter, the test naming `TYPE_3PARAM` twice. */
  function IsEqual(d: Datum, other: Datum): (r: bool)
    ensures r <==> GetType(d) == GetType(other)
                   && (GetType(d) == ThreeParam ==> d.transform == other.transform)
  {
    if GetType(d) != GetType(other) then false
    else if d.ellipsoid.equatorRadius != d.ellipsoid.equatorRadius
            && Abs(d.ellipsoid.eccentricity2 - other.ellipsoid.eccentricity2) > 0.000000000050 then false
    else if GetType(d) == ThreeParam || GetType(d) == ThreeParam then
      assert |other.transform.value| == |d.transform.value|;
      assert (forall i | 0 <= i < |d.transform.value| :: d.transform.value[i] == other.transform.value[i])
             <==> d.transform.value == other.transform.value;
      forall i | 0 <= i < |d.transform.value| :: d.transform.value[i] == other.transform.value[i]
    else true
  }

  /** `isEqual` with the guard comparing the two datums' radii and the
      element-by-element comparison covering 7-parameter datums as well. */
  function IsEqualIntended(d: Datum, other: Datum): bool {
    if GetType(d) != GetType(other) then false
    else if d.ellipsoid.equatorRadius != other.ellipsoid.equatorRadius
            && Abs(d.ellipsoid.eccentricity2 - other.ellipsoid.eccentricity2) > 0.000000000050 then false
    else if GetType(d) == ThreeParam || GetType(d) == SevenParam then
      assert |other.transform.value| == |d.transform.value|;
      forall i | 0 <= i < |d.transform.value| :: d.transform.value[i] == other.transform.value[i]
    else true
  }

  /** `transformFromGeocentricToWgs84`: a translation for 3 parameters, the
      Bursa-Wolf similarity for 7, and nothing for any other length. The
      source dereferences the vector, so it must not be null. */
  function FromGeocentricToWgs84(d: Datum, p: Vec3): (r: Vec3)
    requires d.transform.Some?
    ensures |d.transform.value| != 3 && |d.transform.value| != 7 ==> r == p
    ensures |d.transform.value| == 3 ==>
              r.x - p.x == d.transform.value[0] && r.y - p.y == d.transform.value[1]
              && r.z - p.z == d.transform.value[2]
  {
    var t := d.transform.value;
    if |t| == 3 then
      Vec3(p.x + t[0], p.y + t[1], p.z + t[2])
    else if |t| == 7 then
      var dx, dy, dz, rx, ry, rz, m := t[0], t[1], t[2], t[3], t[4], t[5], t[6];
      Vec3(m * (p.x - rz * p.y + ry * p.z) + dx,
           m * (rz * p.x + p.y - rx * p.z) + dy,
           m * (-ry * p.x + rx * p.y + p.z) + dz)
    else
      p
  }

  /** The datums whose 7-parameter shift can be undone: the scale factor is
      a divisor in `transformToGeocentricFromWgs84`. */
  predicate HasInvertibleScale(d: Datum) {
    d.transform.Some? && (|d.transform.value| == 7 ==> d.transform.value[6] != 0.0)
  }

  /** `transformToGeocentricFromWgs84`: the reverse of the above, the
      rotation being undone by its transpose. */
  function ToGeocentricFromWgs84(d: Datum, p: Vec3): (r: Vec3)
    requires HasInvertibleScale(d)
    ensures |d.transform.value| != 3 && |d.transform.value| != 7 ==> r == p
    ensures |d.transform.value| == 3 ==>
              p.x - r.x == d.transform.value[0] && p.y - r.y == d.transform.value[1]
              && p.z - r.z == d.transform.value[2]
  {
    var t := d.transform.value;
    if |t| == 3 then
      Vec3(p.x - t[0], p.y - t[1], p.z - t[2])
    else if |t| == 7 then
      var dx, dy, dz, rx, ry, rz, m := t[0], t[1], t[2], t[3], t[4], t[5], t[6];
      var xt, yt, zt := (p.x - dx) / m, (p.y - dy) / m, (p.z - dz) / m;
      Vec3(xt + rz * yt - ry * zt,
           -rz * xt + yt + rx * zt,
           ry * xt - rx * yt + zt)
    else
      p
  }

  // ---------------------------------------------------------------------
  // Properties of the shifts.

  /** For a 3-parameter datum the two shifts undo each other exactly, in
      either order. */
  lemma ThreeParamRoundTrip(d: Datum, p: Vec3)
    requires GetType(d) == ThreeParam
    ensures ToGeocentricFromWgs84(d, FromGeocentricToWgs84(d, p)) == p
    ensures FromGeocentricToWgs84(d, ToGeocentricFromWgs84(d, p)) == p
  {
  }

  /** A 7-parameter datum whose three rotations are zero is a scaled
      translation, and the two shifts undo each other exactly. */
  lemma SevenParamRoundTripWithoutRotation(d: Datum, p: Vec3)
    requires GetType(d) == SevenParam && HasInvertibleScale(d)
    requires d.transform.value[3] == d.transform.value[4] == d.transform.value[5] == 0.0
    ensures ToGeocentricFromWgs84(d, FromGeocentricToWgs84(d, p)) == p
    ensures FromGeocentricToWgs84(d, ToGeocentricFromWgs84(d, p)) == p
  {
    var t := d.transform.value;
    var m := t[6];
    var q := FromGeocentricToWgs84(d, p);
    assert q == Vec3(m * p.x + t[0], m * p.y + t[1], m * p.z + t[2]);
    assert (q.x - t[0]) / m == p.x && (q.y - t[1]) / m == p.y && (q.z - t[2]) / m == p.z;
    var q' := ToGeocentricFromWgs84(d, p);
    assert q' == Vec3((p.x - t[0]) / m, (p.y - t[1]) / m, (p.z - t[2]) / m);
    assert m * ((p.x - t[0]) / m) == p.x - t[0];
    assert m * ((p.y - t[1]) / m) == p.y - t[1];
    assert m * ((p.z - t[2]) / m) == p.z - t[2];
  }

  /** A shift vector of any length other than 3 and 7 leaves the point
      where it is, in both directions. */
  lemma OtherLengthsLeavePointUnchanged(d: Datum, p: Vec3)
    requires d.transform.Some? && !IsTransform(d)
    ensures FromGeocentricToWgs84(d, p) == p
    ensures ToGeocentricFromWgs84(d, p) == p
  {
  }

  // ---------------------------------------------------------------------
  // Properties of equality.

  /** The as-written `isEqual` never looks at the ellipsoids. */
  lemma IsEqualIgnoresEllipsoids(d: Datum, other: Datum, e: Ellipsoid, e': Ellipsoid)
    ensures IsEqual(d.(ellipsoid := e), other.(ellipsoid := e')) == IsEqual(d, other)
  {
  }

  /** Any two 7-parameter datums are `isEqual`, whatever their shifts. */
  lemma SevenParamDatumsAreAllEqual(d: Datum, other: Datum)
    requires GetType(d) == SevenParam && GetType(other) == SevenParam
    ensures IsEqual(d, other)
  {
  }

  /** `isEqual` is reflexive and symmetric. */
  lemma IsEqualReflexiveSymmetric(d: Datum, other: Datum)
    ensures IsEqual(d, d)
    ensures IsEqual(d, other) == IsEqual(other, d)
  {
  }

  /** The corrected rule is sound for the shortcut it guards: equal datums
      carry identical shift vectors and, unless their radii agree, nearly
      equal eccentricities. */
  lemma IsEqualIntendedIsSound(d: Datum, other: Datum)
    requires IsEqualIntended(d, other)
    ensures GetType(d) == GetType(other)
    ensures IsTransform(d) ==> d.transform == other.transform
    ensures d.ellipsoid.equatorRadius == other.ellipsoid.equatorRadius
            || Abs(d.ellipsoid.eccentricity2 - other.ellipsoid.eccentricity2) <= 0.000000000050
  {
    if IsTransform(d) {
      var t, u := d.transform.value, other.transform.value;
      assert |t| == |u|;
      assert forall i | 0 <= i < |t| :: t[i] == u[i];
      assert t == u;
    }
  }

  /** Under the corrected rule, shifting to WGS84 with one datum and back
      with a datum it equals restores a point whenever the shifts are exact
      inverses (3 parameters, or 7 without rotation). */
  lemma IsEqualIntendedMakesShortcutExact(d: Datum, other: Datum, p: Vec3)
    requires IsEqualIntended(d, other) && IsTransform(d) && HasInvertibleScale(d)
    requires GetType(d) == SevenParam ==> d.transform.value[3] == d.transform.value[4] == d.transform.value[5] == 0.0
    ensures HasInvertibleScale(other)
    ensures ToGeocentricFromWgs84(other, FromGeocentricToWgs84(d, p)) == p
  {
    IsEqualIntendedIsSound(d, other);
    if GetType(d) == ThreeParam {
      ThreeParamRoundTrip(d, p);
    } else {
      SevenParamRoundTripWithoutRotation(d, p);
    }
  }

  // ---------------------------------------------------------------------
  // The well-known datums (the static constants of the class).

  function Wgs84(m: Transcendentals): Datum { Create3("WGS84", 0.0, 0.0, 0.0, Ellipsoids.Wgs84(m), "WGS84") }
  function Ggrs87(m: Transcendentals): Datum { Create3("GGRS87", -199.87, 74.79, 246.62, Grs80(m), "Greek_Geodetic_Reference_System_1987") }
  function Nad83(m: Transcendentals): Datum { Create3("NAD83", 0.0, 0.0, 0.0, Grs80(m), "North_American_Datum_1983") }
  function Potsdam(m: Transcendentals): Datum { Create3("potsdam", 606.0, 23.0, 413.0, Bessel(m), "Potsdam Rauenberg 1950 DHDN") }
  function Carthage(m: Transcendentals): Datum { Create3("carthage", -263.0, 6.0, 431.0, Clarke1880(m), "Carthage 1934 Tunisia") }
  function Hermannskogel(m: Transcendentals): Datum { Create3("hermannskogel", 653.0, -212.0, 449.0, Bessel(m), "Hermannskogel") }
  function Ire65(m: Transcendentals): Datum { Create7("ire65", 482.530, -130.596, 564.557, -1.042, -0.214, -0.631, 8.15, ModAiry(m), "Ireland 1965") }
  function Nzgd49(m: Transcendentals): Datum { Create7("nzgd49", 59.47, -5.04, 187.44, 0.47, -0.1, 1.024, -4.5993, International(m), "New Zealand Geodetic Datum 1949") }
  function Oseb36(m: Transcendentals): Datum { Create7("OSGB36", 446.448, -125.157, 542.060, 0.1502, 0.2470, 0.8421, -20.4894, Airy(m), "Airy 1830") }

  /** `Datum.WGS84` is not of type WGS84: it is a 3-parameter datum with a
      zero shift, and so `isTransform`. */
  lemma Wgs84IsZeroThreeParam(m: Transcendentals)
    ensures GetType(Wgs84(m)) == ThreeParam && IsTransform(Wgs84(m))
    ensures Wgs84(m).transform == Some([0.0, 0.0, 0.0])
  {
  }

  /** WGS84 and NAD83 are zero 3-parameter datums on different ellipsoids;
      each `isEqual` the other. */
  lemma Wgs84AndNad83AreEqual(m: Transcendentals)
    ensures IsEqual(Wgs84(m), Nad83(m)) && IsEqual(Nad83(m), Wgs84(m))
    ensures Wgs84(m).ellipsoid != Nad83(m).ellipsoid
  {
    Wgs84IsNotGrs80(m);
  }

  /** As written, the 7-parameter constructor gives IRE65 a z rotation of
      -1.042 (its x rotation) instead of -0.631, and the shift applies it:
      the unit Y vector is moved along X by 1.042 times the scale factor. */
  lemma Ire65LosesItsZRotation(m: Transcendentals)
    ensures Ire65(m).transform.value[5] == -1.042
    ensures FromGeocentricToWgs84(Ire65(m), Vec3(0.0, 1.0, 0.0)).x == 8.15 * 1.042 + 482.530
  {
  }

  /** With the corrected constructor, the z rotation applied is `rz`. */
  lemma Create7IntendedAppliesRz(code: string, rx: real, ry: real, rz: real, e: Ellipsoid, name: string)
    ensures FromGeocentricToWgs84(Create7Intended(code, 0.0, 0.0, 0.0, rx, ry, rz, 1.0, e, name),
                                  Vec3(0.0, 1.0, 0.0)).x == -rz
  {
  }

  /** As written, IRE65 and NZGD49 are `isEqual` although all their shift
      parameters differ; the corrected rule tells them apart. */
  lemma Ire65EqualsNzgd49(m: Transcendentals)
    ensures IsEqual(Ire65(m), Nzgd49(m))
    ensures !IsEqualIntended(Ire65(m), Nzgd49(m))
  {
    assert Ire65(m).transform.value[0] != Nzgd49(m).transform.value[0];
  }

  /** As written, a zero 3-parameter datum on Clarke 1866 `isEqual` WGS84,
      although both the radii and the eccentricities differ; the corrected
      guard rejects the pair. */
  lemma EllipsoidGuardNeverRejects(m: Transcendentals)
    ensures IsEqual(Create3("clrk66", 0.0, 0.0, 0.0, Clarke1866(m), "clrk66"), Wgs84(m))
    ensures !IsEqualIntended(Create3("clrk66", 0.0, 0.0, 0.0, Clarke1866(m), "clrk66"), Wgs84(m))
  {
    var c := Clarke1866(m).eccentricity2;
    var w := Ellipsoids.Wgs84(m).eccentricity2;
    assert (1.0 - c) * 6378206.4 * 6378206.4 == 6356583.8 * 6356583.8;
    assert c > 0.0067;
    assert w * 298.257223563 * 298.257223563 == 2.0 * 298.257223563 - 1.0;
    assert w < 0.0067;
  }
}

=== FILE: datum_parameters.dfy ===
/** `org.osgeo.proj4j.parser.DatumParameters`: the parsed datum and
    ellipsoid settings of one coordinate system, and the precedence rules
    among them. A named datum or ellipsoid, once stored, wins; setting a
    shift vector or a single ellipsoid parameter clears it, so that the
    getters build a "user" datum or ellipsoid from the individual fields. */
module DatumParameters {
  import opened Outcomes
  import opened JavaMath
  import opened Ellipsoids
  import opened Datums

  /** The five private fields. */
  datatype State = State(
    datum: Option<Datum>,
    datumTransform: Option<seq<real>>,
    ellipsoid: Option<Ellipsoid>,
    a: real,
    es: real)

  /** A stored ellipsoid, if any, agrees with the `a` and `es` fields. */
  predicate Coherent(st: State) {
    st.ellipsoid.Some? ==> st.ellipsoid.value.equatorRadius == st.a && st.ellipsoid.value.eccentricity2 == st.es
  }

  /** The constructor: field defaults, then `setDatum(Datum.WGS84)`. */
  function Init(m: Transcendentals): (st: State)
    ensures Coherent(st)
    ensures st.datum == Some(Datums.Wgs84(m)) && st.ellipsoid.None?
  {
    SetDatum(State(None, None, None, 0.0, 0.0), Datums.Wgs84(m))
  }

  /** `getEllipsoid`: the stored ellipsoid, else a fresh "user" one built by
      the four-argument constructor from `a` and `es`. */
  function GetEllipsoid(m: Transcendentals, st: State): (e: Ellipsoid)
    ensures Coherent(st) ==> e.equatorRadius == st.a && e.eccentricity2 == st.es
    ensures st.ellipsoid.None? ==> e.shortName == "user" && e.name == "User-defined"
  {
    if st.ellipsoid.Some? then st.ellipsoid.value
    else CreateWithEccentricity(m, "user", st.a, st.es, "User-defined")
  }

  /** `getDatum`: the stored datum, else a fresh "user" one built from the
      shift vector and `getEllipsoid()`. */
  function GetDatum(m: Transcendentals, st: State): (d: Datum)
    ensures st.datum.None? ==> (d.code == "user" && d.transform == st.datumTransform
                               && d.ellipsoid == GetEllipsoid(m, st))
  {
    if st.datum.Some? then st.datum.value
    else Datums.Create("user", st.datumTransform, GetEllipsoid(m, st), "User-defined")
  }

  /** `setDatumTransform`: stores the vector and clears the datum. */
  function SetDatumTransform(st: State, transform: Option<seq<real>>): (r: State)
    ensures r.datum.None? && r.datumTransform == transform
    ensures r.ellipsoid == st.ellipsoid && r.a == st.a && r.es == st.es
  {
    st.(datumTransform := transform, datum := None)
  }

  /** `setDatum` */
  function SetDatum(st: State, d: Datum): (r: State)
    ensures r.datum == Some(d)
    ensures r.datumTransform == st.datumTransform && r.ellipsoid == st.ellipsoid && r.a == st.a && r.es == st.es
  {
    st.(datum := Some(d))
  }

  /** `setEllipsoid`: stores the ellipsoid and copies its `a` and `es`. */
  function SetEllipsoid(st: State, e: Ellipsoid): (r: State)
    ensures Coherent(r) && r.ellipsoid == Some(e)
    ensures r.datum == st.datum && r.datumTransform == st.datumTransform
  {
    st.(ellipsoid := Some(e), es := e.eccentricity2, a := e.equatorRadius)
  }

  /** `setA`: clears the ellipsoid and changes `a` only. */
  function SetA(st: State, a: real): (r: State)
    ensures r.ellipsoid.None? && r.a == a && r.es == st.es
    ensures r.datum == st.datum && r.datumTransform == st.datumTransform
  {
    st.(ellipsoid := None, a := a)
  }

  /** `setB`: clears the ellipsoid and sets `es` from `b` and the `a`
      current at the time of the call. */
  function SetB(st: State, b: real): (r: State)
    requires st.a != 0.0
    ensures r.ellipsoid.None? && r.a == st.a
    ensures (1.0 - r.es) * st.a * st.a == b * b
    ensures r.datum == st.datum && r.datumTransform == st.datumTransform
  {
    st.(ellipsoid := None, es := 1.0 - (b * b) / (st.a * st.a))
  }

  /** `setES` */
  function SetES(st: State, es: real): (r: State)
    ensures r.ellipsoid.None? && r.a == st.a && r.es == es
    ensures r.datum == st.datum && r.datumTransform == st.datumTransform
  {
    st.(ellipsoid := None, es := es)
  }

  /** `setRF` as written: the argument is used as if it were the flattening,
      `es = rf * (2 - rf)`. */
  function SetRF(st: State, rf: real): (r: State)
    ensures r.ellipsoid.None? && r.a == st.a
    ensures 1.0 - r.es == (1.0 - rf) * (1.0 - rf)
    ensures r.datum == st.datum && r.datumTransform == st.datumTransform
  {
    st.(ellipsoid := None, es := rf * (2.0 - rf))
  }

  /** `setF` as written: the reciprocal of the argument is used as if it
      were the flattening, `es = (1/f) * (2 - 1/f)`. */
  function SetF(st: State, f: real): (r: State)
    requires f != 0.0
    ensures r.ellipsoid.None? && r.a == st.a
    ensures r.es * f * f == 2.0 * f - 1.0
    ensures r.datum == st.datum && r.datumTransform == st.datumTransform
  {
    var rf := 1.0 / f;
    st.(ellipsoid := None, es := rf * (2.0 - rf))
  }

  /** `setRF` with the reciprocal taken: `es = f * (2 - f)` for `f = 1/rf`. */
  function SetRFIntended(st: State, rf: real): (r: State)
    requires rf != 0.0
    ensures r.ellipsoid.None? && r.a == st.a
    ensures r.datum == st.datum && r.datumTransform == st.datumTransform
  {
    var f := 1.0 / rf;
    st.(ellipsoid := None, es := f * (2.0 - f))
  }

  /** `setF` using its argument as the flattening. */
  function SetFIntended(st: State, f: real): (r: State)
    ensures r.ellipsoid.None? && r.a == st.a
    ensures r.datum == st.datum && r.datumTransform == st.datumTransform
  {
    st.(ellipsoid := None, es := f * (2.0 - f))
  }

  function GetA(st: State): real {
    st.a
  }

  function GetES(st: State): real {
    st.es
  }

  // ---------------------------------------------------------------------
  // The precedence state machine.

  /** The operations that move the state. */
  datatype Op =
    | OpSetDatumTransform(transform: Option<seq<real>>)
    | OpSetDatum(datum: Datum)
    | OpSetEllipsoid(ellipsoid: Ellipsoid)
    | OpSetA(a: real)
    | OpSetB(b: real)
    | OpSetES(es: real)
    | OpSetRF(rf: real)
    | OpSetF(f: real)

  /** The operations that can be applied in a state: `setB` and `setF`
      divide, and non-finite results are not modelled. */
  predicate Applicable(st: State, op: Op) {
    match op
    case OpSetB(_) => st.a != 0.0
    case OpSetF(f) => f != 0.0
    case _ => true
  }

  function Apply(st: State, op: Op): State
    requires Applicable(st, op)
  {
    match op
    case OpSetDatumTransform(t) => SetDatumTransform(st, t)
    case OpSetDatum(d) => SetDatum(st, d)
    case OpSetEllipsoid(e) => SetEllipsoid(st, e)
    case OpSetA(a) => SetA(st, a)
    case OpSetB(b) => SetB(st, b)
    case OpSetES(es) => SetES(st, es)
    case OpSetRF(rf) => SetRF(st, rf)
    case OpSetF(f) => SetF(st, f)
  }

  /** Every operation keeps a stored ellipsoid in agreement with `a` and
      `es`, so `getEllipsoid` always reports the current `a` and `es`, a
      named ellipsoid included. */
  lemma ApplyPreservesCoherence(m: Transcendentals, st: State, op: Op)
    requires Coherent(st) && Applicable(st, op)
    ensures Coherent(Apply(st, op))
    ensures GetEllipsoid(m, Apply(st, op)).equatorRadius == Apply(st, op).a
    ensures GetEllipsoid(m, Apply(st, op)).eccentricity2 == Apply(st, op).es
  {
  }

  /** Which datum `getDatum` returns after an operation: a stored datum
      survives every operation but `setDatumTransform`, which replaces it by
      a user datum of that vector; `setDatum` wins unconditionally. */
  lemma GetDatumAfter(m: Transcendentals, st: State, op: Op)
    requires Applicable(st, op)
    ensures op.OpSetDatum? ==> GetDatum(m, Apply(st, op)) == op.datum
    ensures op.OpSetDatumTransform? ==>
              GetDatum(m, Apply(st, op)) == Datums.Create("user", op.transform, GetEllipsoid(m, st), "User-defined")
    ensures !op.OpSetDatumTransform? && !op.OpSetDatum? && st.datum.Some? ==> GetDatum(m, Apply(st, op)) == st.datum.value
  {
  }

  /** A fresh instance answers `Datum.WGS84`. */
  lemma FreshGetDatumIsWgs84(m: Transcendentals)
    ensures GetDatum(m, Init(m)) == Datums.Wgs84(m)
    ensures GetType(GetDatum(m, Init(m))) == ThreeParam
  {
  }

  /** `setDatumTransform` then `getDatum` builds a user datum whose type
      follows the vector; a later `setDatum` restores the named datum. */
  lemma DatumTransformThenDatum(m: Transcendentals, st: State, t: seq<real>, d: Datum)
    ensures GetType(GetDatum(m, SetDatumTransform(st, Some(t)))) ==
              (if |t| == 3 then ThreeParam else if |t| == 7 then SevenParam else Wgs84Type)
    ensures GetDatum(m, SetDatumTransform(st, Some(t))).code == "user"
    ensures GetDatum(m, SetDatum(SetDatumTransform(st, Some(t)), d)) == d
  {
  }

  /** `setEllipsoid` after single parameters makes the named ellipsoid win;
      a single parameter after `setEllipsoid` forces a user ellipsoid that
      keeps the other field of the named one. */
  lemma EllipsoidPrecedence(m: Transcendentals, st: State, e: Ellipsoid, a: real)
    ensures GetEllipsoid(m, SetEllipsoid(SetA(st, a), e)) == e
    ensures GetEllipsoid(m, SetA(SetEllipsoid(st, e), a)).equatorRadius == a
    ensures GetEllipsoid(m, SetA(SetEllipsoid(st, e), a)).eccentricity2 == e.eccentricity2
    ensures GetEllipsoid(m, SetA(SetEllipsoid(st, e), a)).shortName == "user"
  {
  }

  /** `setB` reads `a` when it is called, so `setA` then `setB` and `setB`
      then `setA` give different ellipsoids: from a = 2, setting a = 4 and
      b = 2 in the two orders gives es = 3/4 and es = 0. */
  lemma SetBDependsOnOrder(st: State)
    requires st.a == 2.0
    ensures SetB(SetA(st, 4.0), 2.0).es == 0.75
    ensures SetA(SetB(st, 2.0), 4.0).es == 0.0
    ensures SetB(SetA(st, 4.0), 2.0).a == SetA(SetB(st, 2.0), 4.0).a
  {
  }

  /** As written, `setRF` with the reciprocal flattening of WGS84 gives a
      large negative `es`, and `setF` with its flattening gives another. */
  lemma SetRFTreatsArgumentAsFlattening(st: State)
    ensures SetRF(st, 298.257223563).es < -88000.0
    ensures SetF(st, 1.0 / 298.257223563).es < -88000.0
  {
  }

  /** The corrected setters agree with the `Ellipsoid` constructor's
      flattening branch, and `setF(f)` equals `setRF(1/f)`. */
  lemma IntendedSettersMatchEllipsoid(m: Transcendentals, st: State, rf: real)
    requires rf != 0.0
    ensures SetRFIntended(st, rf).es == Ellipsoids.Create(m, "", st.a, 0.0, rf, "").value.eccentricity2
    ensures SetFIntended(st, 1.0 / rf) == SetRFIntended(st, rf)
    ensures SetRFIntended(st, rf).es <= 1.0
    ensures rf >= 1.0 ==> SetRFIntended(st, rf).es > 0.0
  {
    var f := 1.0 / rf;
    assert f * (2.0 - f) == 1.0 - (1.0 - f) * (1.0 - f);
    if rf >= 1.0 {
      assert 0.0 < f <= 1.0;
      assert 1.0 <= 2.0 - f;
    }
  }
}

=== FILE: decimal_read_back.dfy ===
/** Decimal text written by `DecimalText` is read back by
    `Double.valueOf` as the value it was written from. */
module DecimalReadBack {
  import opened Outcomes
  import opened JavaStrings
  import opened DecimalText
  import opened DoubleParsing

  /** Text without an exponent or a type suffix is an unsigned decimal
      exactly when it is a mantissa. */
  lemma {:induction false} UnsignedWithoutExponent(m: string)
    requires |m| > 0 && IsDigit(m[|m| - 1])
    requires forall i :: 0 <= i < |m| ==> m[i] != 'e' && m[i] != 'E'
    ensures Unsigned(m) == Mantissa(m)
  {
    assert !IsTypeSuffix(m[|m| - 1]);
    assert ExponentAt(m) == |m|;
    assert m[..|m|] == m;
  }

  /** A string of digits is an unsigned decimal worth its digits. */
  lemma {:induction false} UnsignedDigits(a: string)
    requires |a| > 0 && AllDigits(a)
    ensures Unsigned(a) == Some(DigitsValue(a) as real)
  {
    UnsignedWithoutExponent(a);
    assert '.' !in a;
  }

  /** Text that neither starts nor ends with a blank or a sign and holds
      an unsigned decimal is read as that decimal. */
  lemma {:induction false} ParseUnsignedText(u: string, v: real)
    requires |u| > 0 && IsDigit(u[0]) && IsDigit(u[|u| - 1])
    requires Unsigned(u) == Some(v)
    ensures ParseDouble(u) == Ok(v)
  {
    assert Trim(u) == u;
  }

  lemma {:induction false} TrimNegated(u: string)
    requires |u| > 0 && IsDigit(u[0]) && IsDigit(u[|u| - 1])
    ensures Trim("-" + u) == "-" + u
  {
    var s := "-" + u;
    assert s[|s| - 1] == u[|u| - 1];
  }

  lemma {:induction false} ParseNegatedBody(u: string, v: real)
    requires |u| > 0
    requires Trim("-" + u) == "-" + u
    requires Unsigned(u) == Some(v)
    ensures ParseDouble("-" + u) == Ok(-v)
  {
    var s := "-" + u;
    assert s[1..] == u && s[0] == '-';
    ParseMinus(s, v);
  }

  /** Trimmed text with a minus sign before an unsigned decimal is read as
      the decimal negated. */
  lemma ParseMinus(s: string, v: real)
    requires |s| > 1 && Trim(s) == s && s[0] == '-' && Unsigned(s[1..]) == Some(v)
    ensures ParseDouble(s) == Ok(-v)
  {
  }

  /** The same text after a minus sign is read as the decimal negated. */
  lemma {:induction false} ParseNegatedText(u: string, v: real)
    requires |u| > 0 && IsDigit(u[0]) && IsDigit(u[|u| - 1])
    requires Unsigned(u) == Some(v)
    ensures ParseDouble("-" + u) == Ok(-v)
  {
    TrimNegated(u);
    ParseNegatedBody(u, v);
  }

  /** Digits are read back as their value. */
  lemma {:induction false} ParseDigits(a: string, v: real)
    requires |a| > 0 && AllDigits(a) && v == DigitsValue(a) as real
    ensures ParseDouble(a) == Ok(v)
  {
    UnsignedDigits(a);
    ParseUnsignedText(a, v);
  }

  /** Digits after a minus sign are read back as their value negated. */
  lemma {:induction false} ParseNegatedDigits(a: string, v: real)
    requires |a| > 0 && AllDigits(a) && v == -(DigitsValue(a) as real)
    ensures ParseDouble("-" + a) == Ok(v)
  {
    UnsignedDigits(a);
    ParseNegatedText(a, -v);
  }

  /** `Integer.toString` of `n`, named `a`, is read back by
      `Double.valueOf`. */
  lemma {:induction false} ParseDigitsOf(n: nat, a: string)
    requires a == NatToString(n)
    ensures ParseDouble(a) == Ok(n as real)
  {
    ParseDigits(a, n as real);
  }

  /** The same after a minus sign is read back negated. */
  lemma {:induction false} ParseNegatedDigitsOf(n: nat, a: string)
    requires a == NatToString(n)
    ensures ParseDouble("-" + a) == Ok(-(n as real))
  {
    ParseNegatedDigits(a, -(n as real));
  }

  /** `Integer.toString` is read back by `Double.valueOf`. */
  lemma {:induction false} ParseNatToString(n: nat)
    ensures ParseDouble(NatToString(n)) == Ok(n as real)
  {
    ParseDigitsOf(n, NatToString(n));
  }

  /** The same after a minus sign is read back negated. */
  lemma {:induction false} ParseNegatedNatToString(n: nat)
    ensures ParseDouble("-" + NatToString(n)) == Ok(-(n as real))
  {
    ParseNegatedDigitsOf(n, NatToString(n));
  }

  /** The same for `%d` of a non-negative value. */
  lemma {:induction false} ParseNegatedIntToString(n: nat)
    ensures ParseDouble("-" + IntToString(n)) == Ok(-(n as real))
  {
    ParseNegatedDigitsOf(n, IntToString(n));
  }

  /** `%d` is read back by `Double.valueOf`. */
  lemma {:induction false} ParseIntToString(i: int)
    ensures ParseDouble(IntToString(i)) == Ok(i as real)
  {
    if i < 0 {
      ParseNegativeIntToString(i, NatToString(-i), IntToString(i));
    } else {
      ParseDigitsOf(i, IntToString(i));
    }
  }

  /** `%d` of a negative value, `s`, is the digits `a` of its magnitude
      after a minus sign, read back as the value. */
  lemma {:induction false} ParseNegativeIntToString(i: int, a: string, s: string)
    requires i < 0 && a == NatToString(-i) && s == IntToString(i)
    ensures ParseDouble(s) == Ok(i as real)
  {
    assert s == "-" + a;
    ParseNegatedDigits(a, i as real);
  }

  /** `u` is the digits `a`, a point and the digits `b`, told by its
      slices. */
  predicate PointBetween(u: string, a: string, b: string) {
    |u| == |a| + 1 + |b| && u[..|a|] == a && u[|a|] == '.' && u[|a| + 1..] == b
  }

  lemma {:induction false} PointBetweenConcat(a: string, b: string)
    ensures PointBetween(a + "." + b, a, b)
  {
    var u := a + "." + b;
    assert u[..|a|] == a && u[|a| + 1..] == b;
  }

  /** Such text begins and ends with a digit and holds no exponent
      marker. */
  lemma {:induction false} PointBetweenChars(u: string, a: string, b: string)
    requires |a| > 0 && AllDigits(a) && |b| > 0 && AllDigits(b) && PointBetween(u, a, b)
    ensures IsDigit(u[0]) && IsDigit(u[|u| - 1])
    ensures forall i :: 0 <= i < |u| ==> u[i] != 'e' && u[i] != 'E'
  {
    assert u[..|a|][0] == a[0] && u[|a| + 1..][|b| - 1] == b[|b| - 1];
    forall i | 0 <= i < |u| ensures u[i] != 'e' && u[i] != 'E' {
      if i < |a| {
        assert u[i] == u[..|a|][i];
      } else if i > |a| {
        assert u[i] == u[|a| + 1..][i - |a| - 1];
      }
    }
  }

  /** Its point is the first one. */
  lemma {:induction false} PointBetweenIndex(u: string, a: string, b: string)
    requires AllDigits(a) && PointBetween(u, a, b)
    ensures IndexOf(u, '.') == |a|
  {
    assert '.' !in a by {
      forall i | 0 <= i < |a| ensures a[i] != '.' {
        assert IsDigit(a[i]);
      }
    }
    IndexOfIsFirst(u, '.', |a|);
  }

  /** It is a mantissa worth the whole plus the fraction. */
  lemma {:induction false} PointBetweenMantissa(u: string, a: string, b: string, w: real)
    requires |a| > 0 && AllDigits(a) && |b| > 0 && AllDigits(b) && PointBetween(u, a, b)
    requires w == DigitsValue(a) as real + DigitsValue(b) as real / Pow10(|b|) as real
    ensures Mantissa(u) == Some(w)
  {
    PointBetweenIndex(u, a, b);
  }

  /** It is an unsigned decimal worth the whole plus the fraction. */
  lemma {:induction false} PointBetweenUnsigned(u: string, a: string, b: string, w: real)
    requires |a| > 0 && AllDigits(a) && |b| > 0 && AllDigits(b) && PointBetween(u, a, b)
    requires w == DigitsValue(a) as real + DigitsValue(b) as real / Pow10(|b|) as real
    ensures IsDigit(u[0]) && IsDigit(u[|u| - 1])
    ensures Unsigned(u) == Some(w)
  {
    PointBetweenChars(u, a, b);
    UnsignedWithoutExponent(u);
    PointBetweenMantissa(u, a, b, w);
  }

  lemma {:induction false} PointBetweenRead(u: string, a: string, b: string, w: real)
    requires |a| > 0 && AllDigits(a) && |b| > 0 && AllDigits(b) && PointBetween(u, a, b)
    requires w == DigitsValue(a) as real + DigitsValue(b) as real / Pow10(|b|) as real
    ensures ParseDouble(u) == Ok(w)
  {
    PointBetweenUnsigned(u, a, b, w);
    ParseUnsignedText(u, w);
  }

  lemma {:induction false} PointBetweenNegated(u: string, a: string, b: string, w: real, t: string)
    requires |a| > 0 && AllDigits(a) && |b| > 0 && AllDigits(b) && PointBetween(u, a, b)
    requires w == DigitsValue(a) as real + DigitsValue(b) as real / Pow10(|b|) as real
    requires t == "-" + u
    ensures ParseDouble(t) == Ok(-w)
  {
    PointBetweenUnsigned(u, a, b, w);
    ParseNegatedText(u, w);
  }

  /** Digits, a point and digits, in the text `t`, are read as the whole
      `w` plus the fraction. */
  lemma {:induction false} UnsignedDecimal(a: string, b: string, w: real, t: string)
    requires |a| > 0 && AllDigits(a) && |b| > 0 && AllDigits(b)
    requires w == DigitsValue(a) as real + DigitsValue(b) as real / Pow10(|b|) as real
    requires t == a + "." + b
    ensures ParseDouble(t) == Ok(w)
  {
    PointBetweenConcat(a, b);
    PointBetweenRead(t, a, b, w);
  }

  /** The same after a minus sign is read back negated. */
  lemma {:induction false} NegatedDecimal(a: string, b: string, w: real, t: string)
    requires |a| > 0 && AllDigits(a) && |b| > 0 && AllDigits(b)
    requires w == DigitsValue(a) as real + DigitsValue(b) as real / Pow10(|b|) as real
    requires t == "-" + (a + "." + b)
    ensures ParseDouble(t) == Ok(-w)
  {
    PointBetweenConcat(a, b);
    PointBetweenNegated(a + "." + b, a, b, w, t);
  }

  /** `%02d` of a value in 0..99 is read back by `Double.valueOf`. */
  lemma {:induction false} ParsePad02(n: int)
    requires 0 <= n < 100
    ensures ParseDouble(Pad02(n)) == Ok(n as real)
  {
    ParseDigits(Pad02(n), n as real);
  }
}

=== FILE: decimal_text.dfy ===
/** Decimal text in and out: the subset of `Double.valueOf` that reads
    plain decimal numbers, and the `%d`, `%02d` and `%.12f` conversions of
    `String.format`. Numbers are exact reals; the rounding of a decimal to
    the nearest double is not modelled. */
module DecimalText {
  import opened Outcomes
  import opened JavaStrings

  predicate IsDigit(c: char) {
    '0' <= c <= '9'
  }

  function DigitValue(c: char): nat
    requires IsDigit(c)
  {
    c as int - '0' as int
  }

  function DigitChar(d: nat): (c: char)
    requires d < 10
    ensures IsDigit(c) && DigitValue(c) == d
  {
    ('0' as int + d) as char
  }

  predicate AllDigits(s: string) {
    forall i :: 0 <= i < |s| ==> IsDigit(s[i])
  }

  /** The value of a string of decimal digits, most significant first. */
  function DigitsValue(s: string): nat
    requires AllDigits(s)
  {
    if |s| == 0 then 0 else 10 * DigitsValue(s[..|s| - 1]) + DigitValue(s[|s| - 1])
  }

  function Pow10(n: nat): (r: nat)
    ensures r >= 1
  {
    if n == 0 then 1 else 10 * Pow10(n - 1)
  }

  lemma {:induction false} DigitsValueConcat(a: string, b: string)
    requires AllDigits(a) && AllDigits(b)
    ensures AllDigits(a + b)
    ensures DigitsValue(a + b) == DigitsValue(a) * Pow10(|b|) + DigitsValue(b)
  {
    if |b| > 0 {
      var b' := b[..|b| - 1];
      var d := DigitValue(b[|b| - 1]);
      assert AllDigits(b');
      assert AllDigits(a + b) && AllDigits(a + b');
      assert (a + b)[..|a + b| - 1] == a + b';
      DigitsValueConcat(a, b');
      assert DigitsValue(a + b) == 10 * DigitsValue(a + b') + d;
      assert DigitsValue(b) == 10 * DigitsValue(b') + d;
      assert Pow10(|b|) == 10 * Pow10(|b'|);
      ShiftDigit(DigitsValue(a), DigitsValue(b'), Pow10(|b'|), d);
    } else {
      assert a + b == a;
    }
  }

  lemma ShiftDigit(va: nat, vb: nat, p: nat, d: nat)
    ensures 10 * (va * p + vb) + d == va * (10 * p) + (10 * vb + d)
  {
  }

  /** A string of zeros is worth nothing. */
  lemma {:induction false} ZerosAreWorthNothing(s: string)
    requires forall i :: 0 <= i < |s| ==> s[i] == '0'
    ensures AllDigits(s) && DigitsValue(s) == 0
  {
    if |s| > 0 {
      ZerosAreWorthNothing(s[..|s| - 1]);
    }
  }

  /** `Integer.toString` of a non-negative value: the shortest digit
      string, with no leading zero, whose value is `n`. */
  function NatToString(n: nat): (s: string)
    ensures |s| >= 1 && AllDigits(s) && DigitsValue(s) == n
    ensures |s| > 1 ==> s[0] != '0'
    ensures n < 10 ==> |s| == 1
    ensures 10 <= n < 100 ==> |s| == 2
  {
    if n < 10 then [DigitChar(n)]
    else
      var a := NatToString(n / 10);
      var s := a + [DigitChar(n % 10)];
      assert s[..|s| - 1] == a;
      s
  }

  /** `%d` of a Java `int`: a minus sign before the digits of the
      magnitude of a negative value. */
  function IntToString(i: int): (s: string)
    ensures |s| >= 1 && (s[0] == '-' <==> i < 0)
    ensures AllDigits(if i < 0 then s[1..] else s)
  {
    if i < 0 then "-" + NatToString(-i) else NatToString(i)
  }

  /** `n` written with exactly `width` digits, with leading zeros. */
  function ZeroPad(n: nat, width: nat): (s: string)
    requires n < Pow10(width)
    ensures |s| == width && AllDigits(s) && DigitsValue(s) == n
  {
    if width == 0 then ""
    else
      var a := ZeroPad(n / 10, width - 1);
      var s := a + [DigitChar(n % 10)];
      assert s[..|s| - 1] == a;
      s
  }

  /** `%02d`: at least two characters, a value below 10 getting a leading
      zero. */
  function Pad02(n: int): (s: string)
    ensures 0 <= n < 100 ==> |s| == 2 && AllDigits(s) && DigitsValue(s) == n
    ensures n >= 100 ==> s == NatToString(n)
    ensures n < 0 ==> s == IntToString(n)
  {
    if 0 <= n < 10 then
      var s := "0" + [DigitChar(n)];
      assert s[..1] == "0" && s[..1][..0] == "";
      assert DigitsValue(s[..1]) == 0;
      assert DigitsValue(s) == 10 * DigitsValue(s[..1]) + n;
      s
    else IntToString(n)
  }

  // ---------------------------------------------------------------------
  // `%.12f`.

  /** The number of places `%.12f` prints. */
  const PLACES: nat := 12

  /** A non-negative value in units of the last place, rounded half up. */
  function RoundedUnits(x: real): (n: nat)
    requires x >= 0.0
    ensures n as real <= x * Pow10(PLACES) as real + 0.5 < n as real + 1.0
  {
    (x * Pow10(PLACES) as real + 0.5).Floor
  }

  /** `String.format("%.12f", x)`: the integer part, a point and exactly
      twelve places, rounded half up, with a minus sign for a negative
      value. */
  function Fixed12(x: real): (s: string)
    ensures |s| >= PLACES + 2
    ensures x >= 0.0 ==> var n := RoundedUnits(x);
                         s == NatToString(n / Pow10(PLACES)) + "." + ZeroPad(n % Pow10(PLACES), PLACES)
    ensures x < 0.0 ==> s[0] == '-'
  {
    if x < 0.0 then "-" + FixedMagnitude(-x) else FixedMagnitude(x)
  }

  function FixedMagnitude(x: real): string
    requires x >= 0.0
  {
    var n := RoundedUnits(x);
    NatToString(n / Pow10(PLACES)) + "." + ZeroPad(n % Pow10(PLACES), PLACES)
  }

  /** Where the fraction text ends once the trailing zeros are dropped:
      never before position 3, so that one place always stays. */
  function KeptLength(s: string, end: nat): (k: nat)
    requires end <= |s|
    ensures (if end < 3 then end else 3) <= k <= end
    ensures forall i :: k <= i < end ==> s[i] == '0'
    ensures k > 3 ==> s[k - 1] != '0'
    decreases end
  {
    if end > 3 && s[end - 1] == '0' then KeptLength(s, end - 1) else end
  }

  /** What the `F` field appends: the text from position 2 up to the kept
      length. */
  function FractionDigits(s: string): string
    requires |s| >= 2
  {
    s[2..KeptLength(s, |s|)]
  }

  /** The `F` field's loop: walk back from the last character to position
      3, dropping zeros, then take the text from position 2. */
  method StripTrailingZeros(s: string) returns (t: string)
    requires |s| >= 2
    ensures t == FractionDigits(s)
  {
    var end := |s|;
    var j := |s| - 1;
    while j >= 3
      invariant 0 <= end <= |s| && j == end - 1
      invariant KeptLength(s, end) == KeptLength(s, |s|)
    {
      if s[j] == '0' {
        end := end - 1;
      } else {
        break;
      }
      j := j - 1;
    }
    t := s[2..end];
  }

  /** The `F` field keeps between one and twelve of the places of
      "0." and twelve digits, and they are worth the twelve places once
      scaled back. */
  lemma FractionOfPlaces(z: string)
    requires |z| == PLACES && AllDigits(z)
    ensures var f := FractionDigits("0." + z);
            1 <= |f| <= PLACES && AllDigits(f)
            && DigitsValue(f) * Pow10(PLACES - |f|) == DigitsValue(z)
  {
    var s := "0." + z;
    var k := KeptLength(s, |s|);
    var f := s[2..k];
    var tail := z[k - 2..];
    assert f == z[..k - 2];
    assert z == f + tail;
    forall i | 0 <= i < |tail|
      ensures tail[i] == '0'
    {
      assert tail[i] == s[k + i];
    }
    ZerosAreWorthNothing(tail);
    DigitsValueConcat(f, tail);
  }

  /** For a value below one that does not round up to one, `%.12f` prints
      "0." and the rounded twelve places. */
  lemma Fixed12BelowOne(x: real)
    requires 0.0 <= x && RoundedUnits(x) < Pow10(PLACES)
    ensures Fixed12(x) == "0." + ZeroPad(RoundedUnits(x), PLACES)
  {
    SmallQuotient(RoundedUnits(x), Pow10(PLACES));
    assert NatToString(0) == "0";
  }

  lemma SmallQuotient(n: nat, d: nat)
    requires n < d
    ensures n / d == 0 && n % d == n
  {
  }

  /** The `F` field then keeps between one and twelve of them, `f`, worth
      the rounded value `n` once scaled back. */
  lemma {:induction false} FractionOfFixed12(x: real, n: nat, f: string)
    requires 0.0 <= x && n == RoundedUnits(x) && n < Pow10(PLACES)
    requires f == FractionDigits(Fixed12(x))
    ensures 1 <= |f| <= PLACES && AllDigits(f)
    ensures DigitsValue(f) * Pow10(PLACES - |f|) == n
  {
    Fixed12BelowOne(x);
    FractionOfPlaces(ZeroPad(n, PLACES));
  }
}

=== FILE: double_parsing.dfy ===
/** `Double.valueOf` on plain decimal text: blanks trimmed, an optional
    sign, digits with at most one point, an optional exponent and an
    optional type suffix. The special values and hexadecimal text are not
    read. */
module DoubleParsing {
  import opened Outcomes
  import opened JavaStrings
  import opened DecimalText

  /** The position of the first 'e' or 'E', or the length. */
  function ExponentAt(s: string): (k: nat)
    ensures k <= |s|
    ensures forall i :: 0 <= i < k ==> s[i] != 'e' && s[i] != 'E'
    ensures k < |s| ==> s[k] == 'e' || s[k] == 'E'
  {
    var i, j := IndexOf(s, 'e'), IndexOf(s, 'E');
    assert forall m :: 0 <= m < i ==> s[..i][m] == s[m];
    assert forall m :: 0 <= m < j ==> s[..j][m] == s[m];
    if i == -1 && j == -1 then |s|
    else if i == -1 then j
    else if j == -1 then i
    else if i < j then i
    else j
  }

  /** Digits with at most one decimal point and at least one digit. */
  function Mantissa(m: string): (r: Option<real>)
    ensures r.Some? ==> |m| > 0
  {
    var p := IndexOf(m, '.');
    if p == -1 then
      if |m| > 0 && AllDigits(m) then Some(DigitsValue(m) as real) else None
    else
      var a, b := m[..p], m[p + 1..];
      if |a| + |b| > 0 && AllDigits(a) && AllDigits(b)
      then Some(DigitsValue(a) as real + DigitsValue(b) as real / Pow10(|b|) as real)
      else None
  }

  /** An optionally signed decimal exponent. */
  function Exponent(e: string): Option<int> {
    var digits := if |e| > 0 && (e[0] == '-' || e[0] == '+') then e[1..] else e;
    if |digits| > 0 && AllDigits(digits)
    then
      var v: int := DigitsValue(digits);
      Some(if e[0] == '-' then -v else v)
    else None
  }

  /** The type suffixes `Double.valueOf` accepts after the number. */
  predicate IsTypeSuffix(c: char) {
    c == 'f' || c == 'F' || c == 'd' || c == 'D'
  }

  /** An unsigned decimal: a mantissa, an optional exponent and an optional
      type suffix. */
  function Unsigned(u: string): Option<real> {
    var body := if |u| > 0 && IsTypeSuffix(u[|u| - 1]) then u[..|u| - 1] else u;
    var k := ExponentAt(body);
    match Mantissa(body[..k])
    case None => None
    case Some(m) =>
      if k == |body| then Some(m)
      else
        match Exponent(body[k + 1..])
        case None => None
        case Some(e) => Some(if e >= 0 then m * Pow10(e) as real else m / Pow10(-e) as real)
  }

  /** The message of the exception for text that is not a number. */
  function ForInputString(t: string): string {
    "For input string: \"" + t + "\""
  }

  /** The message of the exception for blank text. */
  const EMPTY_STRING: string := "empty String"

  /** `Double.valueOf(s)`: the text without surrounding blanks, an optional
      sign, then an unsigned decimal. Empty text and any other text are
      `NumberFormatException`s with the messages Java gives. */
  function ParseDouble(s: string): (r: Result<real>)
    ensures r.Err? ==> r.error.NumberFormat?
  {
    var t := Trim(s);
    if |t| == 0 then Err(NumberFormat(EMPTY_STRING))
    else
      var u := if t[0] == '-' || t[0] == '+' then t[1..] else t;
      match Unsigned(u)
      case None => Err(NumberFormat(ForInputString(t)))
      case Some(v) => Ok(if t[0] == '-' then -v else v)
  }
}

=== FILE: ellipsoid.dfy ===
/** `org.osgeo.proj4j.datum.Ellipsoid`: the shape of the earth as an
    equatorial radius and an eccentricity squared. */
module Ellipsoids {
  import opened Outcomes
  import opened JavaMath

  datatype Ellipsoid = Ellipsoid(
    shortName: string,
    name: string,
    equatorRadius: real,
    poleRadius: real,
    eccentricity: real,
    eccentricity2: real)

  /** The eccentricity squared of an ellipsoid of flattening `1 / rf`. */
  function FlatteningToEs(rf: real): (es: real)
    requires rf != 0.0
    ensures es == (2.0 * rf - 1.0) / (rf * rf)
  {
    var f := 1.0 / rf;
    2.0 * f - f * f
  }

  /** The five-argument constructor. A non-zero reciprocal flattening takes
      precedence: it fixes `es` and the pole radius is recomputed from it,
      whatever radius was passed. Otherwise `es` follows from the two radii.
      Both zero is a configuration error. */
  function Create(m: Transcendentals, shortName: string, equatorRadius: real,
                  poleRadius: real, reciprocalFlattening: real, name: string): (r: Result<Ellipsoid>)
    requires reciprocalFlattening == 0.0 && poleRadius != 0.0 ==> equatorRadius != 0.0
    ensures r.Err? <==> poleRadius == 0.0 && reciprocalFlattening == 0.0
    ensures r.Err? ==> r.error.IllegalArgument?
    ensures r.Ok? ==> (r.value.equatorRadius == equatorRadius
                       && r.value.shortName == shortName && r.value.name == name
                       && r.value.eccentricity == m.sqrt(r.value.eccentricity2))
    ensures r.Ok? && reciprocalFlattening != 0.0 ==>
              (r.value.eccentricity2 * reciprocalFlattening * reciprocalFlattening
                 == 2.0 * reciprocalFlattening - 1.0
               && r.value.poleRadius == equatorRadius * m.sqrt(1.0 - r.value.eccentricity2))
    ensures r.Ok? && reciprocalFlattening == 0.0 ==>
              (r.value.poleRadius == poleRadius
               && (1.0 - r.value.eccentricity2) * equatorRadius * equatorRadius
                    == poleRadius * poleRadius)
  {
    if poleRadius == 0.0 && reciprocalFlattening == 0.0 then
      Err(IllegalArgument("One of poleRadius or reciprocalFlattening must be specified"))
    else if reciprocalFlattening != 0.0 then
      var es := FlatteningToEs(reciprocalFlattening);
      Ok(Ellipsoid(shortName, name, equatorRadius, equatorRadius * m.sqrt(1.0 - es), m.sqrt(es), es))
    else
      var es := 1.0 - (poleRadius * poleRadius) / (equatorRadius * equatorRadius);
      Ok(Ellipsoid(shortName, name, equatorRadius, poleRadius, m.sqrt(es), es))
  }

  /** `setEccentricitySquared`: `es` is stored as given; the pole radius and
      the eccentricity are derived from it. */
  function SetEccentricitySquared(m: Transcendentals, e: Ellipsoid, es: real): (r: Ellipsoid)
    ensures r.eccentricity2 == es
    ensures r.equatorRadius == e.equatorRadius && r.name == e.name && r.shortName == e.shortName
    ensures r.poleRadius == e.equatorRadius * m.sqrt(1.0 - es) && r.eccentricity == m.sqrt(es)
  {
    e.(eccentricity2 := es, poleRadius := e.equatorRadius * m.sqrt(1.0 - es), eccentricity := m.sqrt(es))
  }

  /** The four-argument constructor `(shortName, equatorRadius, eccentricity2, name)`:
      field defaults of 1.0, then `setEccentricitySquared`. */
  function CreateWithEccentricity(m: Transcendentals, shortName: string, equatorRadius: real,
                                  eccentricity2: real, name: string): (r: Ellipsoid)
    ensures r.eccentricity2 == eccentricity2 && r.equatorRadius == equatorRadius
    ensures r.shortName == shortName && r.name == name
  {
    SetEccentricitySquared(m, Ellipsoid(shortName, name, equatorRadius, 1.0, 1.0, 1.0), eccentricity2)
  }

  /** `getA` */
  function GetA(e: Ellipsoid): real {
    e.equatorRadius
  }

  /** `getB` */
  function GetB(e: Ellipsoid): real {
    e.poleRadius
  }

  /** `isEqual`: exact equality of the equatorial radius and of `es`. */
  predicate IsEqual(e: Ellipsoid, other: Ellipsoid) {
    e.equatorRadius == other.equatorRadius && e.eccentricity2 == other.eccentricity2
  }

  /** The precedence rule seen from the outside: an ellipsoid built from a
      reciprocal flattening is `isEqual` to the one the four-argument
      constructor builds from the same radius and the `es` that flattening
      implies, and the pole radius passed alongside plays no part. */
  lemma FlatteningAgreesWithEccentricityConstructor(m: Transcendentals, a: real, b: real, b': real, rf: real)
    requires rf != 0.0
    ensures Create(m, "", a, b, rf, "").Ok?
    ensures IsEqual(Create(m, "", a, b, rf, "").value,
                    CreateWithEccentricity(m, "", a, (2.0 * rf - 1.0) / (rf * rf), ""))
    ensures Create(m, "", a, b, rf, "") == Create(m, "", a, b', rf, "")
  {
    var r, r' := Create(m, "", a, b, rf, ""), Create(m, "", a, b', rf, "");
    assert r.value.eccentricity2 == r'.value.eccentricity2 == FlatteningToEs(rf);
    assert r.value == r'.value;
  }

  /** `getA` / `getB` read back the radii: `getA` the radius passed, and
      `getB` the pole radius passed whenever no flattening overrides it. */
  lemma AccessorsReturnRadii(m: Transcendentals, a: real, b: real, rf: real)
    requires b != 0.0 || rf != 0.0
    requires rf == 0.0 ==> a != 0.0
    ensures Create(m, "", a, b, rf, "").Ok?
    ensures GetA(Create(m, "", a, b, rf, "").value) == a
    ensures rf == 0.0 ==> GetB(Create(m, "", a, b, rf, "").value) == b
    ensures rf != 0.0 ==> GetB(Create(m, "", a, b, rf, "").value) == a * m.sqrt(1.0 - FlatteningToEs(rf))
  {
  }

  /** `isEqual` is an equivalence relation. */
  lemma IsEqualIsEquivalence(e1: Ellipsoid, e2: Ellipsoid, e3: Ellipsoid)
    ensures IsEqual(e1, e1)
    ensures IsEqual(e1, e2) <==> IsEqual(e2, e1)
    ensures IsEqual(e1, e2) && IsEqual(e2, e3) ==> IsEqual(e1, e3)
  {
  }

  // ---------------------------------------------------------------------
  // The well-known ellipsoids (the static constants of the class).

  /** A constant built by the five-argument constructor, which never throws
      for these arguments. */
  function Known(m: Transcendentals, shortName: string, a: real, b: real, rf: real, name: string): Ellipsoid
    requires a != 0.0 && (b != 0.0 || rf != 0.0)
  {
    Create(m, shortName, a, b, rf, name).value
  }

  function Sphere(m: Transcendentals): Ellipsoid { Known(m, "sphere", 6371008.7714, 6371008.7714, 0.0, "Sphere") }
  function Bessel(m: Transcendentals): Ellipsoid { Known(m, "bessel", 6377397.155, 0.0, 299.1528128, "Bessel 1841") }
  function Clarke1866(m: Transcendentals): Ellipsoid { Known(m, "clrk66", 6378206.4, 6356583.8, 0.0, "Clarke 1866") }
  function Clarke1880(m: Transcendentals): Ellipsoid { Known(m, "clrk80", 6378249.145, 0.0, 293.4663, "Clarke 1880 mod.") }
  function Airy(m: Transcendentals): Ellipsoid { Known(m, "airy", 6377563.396, 6356256.910, 0.0, "Airy 1830") }
  function ModAiry(m: Transcendentals): Ellipsoid { Known(m, "airy", 6377340.189, 6356034.446, 0.0, "Modified Airy") }
  function Wgs60(m: Transcendentals): Ellipsoid { Known(m, "WGS60", 6378165.0, 0.0, 298.3, "WGS 60") }
  function Wgs66(m: Transcendentals): Ellipsoid { Known(m, "WGS66", 6378145.0, 0.0, 298.25, "WGS 66") }
  function Wgs72(m: Transcendentals): Ellipsoid { Known(m, "WGS72", 6378135.0, 0.0, 298.26, "WGS 72") }
  function Wgs84(m: Transcendentals): Ellipsoid { Known(m, "WGS84", 6378137.0, 0.0, 298.257223563, "WGS 84") }
  function Krasovsky(m: Transcendentals): Ellipsoid { Known(m, "krass", 6378245.0, 298.3, 0.0, "Krassovsky, 1942") }
  function Everest(m: Transcendentals): Ellipsoid { Known(m, "evrst30", 6377276.345, 0.0, 300.8017, "Everest 1830") }
  function International(m: Transcendentals): Ellipsoid { Known(m, "intl", 6378388.0, 0.0, 297.0, "International 1909 (Hayford)") }
  function International1967(m: Transcendentals): Ellipsoid { Known(m, "new_intl", 6378157.5, 6356772.2, 0.0, "New International 1967") }
  function Grs80(m: Transcendentals): Ellipsoid { Known(m, "GRS80", 6378137.0, 0.0, 298.257222101, "GRS 1980 (IUGG, 1980)") }
  function Australian(m: Transcendentals): Ellipsoid { Known(m, "australian", 6378160.0, 6356774.7, 298.25, "Australian") }

  /** SPHERE has equal radii and no flattening, hence `es = 0`. */
  lemma SphereIsRound(m: Transcendentals)
    ensures Sphere(m).eccentricity2 == 0.0
    ensures GetA(Sphere(m)) == GetB(Sphere(m))
  {
  }

  /** AUSTRALIAN supplies both a pole radius and a flattening: the flattening
      wins, so its `es` is the one of `1/298.25` and its pole radius is the
      recomputed one, not 6356774.7. */
  lemma AustralianPoleRadiusIsRecomputed(m: Transcendentals)
    ensures Australian(m).eccentricity2 * 298.25 * 298.25 == 2.0 * 298.25 - 1.0
    ensures GetB(Australian(m)) == 6378160.0 * m.sqrt(1.0 - Australian(m).eccentricity2)
  {
  }

  /** WGS84 and GRS80 share their equatorial radius but differ in `es`, so
      they are not `isEqual`. */
  lemma Wgs84IsNotGrs80(m: Transcendentals)
    ensures GetA(Wgs84(m)) == GetA(Grs80(m))
    ensures !IsEqual(Wgs84(m), Grs80(m))
  {
    var e1 := Wgs84(m).eccentricity2;
    var e2 := Grs80(m).eccentricity2;
    assert e1 * 298.257223563 * 298.257223563 == 2.0 * 298.257223563 - 1.0;
    assert e2 * 298.257222101 * 298.257222101 == 2.0 * 298.257222101 - 1.0;
  }

  /** KRASOVSKY as written passes its flattening 298.3 in the pole-radius
      slot, so `es` comes from a "pole radius" of 298.3 metres and is
      almost 1: the ellipsoid is a flat disc. */
  lemma KrasovskyIsDegenerate(m: Transcendentals)
    ensures GetB(Krasovsky(m)) == 298.3
    ensures Krasovsky(m).eccentricity2 > 0.999
  {
    var es := Krasovsky(m).eccentricity2;
    assert (1.0 - es) * 6378245.0 * 6378245.0 == 298.3 * 298.3;
  }

  /** Krassovsky 1942 with 298.3 in the reciprocal-flattening slot, as the
      other flattening-defined constants are written. */
  function KrasovskyIntended(m: Transcendentals): (e: Ellipsoid)
    ensures 0.0066 < e.eccentricity2 < 0.0068
    ensures GetA(e) == 6378245.0
  {
    var e := Known(m, "krass", 6378245.0, 0.0, 298.3, "Krassovsky, 1942");
    assert e.eccentricity2 * 298.3 * 298.3 == 2.0 * 298.3 - 1.0;
    e
  }
}

=== FILE: geocentric.dfy ===
/** `org.osgeo.proj4j.datum.GeocentricConverter`: conversion between
    geodetic (longitude, latitude, height) and earth-centred cartesian
    coordinates on one ellipsoid. The trigonometric formulas are passed in as
    `Formulas`; the guards around them, the constants and the iteration
    bound of the solver are modelled exactly. */
module Geocentric {
  import opened Outcomes
  import opened JavaMath
  import opened Coordinates
  import opened Ellipsoids

  /** The constants the constructor derives from the two radii. */
  datatype Converter = Converter(a: real, b: real, a2: real, b2: real, e2: real, ep2: real)

  lemma DivMulSq(x: real, a: real)
    requires a != 0.0
    ensures (x / (a * a)) * (a * a) == x
  {
  }

  lemma ZeroProduct(x: real, a: real)
    requires a != 0.0 && x * (a * a) == 0.0
    ensures x == 0.0
  {
    var y := x * a;
    assert y * a == 0.0;
    assert y == 0.0;
  }

  /** The constructor from the two radii. Both radii are divisors. */
  function Create(a: real, b: real): (c: Converter)
    requires a != 0.0 && b != 0.0
    ensures c.a == a && c.b == b && c.a2 == a * a && c.b2 == b * b
    ensures c.e2 * (a * a) == a * a - b * b
    ensures c.ep2 * (b * b) == a * a - b * b
  {
    DivMulSq(a * a - b * b, a);
    DivMulSq(a * a - b * b, b);
    Converter(a, b, a * a, b * b, (a * a - b * b) / (a * a), (a * a - b * b) / (b * b))
  }

  /** The constructor from an ellipsoid: its `getA` and `getB`. */
  function FromEllipsoid(e: Ellipsoid): (c: Converter)
    requires GetA(e) != 0.0 && GetB(e) != 0.0
    ensures c.a == GetA(e) && c.b == GetB(e)
  {
    Create(GetA(e), GetB(e))
  }

  /** The first and second eccentricities agree: e'^2 (1 - e^2) = e^2,
      where 1 - e^2 is the squared ratio of the radii. */
  lemma SecondEccentricityAgrees(a: real, b: real)
    requires a != 0.0 && b != 0.0
    ensures (1.0 - Create(a, b).e2) * (a * a) == b * b
    ensures Create(a, b).ep2 * (1.0 - Create(a, b).e2) == Create(a, b).e2
  {
    var c := Create(a, b);
    assert (1.0 - c.e2) * (a * a) == b * b;
    assert (c.ep2 * (1.0 - c.e2)) * (a * a) == c.ep2 * (b * b);
    assert c.ep2 * (b * b) == c.e2 * (a * a);
    ZeroProduct(c.ep2 * (1.0 - c.e2) - c.e2, a);
  }

  /** For an ellipsoid given by its two radii, the converter's `e2` is the
      ellipsoid's own eccentricity squared. */
  lemma ConverterAgreesWithEllipsoid(m: Transcendentals, a: real, b: real)
    requires a != 0.0 && b != 0.0
    ensures Ellipsoids.Create(m, "", a, b, 0.0, "").Ok?
    ensures FromEllipsoid(Ellipsoids.Create(m, "", a, b, 0.0, "").value).e2
              == Ellipsoids.Create(m, "", a, b, 0.0, "").value.eccentricity2
  {
    var e := Ellipsoids.Create(m, "", a, b, 0.0, "").value;
    var c := FromEllipsoid(e);
    assert (1.0 - e.eccentricity2) * (a * a) == b * b;
    assert c.e2 * (a * a) == a * a - b * b;
    assert e.eccentricity2 * (a * a) == a * a - b * b;
    ZeroProduct(c.e2 - e.eccentricity2, a);
  }

  // ---------------------------------------------------------------------
  // Geodetic to geocentric.

  /** The message of the latitude guard's exception, which `Double.toString`
      of the latitude follows. */
  const LATITUDE_RANGE: string := "Latitude is out of range: "

  /** The latitude guard: a latitude just beyond a pole (by less than a
      thousandth of a right angle) is taken to be the pole, one further
      out is an error, and any other is kept. */
  function ClampLatitude(show: real -> string, lat: real): (r: Result<real>)
    ensures r.Ok? <==> -1.001 * HALF_PI < lat < 1.001 * HALF_PI
    ensures r.Err? ==> r.error == IllegalState(LATITUDE_RANGE + show(lat))
    ensures r.Ok? ==> -HALF_PI <= r.value <= HALF_PI
    ensures -HALF_PI <= lat <= HALF_PI ==> r == Ok(lat)
    ensures r.Ok? && lat < -HALF_PI ==> r.value == -HALF_PI
    ensures r.Ok? && lat > HALF_PI ==> r.value == HALF_PI
  {
    if lat < -HALF_PI && lat > -1.001 * HALF_PI then Ok(-HALF_PI)
    else if lat > HALF_PI && lat < 1.001 * HALF_PI then Ok(HALF_PI)
    else if lat < -HALF_PI || lat > HALF_PI then Err(IllegalState(LATITUDE_RANGE + show(lat)))
    else Ok(lat)
  }

  /** Clamping is idempotent. */
  lemma ClampLatitudeIdempotent(show: real -> string, lat: real)
    requires ClampLatitude(show, lat).Ok?
    ensures ClampLatitude(show, ClampLatitude(show, lat).value) == ClampLatitude(show, lat)
  {
  }

  /** The longitude guard: a longitude beyond PI is brought back by one
      turn, once. */
  function WrapLongitude(lon: real): (r: real)
    ensures lon <= PI ==> r == lon
    ensures lon > PI ==> r + 2.0 * PI == lon
    ensures -PI < lon <= 3.0 * PI ==> -PI < r <= PI
  {
    if lon > PI then lon - 2.0 * PI else lon
  }

  /** A longitude more than a turn beyond PI stays beyond PI: the wrap is
      not a reduction modulo a turn. */
  lemma WrapLongitudeIsSingleStep(lon: real)
    requires lon > 3.0 * PI
    ensures WrapLongitude(lon) > PI
    ensures WrapLongitude(WrapLongitude(lon)) == lon - 4.0 * PI
  {
  }

  /** One step of the latitude/height solver: the residuals along the
      equatorial and polar axes and the corrections they give. */
  datatype Step = Step(deltaU: real, deltaZ: real, deltaLat: real, deltaHt: real)

  /** The trigonometric formulas of the converter. */
  datatype Formulas = Formulas(
    /** The cartesian position of (longitude, latitude, height). */
    cartesian: (Converter, real, real, real) -> Vec3,
    /** The first estimate of (latitude, height) for a cartesian point. */
    initial: (Converter, Vec3) -> (real, real),
    /** One correction step from the estimate (latitude, height). */
    step: (Converter, Vec3, real, real) -> Step,
    /** `Math.atan2(y, x)`, the longitude. */
    atan2: (real, real) -> real,
    /** `Double.toString`, for the latitude guard's message. */
    show: real -> string)

  /** `convertGeodeticToGeocentric`: a missing height counts as 0, the
      latitude is clamped or rejected, the longitude is wrapped, and then
      the cartesian formula is applied. */
  function GeodeticToGeocentric(f: Formulas, c: Converter, p: Geodetic): (r: Result<Vec3>)
    ensures r.Ok? <==> ClampLatitude(f.show, p.lat).Ok?
    ensures r.Err? ==> r == Err(IllegalState(LATITUDE_RANGE + f.show(p.lat)))
    ensures r.Ok? ==>
              r.value == f.cartesian(c, WrapLongitude(p.lon), ClampLatitude(f.show, p.lat).value,
                                     if p.height.Some? then p.height.value else 0.0)
  {
    var height := if p.height.Some? then p.height.value else 0.0;
    var lat :- ClampLatitude(f.show, p.lat);
    Ok(f.cartesian(c, WrapLongitude(p.lon), lat, height))
  }

  /** The height that is read from a point: a missing one is 0. */
  lemma MissingHeightIsZero(f: Formulas, c: Converter, lon: real, lat: real)
    ensures GeodeticToGeocentric(f, c, Geodetic(lon, lat, None))
              == GeodeticToGeocentric(f, c, Geodetic(lon, lat, Some(0.0)))
  {
  }

  // ---------------------------------------------------------------------
  // Geocentric to geodetic.

  /** `ITERATION_THRESHOLD`: the residual, in metres, below which the
      solver stops. */
  const ITERATION_THRESHOLD: real := 0.000000048481368110953599

  /** The solver runs at most this many steps. */
  const MAX_ITERATIONS: nat := 100

  predicate Converged(s: Step) {
    Abs(s.deltaU) <= ITERATION_THRESHOLD && Abs(s.deltaZ) <= ITERATION_THRESHOLD
  }

  /** Where the solver ends: the estimates, the number of steps taken and
      the last step. */
  datatype Estimate = Estimate(lat: real, ht: real, iterations: nat, last: Step)

  /** The solver, from the step numbered `done` (counting from 0) with the
      estimate (lat, ht): take a step, then stop if it converged or if the
      bound is reached. */
  function Iterate(f: Formulas, c: Converter, p: Vec3, lat: real, ht: real, done: nat): (r: Estimate)
    requires done < MAX_ITERATIONS
    ensures done < r.iterations <= MAX_ITERATIONS
    ensures r.iterations < MAX_ITERATIONS ==> Converged(r.last)
    ensures Converged(f.step(c, p, lat, ht)) ==> r.iterations == done + 1
    decreases MAX_ITERATIONS - done
  {
    var s := f.step(c, p, lat, ht);
    var lat', ht' := lat + s.deltaLat, ht + s.deltaHt;
    if !Converged(s) && done + 1 < MAX_ITERATIONS then
      Iterate(f, c, p, lat', ht', done + 1)
    else
      Estimate(lat', ht', done + 1, s)
  }

  /** One step of the solver from the estimate (lat, ht), taking the step
      `s`: it goes on from the corrected estimate when `again`, and stops
      there otherwise. */
  lemma IterateOnce(f: Formulas, c: Converter, p: Vec3, lat: real, ht: real, done: nat, s: Step, again: bool)
    requires done < MAX_ITERATIONS && s == f.step(c, p, lat, ht)
    requires again == (!Converged(s) && done + 1 < MAX_ITERATIONS)
    ensures again ==> Iterate(f, c, p, lat, ht, done) == Iterate(f, c, p, lat + s.deltaLat, ht + s.deltaHt, done + 1)
    ensures !again ==> Iterate(f, c, p, lat, ht, done) == Estimate(lat + s.deltaLat, ht + s.deltaHt, done + 1, s)
  {
  }

  /** Where the solver ends from the first estimate. */
  function Solve(f: Formulas, c: Converter, p: Vec3): Estimate {
    Iterate(f, c, p, f.initial(c, p).0, f.initial(c, p).1, 0)
  }

  /** The geodetic position the solver arrives at: the longitude from
      `atan2`, then the latitude and height after the steps `Iterate` takes
      from the first estimate. */
  function ToGeodetic(f: Formulas, c: Converter, p: Vec3): (g: Geodetic)
    ensures g.lon == f.atan2(p.y, p.x) && g.height.Some?
  {
    var e := Solve(f, c, p);
    Geodetic(f.atan2(p.y, p.x), e.lat, Some(e.ht))
  }

  /** `convertGeocentricToGeodeticIter`: the longitude directly, then the
      latitude and height by the bounded do-while solver. The number of
      steps taken is returned beside the point. */
  method GeocentricToGeodetic(f: Formulas, c: Converter, p: Vec3) returns (g: Geodetic, iterations: nat)
    ensures 1 <= iterations <= MAX_ITERATIONS
    ensures g == ToGeodetic(f, c, p)
    ensures iterations == Solve(f, c, p).iterations
    ensures Converged(f.step(c, p, f.initial(c, p).0, f.initial(c, p).1)) ==> iterations == 1
    ensures iterations < MAX_ITERATIONS ==> Converged(Solve(f, c, p).last)
  {
    var lon := f.atan2(p.y, p.x);
    var lat, ht, n := RunSolver(f, c, p);
    g := Geodetic(lon, lat, Some(ht));
    iterations := n;
  }

  /** The do-while loop of the solver: step from the first estimate until
      a step converges or the bound is reached. */
  method RunSolver(f: Formulas, c: Converter, p: Vec3) returns (lat: real, ht: real, n: nat)
    ensures lat == Solve(f, c, p).lat && ht == Solve(f, c, p).ht && n == Solve(f, c, p).iterations
  {
    ghost var e := Solve(f, c, p);
    lat, ht := f.initial(c, p).0, f.initial(c, p).1;
    n := 0;
    var again := true;
    while again
      invariant n <= MAX_ITERATIONS
      invariant again ==> n < MAX_ITERATIONS && Iterate(f, c, p, lat, ht, n) == e
      invariant !again ==> lat == e.lat && ht == e.ht && n == e.iterations
      decreases MAX_ITERATIONS - n
    {
      var s := f.step(c, p, lat, ht);
      again := !Converged(s) && n + 1 < MAX_ITERATIONS;
      IterateOnce(f, c, p, lat, ht, n, s, again);
      lat := lat + s.deltaLat;
      ht := ht + s.deltaHt;
      n := n + 1;
    }
  }
}

=== FILE: java_math.dfy ===
/** The pieces of `java.lang.Math` and of Java's numeric conversions that
    the model needs, over unbounded `real` and `int`.

    A `double` is modelled by the exact real it denotes; rounding to the
    nearest double and the non-finite values are not modelled. The
    transcendental functions have no exact definition here and are passed
    around as a record of function values. */
module JavaMath {

  /** `Math.PI`, written as the exact value of the double it denotes. */
  const PI: real := 3.141592653589793115997963468544185161590576171875

  /** `ProjectionMath.HALFPI`, taken as half of `Math.PI`. */
  const HALF_PI: real := PI / 2.0

  const INT_MIN: int := -0x8000_0000
  const INT_MAX: int := 0x7fff_ffff
  const LONG_MIN: int := -0x8000_0000_0000_0000
  const LONG_MAX: int := 0x7fff_ffff_ffff_ffff

  /** `Math.sin`, `Math.cos`, `Math.sqrt`, `Math.atan` and `Math.atan2`,
      left uninterpreted. */
  datatype Transcendentals = Transcendentals(
    sin: real -> real,
    cos: real -> real,
    sqrt: real -> real,
    atan: real -> real,
    atan2: (real, real) -> real)

  function Abs(x: real): (r: real)
    ensures r >= 0.0
    ensures r == x || r == -x
  {
    if x < 0.0 then -x else x
  }

  /** `Math.toDegrees`: `angrad * 180.0 / PI`. */
  function ToDegrees(radians: real): real {
    radians * 180.0 / PI
  }

  /** `Math.toRadians`: `angdeg / 180.0 * PI`. */
  function ToRadians(degrees: real): real {
    degrees / 180.0 * PI
  }

  /** Saturation of an integral value into `[lo, hi]`. */
  function Clamp(n: int, lo: int, hi: int): (r: int)
    requires lo <= hi
    ensures lo <= r <= hi
    ensures lo <= n <= hi ==> r == n
    ensures n < lo ==> r == lo
    ensures n > hi ==> r == hi
  {
    if n < lo then lo else if n > hi then hi else n
  }

  /** `(int) x` for a double `x`: truncation toward zero, saturating at the
      bounds of `int`. */
  function IntCast(x: real): (r: int)
    ensures INT_MIN <= r <= INT_MAX
    ensures INT_MIN as real <= x < (INT_MAX + 1) as real && x >= 0.0 ==> r == x.Floor
  {
    Clamp(if x >= 0.0 then x.Floor else -((-x).Floor), INT_MIN, INT_MAX)
  }

  /** `Math.round(x)`: the long nearest `x`, ties rounded up, saturating at
      the bounds of `long`. */
  function Round(x: real): (r: int)
    ensures LONG_MIN <= r <= LONG_MAX
    ensures LONG_MIN as real <= x <= LONG_MAX as real ==> Abs(r as real - x) <= 0.5
  {
    Clamp((x + 0.5).Floor, LONG_MIN, LONG_MAX)
  }
}

=== FILE: java_strings.dfy ===
/** The few `java.lang.String` operations the angle parser and formatter
    use, over `seq<char>`. */
module JavaStrings {

  /** `String.indexOf(char)`: the first position of `c` in `s`, or -1. */
  function IndexOf(s: string, c: char): (r: int)
    ensures -1 <= r < |s|
    ensures r == -1 <==> c !in s
    ensures r >= 0 ==> s[r] == c && c !in s[..r]
  {
    if |s| == 0 then -1
    else if s[0] == c then 0
    else
      var k := IndexOf(s[1..], c);
      assert s == [s[0]] + s[1..];
      if k == -1 then -1
      else
        assert s[..k + 1] == [s[0]] + s[1..][..k];
        k + 1
  }

  /** A first occurrence is determined by where it is: the ensures of
      `IndexOf` fix its value. */
  lemma IndexOfIsFirst(s: string, c: char, r: nat)
    requires r < |s| && s[r] == c && c !in s[..r]
    ensures IndexOf(s, c) == r
  {
    var q := IndexOf(s, c);
    assert forall i :: 0 <= i < r ==> s[..r][i] == s[i];
    assert 0 <= q;
    assert forall i :: 0 <= i < q ==> s[..q][i] == s[i];
  }

  /** Searching a concatenation: a character absent from the front is found
      in the back, shifted by the length of the front. */
  lemma IndexOfConcat(a: string, b: string, c: char)
    requires c !in a
    ensures IndexOf(a + b, c) == if c in b then |a| + IndexOf(b, c) else -1
  {
    if c in b {
      var k := IndexOf(b, c);
      assert (a + b)[..|a| + k] == a + b[..k];
      IndexOfIsFirst(a + b, c, |a| + k);
    } else {
      assert c !in a + b;
    }
  }

  /** Searching a concatenation whose front holds the character. */
  lemma IndexOfInFront(a: string, b: string, c: char)
    requires c in a
    ensures IndexOf(a + b, c) == IndexOf(a, c)
  {
    var k := IndexOf(a, c);
    assert (a + b)[..k] == a[..k];
    IndexOfIsFirst(a + b, c, k);
  }

  /** `String.endsWith` for a one-character suffix. */
  predicate EndsWith(s: string, c: char) {
    |s| > 0 && s[|s| - 1] == c
  }

  /** The characters `String.trim` removes: every code point up to the
      space. */
  predicate IsTrimmed(c: char) {
    c <= ' '
  }

  /** `String.trim`: the text without its leading and trailing characters
      at or below the space. */
  function Trim(s: string): (t: string)
    ensures |t| <= |s|
    ensures |t| > 0 ==> !IsTrimmed(t[0]) && !IsTrimmed(t[|t| - 1])
    ensures |s| > 0 && !IsTrimmed(s[0]) && !IsTrimmed(s[|s| - 1]) ==> t == s
  {
    TrimEnd(TrimStart(s))
  }

  function TrimStart(s: string): (t: string)
    ensures |t| <= |s|
    ensures |t| > 0 ==> !IsTrimmed(t[0]) && t[|t| - 1] == s[|s| - 1]
    ensures |s| > 0 && !IsTrimmed(s[0]) ==> t == s
  {
    if |s| > 0 && IsTrimmed(s[0]) then TrimStart(s[1..]) else s
  }

  function TrimEnd(s: string): (t: string)
    ensures |t| <= |s| && t == s[..|t|]
    ensures |t| > 0 ==> !IsTrimmed(t[|t| - 1])
    ensures |s| > 0 && !IsTrimmed(s[|s| - 1]) ==> t == s
  {
    if |s| > 0 && IsTrimmed(s[|s| - 1]) then TrimEnd(s[..|s| - 1]) else s
  }
}

=== FILE: outcomes.dfy ===
/** Failure-compatible wrappers shared by every module of the model.

    Java's `null` becomes `None`; a thrown exception becomes `Err` carrying
    the exception class (and, where the source gives one, its message). */
module Outcomes {

  /** A nullable reference: `None` plays the part of Java's `null`. */
  datatype Option<+T> = None | Some(value: T)

  /** The exceptions the modelled code can throw. */
  datatype Error =
    | NullDereference                    // java.lang.NullPointerException
    | IllegalArgument(message: string)   // java.lang.IllegalArgumentException
    | IllegalState(message: string)      // java.lang.IllegalStateException
    | NumberFormat(message: string)      // java.lang.NumberFormatException
    | ProjectionFailure(message: string) // org.osgeo.proj4j.ProjectionException

  /** Either a value or the exception that replaced it. */
  datatype Result<+T> = Ok(value: T) | Err(error: Error) {

    predicate IsFailure() {
      Err?
    }

    function PropagateFailure<U>(): Result<U>
      requires Err?
    {
      Err(error)
    }

    function Extract(): T
      requires Ok?
    {
      value
    }
  }

  /** A Java object reference: two references are `==` exactly when their
      addresses are equal; `target` is the object's (immutable) state. */
  datatype Ref<+T> = Ref(address: nat, target: T)
}

=== FILE: parameter_text.dfy ===
/** The parameter string shared by `CoordinateSystem` and
    `CoordinateReferenceSystem`: every parameter, in order, each followed by
    one space. */
module ParameterText {
  import opened Outcomes

  /** The reference layout, one parameter at a time. */
  function Spaced(ps: seq<string>): string {
    if |ps| == 0 then "" else ps[0] + " " + Spaced(ps[1..])
  }

  /** The total number of characters of the parameters themselves. */
  function TotalLength(ps: seq<string>): nat {
    if |ps| == 0 then 0 else |ps[0]| + TotalLength(ps[1..])
  }

  lemma {:induction false} SpacedConcat(a: seq<string>, b: seq<string>)
    ensures Spaced(a + b) == Spaced(a) + Spaced(b)
  {
    if |a| == 0 {
      assert a + b == b;
    } else {
      assert (a + b)[1..] == a[1..] + b;
      SpacedConcat(a[1..], b);
    }
  }

  /** The layout adds exactly one character per parameter. */
  lemma {:induction false} SpacedLength(ps: seq<string>)
    ensures |Spaced(ps)| == TotalLength(ps) + |ps|
  {
    if |ps| > 0 {
      SpacedLength(ps[1..]);
    }
  }

  /** Parameter `i` sits right after the text of the parameters before it,
      and is followed by exactly one space. */
  lemma SpacedLayout(ps: seq<string>, i: nat)
    requires i < |ps|
    ensures var off := |Spaced(ps[..i])|;
            off + |ps[i]| < |Spaced(ps)|
            && Spaced(ps)[off..off + |ps[i]|] == ps[i]
            && Spaced(ps)[off + |ps[i]|] == ' '
  {
    assert ps == ps[..i] + ps[i..];
    SpacedConcat(ps[..i], ps[i..]);
    assert ps[i..][1..] == ps[i + 1..];
  }

  /** `getParameterString`: the empty string for a null array, otherwise the
      parameters appended one after another to a buffer, each followed by a
      space. */
  method Join(params: Option<seq<string>>) returns (s: string)
    ensures params.None? ==> s == ""
    ensures params.Some? ==> s == Spaced(params.value)
    ensures params.Some? ==> |s| == TotalLength(params.value) + |params.value|
  {
    if params.None? {
      return "";
    }
    var ps := params.value;
    var buf := "";
    var i := 0;
    while i < |ps|
      invariant 0 <= i <= |ps|
      invariant buf == Spaced(ps[..i])
    {
      SpacedConcat(ps[..i], [ps[i]]);
      assert ps[..i + 1] == ps[..i] + [ps[i]];
      buf := buf + ps[i];
      buf := buf + " ";
      i := i + 1;
    }
    assert ps[..i] == ps;
    SpacedLength(ps);
    s := buf;
  }
}

=== FILE: plate_carree.dfy ===
/** `org.osgeo.proj4j.proj.PlateCarreeProjection`: the equirectangular
    projection, whose formulas are linear in the coordinates. */
module PlateCarree {
  import opened Outcomes
  import opened JavaMath
  import opened Coordinates
  import opened Ellipsoids
  import Projections

  /** The two latitudes the projection reads from its `Projection` base:
      the latitude of true scale and the latitude of origin, in radians. */
  datatype PlateCarree = PlateCarree(trueScaleLatitude: real, projectionLatitude: real)

  /** `project`: x is scaled by the cosine of the latitude of true scale and
      y is measured from the latitude of origin. */
  function Project(m: Transcendentals, pc: PlateCarree, p: Point2): Point2 {
    Point2(p.x * m.cos(pc.trueScaleLatitude), p.y - pc.projectionLatitude)
  }

  /** The projections whose inverse is defined: the cosine of the latitude
      of true scale divides x in `projectInverse`. */
  predicate Invertible(m: Transcendentals, pc: PlateCarree) {
    m.cos(pc.trueScaleLatitude) != 0.0
  }

  /** `projectInverse` */
  function ProjectInverse(m: Transcendentals, pc: PlateCarree, p: Point2): Point2
    requires Invertible(m, pc)
  {
    Point2(p.x / m.cos(pc.trueScaleLatitude), p.y + pc.projectionLatitude)
  }

  /** `hasInverse` */
  function HasInverse(pc: PlateCarree): (r: bool)
    ensures r
  {
    true
  }

  /** `isRectilinear` */
  function IsRectilinear(pc: PlateCarree): (r: bool)
    ensures r
  {
    true
  }

  /** Projecting then inverting gives the point back. */
  lemma InverseUndoesProject(m: Transcendentals, pc: PlateCarree, p: Point2)
    requires Invertible(m, pc)
    ensures ProjectInverse(m, pc, Project(m, pc, p)) == p
  {
    var c := m.cos(pc.trueScaleLatitude);
    assert p.x * c / c == p.x;
  }

  /** Inverting then projecting gives the point back. */
  lemma ProjectUndoesInverse(m: Transcendentals, pc: PlateCarree, p: Point2)
    requires Invertible(m, pc)
    ensures Project(m, pc, ProjectInverse(m, pc, p)) == p
  {
    var c := m.cos(pc.trueScaleLatitude);
    assert p.x / c * c == p.x;
  }

  /** The projection is rectilinear: a meridian (fixed x) maps to a vertical
      line and a parallel (fixed y) to a horizontal one, and equal steps in
      latitude give equal steps in y. */
  lemma ProjectIsRectilinear(m: Transcendentals, pc: PlateCarree, p: Point2, q: Point2)
    ensures p.x == q.x ==> Project(m, pc, p).x == Project(m, pc, q).x
    ensures p.y == q.y ==> Project(m, pc, p).y == Project(m, pc, q).y
    ensures Project(m, pc, p).y - Project(m, pc, q).y == p.y - q.y
  {
  }

  /** The projection seen from the pipeline, on a given ellipsoid: neither
      mapping throws, and the inverse undoes the forward mapping. */
  function AsProjection(m: Transcendentals, pc: PlateCarree, e: Ellipsoid): (proj: Projections.Projection)
    requires Invertible(m, pc)
    ensures forall p :: proj.forward(p).Ok? && proj.inverse(p).Ok?
    ensures forall p :: proj.inverse(proj.forward(p).value) == Ok(p)
  {
    var proj := Projections.Projection("Plate Carr\U{00E9}e", e,
                  p => Ok(Project(m, pc, p)), p => Ok(ProjectInverse(m, pc, p)));
    forall p ensures proj.inverse(proj.forward(p).value) == Ok(p) {
      InverseUndoesProject(m, pc, p);
    }
    proj
  }
}

=== FILE: projection.dfy ===
/** What the transformation pipeline needs of a `Projection`: its name, its
    ellipsoid, and its forward and inverse mappings in radians. The
    `Projection` base class is not part of this model, so the two mappings
    are carried as function values. */
module Projections {
  import opened Outcomes
  import opened Ellipsoids
  import opened Coordinates

  datatype Projection = Projection(
    name: string,
    ellipsoid: Ellipsoid,
    /** `transformRadians`: geographic radians to projected units, or the
        `ProjectionException` a projection may throw. */
    forward: Point2 -> Result<Point2>,
    /** `inverseTransformRadians`: projected units to geographic radians,
        or the `ProjectionException` a projection may throw. */
    inverse: Point2 -> Result<Point2>)
}

=== FILE: transformation.dfy ===
/** `org.osgeo.proj4j.CoordinateTransformation`: the strategy the
    constructor chooses for a pair of coordinate systems, and the steps
    `transform` then runs. Objects are compared by identity, so coordinate
    systems and datums are held through `Ref`s. */
module Transformations {
  import opened Outcomes
  import opened Coordinates
  import opened Ellipsoids
  import opened Datums
  import opened Projections
  import opened CoordinateSystems
  import opened Geocentric

  /** Java's `==` on two possibly-null references. */
  predicate SameObject<T>(a: Option<Ref<T>>, b: Option<Ref<T>>) {
    if a.None? then b.None? else b.Some? && a.value.address == b.value.address
  }

  /** What the constructor computes once for the pair. */
  datatype Strategy = Strategy(
    src: Option<Ref<CoordinateSystem>>,
    dest: Option<Ref<CoordinateSystem>>,
    doInverseProjection: bool,
    doForwardProjection: bool,
    doDatumTransform: bool,
    transformViaGeocentric: bool,
    srcGeoConv: Option<Converter>,
    destGeoConv: Option<Converter>)

  /** A converter can be built for the ellipsoid of a coordinate system's
      projection: both radii are divisors in the converter's constructor. */
  predicate ConvertibleRadii(cs: Option<Ref<CoordinateSystem>>) {
    cs.Some? && cs.value.target.proj.Some? ==>
      GetA(cs.value.target.proj.value.ellipsoid) != 0.0
      && GetB(cs.value.target.proj.value.ellipsoid) != 0.0
  }

  /** The constructor reaches `new GeocentricConverter(...)`: the datum step
      runs, both ellipsoids and the source datum are there (and the target
      datum unless the source datum already asks for a shift), and the
      ellipsoids differ or a datum asks for a shift. */
  predicate BuildsConverters(src: Option<Ref<CoordinateSystem>>, dest: Option<Ref<CoordinateSystem>>) {
    src.Some? && src.value.address != GEO_ADDRESS
    && dest.Some? && dest.value.address != GEO_ADDRESS
    && !SameObject(src.value.target.datum, dest.value.target.datum)
    && src.value.target.proj.Some? && dest.value.target.proj.Some?
    && src.value.target.datum.Some?
    && (IsTransform(src.value.target.datum.value.target)
        || (dest.value.target.datum.Some?
            && (IsTransform(dest.value.target.datum.value.target)
                || !Ellipsoids.IsEqual(src.value.target.proj.value.ellipsoid,
                                       dest.value.target.proj.value.ellipsoid))))
  }

  /** The constructor. The datum test dereferences the two ellipsoids and
      the source datum, and the target datum unless the source datum
      already asks for a shift, in that order; a null there is a null
      dereference. */
  function Create(src: Option<Ref<CoordinateSystem>>, dest: Option<Ref<CoordinateSystem>>): (r: Result<Strategy>)
    requires BuildsConverters(src, dest) ==> ConvertibleRadii(src) && ConvertibleRadii(dest)
    ensures r.Ok? ==> r.value.src == src && r.value.dest == dest
    ensures r.Err? ==> r.error == NullDereference
    ensures r.Err? <==>
              src.Some? && src.value.address != GEO_ADDRESS
              && dest.Some? && dest.value.address != GEO_ADDRESS
              && !SameObject(src.value.target.datum, dest.value.target.datum)
              && (src.value.target.proj.None? || dest.value.target.proj.None?
                  || src.value.target.datum.None?
                  || (!IsTransform(src.value.target.datum.value.target) && dest.value.target.datum.None?))
    ensures r.Ok? ==> (r.value.doInverseProjection <==> src.Some? && src.value.address != GEO_ADDRESS)
    ensures r.Ok? ==> (r.value.doForwardProjection <==> dest.Some? && dest.value.address != GEO_ADDRESS)
    ensures r.Ok? ==>
              (r.value.doDatumTransform <==>
                 r.value.doInverseProjection && r.value.doForwardProjection
                 && !SameObject(src.value.target.datum, dest.value.target.datum))
    ensures r.Ok? ==>
              (r.value.transformViaGeocentric <==>
                 r.value.doDatumTransform
                 && (!Ellipsoids.IsEqual(src.value.target.proj.value.ellipsoid, dest.value.target.proj.value.ellipsoid)
                     || IsTransform(src.value.target.datum.value.target)
                     || IsTransform(dest.value.target.datum.value.target)))
    ensures r.Ok? ==> (r.value.srcGeoConv.Some? <==> r.value.transformViaGeocentric)
                      && (r.value.destGeoConv.Some? <==> r.value.transformViaGeocentric)
    ensures r.Ok? && r.value.srcGeoConv.Some? ==>
              r.value.srcGeoConv.value == FromEllipsoid(src.value.target.proj.value.ellipsoid)
              && r.value.destGeoConv.value == FromEllipsoid(dest.value.target.proj.value.ellipsoid)
  {
    var doInverse := src.Some? && src.value.address != GEO_ADDRESS;
    var doForward := dest.Some? && dest.value.address != GEO_ADDRESS;
    var doDatum := doInverse && doForward && !SameObject(src.value.target.datum, dest.value.target.datum);
    if !doDatum then
      Ok(Strategy(src, dest, doInverse, doForward, false, false, None, None))
    else
      var srcEllipsoid :- GetEllipsoid(src.value.target);
      var destEllipsoid :- GetEllipsoid(dest.value.target);
      var srcDatum := src.value.target.datum;
      var destDatum := dest.value.target.datum;
      if srcDatum.None? then
        Err(NullDereference)
      else if !IsTransform(srcDatum.value.target) && destDatum.None? then
        Err(NullDereference)
      else
        var via := !Ellipsoids.IsEqual(srcEllipsoid, destEllipsoid)
                   || IsTransform(srcDatum.value.target) || IsTransform(destDatum.value.target);
        if via then
          Ok(Strategy(src, dest, doInverse, doForward, true, true,
                      Some(FromEllipsoid(srcEllipsoid)), Some(FromEllipsoid(destEllipsoid))))
        else
          Ok(Strategy(src, dest, doInverse, doForward, true, false, None, None))
  }

  /** `datumTransform` reaches the reverse shift of the target datum: the
      strategy goes through geocentric coordinates, the datums are not
      `isEqual`, and the target datum asks for a shift. */
  predicate ReverseShiftRuns(s: Strategy) {
    s.transformViaGeocentric && DatumPair(s).Ok?
    && !Datums.IsEqual(DatumPair(s).value.0, DatumPair(s).value.1)
    && IsTransform(DatumPair(s).value.1)
  }

  /** When the reverse shift runs it can be undone: the target datum's
      7-parameter scale is a divisor. */
  predicate TargetShiftInvertible(s: Strategy) {
    ReverseShiftRuns(s) ==> HasInvertibleScale(DatumPair(s).value.1)
  }

  // ---------------------------------------------------------------------
  // `transform`, as the source writes it.

  /** `srcCS.getProjection().inverseTransformRadians(...)`. */
  function InverseProject(cs: Option<Ref<CoordinateSystem>>, p: Point2): (r: Result<Point2>)
    ensures r.Ok? <==> cs.Some? && cs.value.target.proj.Some? && cs.value.target.proj.value.inverse(p).Ok?
    ensures r.Ok? ==> r.value == cs.value.target.proj.value.inverse(p).value
    ensures cs.None? || cs.value.target.proj.None? ==> r == Err(NullDereference)
    ensures r.Err? && cs.Some? && cs.value.target.proj.Some? ==> r == cs.value.target.proj.value.inverse(p)
  {
    if cs.None? || cs.value.target.proj.None? then Err(NullDereference)
    else cs.value.target.proj.value.inverse(p)
  }

  /** `destCS.getProjection().transformRadians(...)`. */
  function ForwardProject(cs: Option<Ref<CoordinateSystem>>, p: Point2): (r: Result<Point2>)
    ensures r.Ok? <==> cs.Some? && cs.value.target.proj.Some? && cs.value.target.proj.value.forward(p).Ok?
    ensures r.Ok? ==> r.value == cs.value.target.proj.value.forward(p).value
    ensures cs.None? || cs.value.target.proj.None? ==> r == Err(NullDereference)
    ensures r.Err? && cs.Some? && cs.value.target.proj.Some? ==> r == cs.value.target.proj.value.forward(p)
  {
    if cs.None? || cs.value.target.proj.None? then Err(NullDereference)
    else cs.value.target.proj.value.forward(p)
  }

  /** The two datums of the pair, or a null dereference. */
  function DatumPair(s: Strategy): Result<(Datum, Datum)> {
    if s.src.None? || s.dest.None? || s.src.value.target.datum.None? || s.dest.value.target.datum.None?
    then Err(NullDereference)
    else Ok((s.src.value.target.datum.value.target, s.dest.value.target.datum.value.target))
  }

  /** `datumTransform` on a (longitude, latitude, height) coordinate: nothing
      when the datums are `isEqual` or when the strategy does not go through
      geocentric coordinates; otherwise to geocentric on the source
      ellipsoid, the source shift to WGS84, the reverse target shift, and
      back to geodetic on the target ellipsoid. */
  function DatumTransform(f: Formulas, s: Strategy, pt: Vec3): Result<Vec3>
    requires TargetShiftInvertible(s)
  {
    var (sd, dd) :- DatumPair(s);
    if Datums.IsEqual(sd, dd) then Ok(pt)
    else if !s.transformViaGeocentric then Ok(pt)
    else if s.srcGeoConv.None? then Err(NullDereference)
    else
      var v0 :- GeodeticToGeocentric(f, s.srcGeoConv.value, Geodetic(pt.x, pt.y, Some(pt.z)));
      var v1 := if IsTransform(sd) then FromGeocentricToWgs84(sd, v0) else v0;
      var v2 := if IsTransform(dd) then ToGeocentricFromWgs84(dd, v1) else v1;
      if s.destGeoConv.None? then Err(NullDereference)
      else
        var g := Geocentric.ToGeodetic(f, s.destGeoConv.value, v2);
        Ok(Vec3(g.lon, g.lat, g.height.value))
  }

  /** `transform`: inverse projection unless the source is geographic, the
      datum step (on a coordinate whose height starts at 0) when the
      strategy asks for it, and the forward projection unless the target is
      geographic. */
  function Transform(f: Formulas, s: Strategy, p: Point2): Result<Point2>
    requires s.doDatumTransform ==> TargetShiftInvertible(s)
  {
    var geo :- if !s.doInverseProjection then Ok(p) else InverseProject(s.src, p);
    var shifted :- if s.doDatumTransform then DatumTransform(f, s, Vec3(geo.x, geo.y, 0.0)) else Ok(Vec3(geo.x, geo.y, 0.0));
    var geo' := Point2(shifted.x, shifted.y);
    if !s.doForwardProjection then Ok(geo') else ForwardProject(s.dest, geo')
  }

  // ---------------------------------------------------------------------
  // The same pipeline as a fixed sequence of steps, each run only when live.

  /** The steps of `transform`, in the order they run. */
  datatype Stage =
    | InverseProjection
    | CompareDatums
    | ToGeocentric
    | SourceToWgs84
    | Wgs84ToTarget
    | ToGeodetic
    | ForwardProjection

  /** The datum step goes through geocentric coordinates. */
  predicate Shifts(s: Strategy) {
    s.doDatumTransform && s.transformViaGeocentric && DatumPair(s).Ok?
    && !Datums.IsEqual(DatumPair(s).value.0, DatumPair(s).value.1)
  }

  /** Which steps a strategy runs. */
  predicate Live(s: Strategy, st: Stage) {
    match st
    case InverseProjection => s.doInverseProjection
    case CompareDatums => s.doDatumTransform
    case ToGeocentric => Shifts(s)
    case SourceToWgs84 => Shifts(s) && IsTransform(DatumPair(s).value.0)
    case Wgs84ToTarget => Shifts(s) && IsTransform(DatumPair(s).value.1)
    case ToGeodetic => Shifts(s)
    case ForwardProjection => s.doForwardProjection
  }

  /** One step on the working coordinate (x, y, z). */
  function RunStage(f: Formulas, s: Strategy, st: Stage, c: Vec3): Result<Vec3>
    requires Live(s, st) && TargetShiftInvertible(s)
  {
    match st
    case InverseProjection =>
      var p :- InverseProject(s.src, Point2(c.x, c.y));
      Ok(Vec3(p.x, p.y, c.z))
    case CompareDatums =>
      if DatumPair(s).Err? then Err(NullDereference) else Ok(c)
    case ToGeocentric =>
      if s.srcGeoConv.None? then Err(NullDereference)
      else GeodeticToGeocentric(f, s.srcGeoConv.value, Geodetic(c.x, c.y, Some(c.z)))
    case SourceToWgs84 =>
      if DatumPair(s).Err? || !IsTransform(DatumPair(s).value.0) then Err(NullDereference)
      else Ok(FromGeocentricToWgs84(DatumPair(s).value.0, c))
    case Wgs84ToTarget =>
      if DatumPair(s).Err? || !IsTransform(DatumPair(s).value.1) then Err(NullDereference)
      else Ok(ToGeocentricFromWgs84(DatumPair(s).value.1, c))
    case ToGeodetic =>
      if s.destGeoConv.None? then Err(NullDereference)
      else
        var g := Geocentric.ToGeodetic(f, s.destGeoConv.value, c);
        Ok(Vec3(g.lon, g.lat, g.height.value))
    case ForwardProjection =>
      var p :- ForwardProject(s.dest, Point2(c.x, c.y));
      Ok(Vec3(p.x, p.y, c.z))
  }

  /** A step that is not live leaves the coordinate alone. */
  function RunIfLive(f: Formulas, s: Strategy, st: Stage, c: Vec3): Result<Vec3>
    requires TargetShiftInvertible(s)
  {
    if Live(s, st) then RunStage(f, s, st, c) else Ok(c)
  }

  /** The five steps of the datum shift, in their fixed order, the first
      failure stopping the run. */
  function DatumSteps(f: Formulas, s: Strategy, c: Vec3): Result<Vec3>
    requires TargetShiftInvertible(s)
  {
    var c2 :- RunIfLive(f, s, CompareDatums, c);
    var c3 :- RunIfLive(f, s, ToGeocentric, c2);
    var c4 :- RunIfLive(f, s, SourceToWgs84, c3);
    var c5 :- RunIfLive(f, s, Wgs84ToTarget, c4);
    RunIfLive(f, s, ToGeodetic, c5)
  }

  /** The seven steps in their fixed order. */
  function RunLive(f: Formulas, s: Strategy, c: Vec3): Result<Vec3>
    requires TargetShiftInvertible(s)
  {
    var c1 :- RunIfLive(f, s, InverseProjection, c);
    var c6 :- DatumSteps(f, s, c1);
    RunIfLive(f, s, ForwardProjection, c6)
  }

  /** `datumTransform` is the five datum steps; without the datum step none
      of them runs. */
  lemma DatumTransformIsDatumSteps(f: Formulas, s: Strategy, c: Vec3)
    requires TargetShiftInvertible(s)
    ensures s.doDatumTransform ==> DatumTransform(f, s, c) == DatumSteps(f, s, c)
    ensures !s.doDatumTransform ==> DatumSteps(f, s, c) == Ok(c)
  {
    if s.doDatumTransform && DatumPair(s).Ok? && Shifts(s) {
      var (sd, dd) := DatumPair(s).value;
      if s.srcGeoConv.Some? {
        var r0 := GeodeticToGeocentric(f, s.srcGeoConv.value, Geodetic(c.x, c.y, Some(c.z)));
        assert RunIfLive(f, s, ToGeocentric, c) == r0;
        if r0.Ok? {
          var v1 := if IsTransform(sd) then FromGeocentricToWgs84(sd, r0.value) else r0.value;
          assert RunIfLive(f, s, SourceToWgs84, r0.value) == Ok(v1);
          var v2 := if IsTransform(dd) then ToGeocentricFromWgs84(dd, v1) else v1;
          assert RunIfLive(f, s, Wgs84ToTarget, v1) == Ok(v2);
        }
      }
    }
  }

  /** `transform` runs exactly the live steps, in their fixed order, on the
      coordinate whose height starts at 0, and keeps x and y. */
  lemma TransformRunsLiveStages(f: Formulas, s: Strategy, p: Point2)
    requires TargetShiftInvertible(s)
    ensures Transform(f, s, p)
              == (match RunLive(f, s, Vec3(p.x, p.y, 0.0))
                  case Err(e) => Err(e)
                  case Ok(c) => Ok(Point2(c.x, c.y)))
  {
    var r1 := RunIfLive(f, s, InverseProjection, Vec3(p.x, p.y, 0.0));
    if r1.Ok? {
      DatumTransformIsDatumSteps(f, s, r1.value);
    }
  }

  /** Which steps run, from the constructor's flags: the projections on a
      non-geographic side, and the four geocentric steps together, with
      each datum's own shift only when it asks for one. */
  lemma LiveStepsFollowTheFlags(src: Option<Ref<CoordinateSystem>>, dest: Option<Ref<CoordinateSystem>>)
    requires BuildsConverters(src, dest) ==> ConvertibleRadii(src) && ConvertibleRadii(dest)
    requires Create(src, dest).Ok?
    ensures var s := Create(src, dest).value;
            (Live(s, InverseProjection) <==> src.Some? && src.value.address != GEO_ADDRESS)
            && (Live(s, ForwardProjection) <==> dest.Some? && dest.value.address != GEO_ADDRESS)
            && (Live(s, ToGeocentric) <==> Live(s, ToGeodetic))
            && (Live(s, SourceToWgs84) ==> Live(s, ToGeocentric))
            && (Live(s, Wgs84ToTarget) ==> Live(s, ToGeocentric))
            && (Live(s, ToGeocentric) ==> s.transformViaGeocentric && Live(s, CompareDatums))
            && (Live(s, CompareDatums)
                <==> (Live(s, InverseProjection) && Live(s, ForwardProjection)
                      && !SameObject(src.value.target.datum, dest.value.target.datum)))
  {
  }

  // ---------------------------------------------------------------------
  // Properties of the strategy and of `transform`.

  /** With `CS_GEO` (or null) on both sides nothing is projected and no
      datum is shifted: the point is copied through unchanged. */
  lemma GeographicPairIsIdentity(f: Formulas, src: Option<Ref<CoordinateSystem>>,
                                 dest: Option<Ref<CoordinateSystem>>, p: Point2)
    requires src.None? || src.value == CsGeo()
    requires dest.None? || dest.value == CsGeo()
    ensures Create(src, dest).Ok?
    ensures !Create(src, dest).value.doDatumTransform
    ensures TargetShiftInvertible(Create(src, dest).value)
    ensures Transform(f, Create(src, dest).value, p) == Ok(p)
  {
  }

  /** `CS_GEO` on either side rules out the datum step. */
  lemma GeographicSideNeverShifts(src: Option<Ref<CoordinateSystem>>, dest: Option<Ref<CoordinateSystem>>)
    requires src == Some(CsGeo()) || dest == Some(CsGeo())
    ensures Create(src, dest).Ok?
    ensures !Create(src, dest).value.doDatumTransform
    ensures !Create(src, dest).value.transformViaGeocentric
  {
  }

  /** A coordinate system paired with itself shares its datum object, so
      the datum step never runs and no converter is built. */
  lemma SameSystemNeverShifts(cs: Ref<CoordinateSystem>)
    ensures Create(Some(cs), Some(cs)).Ok?
    ensures !Create(Some(cs), Some(cs)).value.doDatumTransform
    ensures Create(Some(cs), Some(cs)).value.srcGeoConv.None?
  {
  }

  /** Without the datum step, `transform` is the forward projection of the
      inverse projection, each skipped on a geographic side, and a
      projection's failure is the result. */
  lemma WithoutDatumStepProjectionsCompose(f: Formulas, s: Strategy, p: Point2)
    requires !s.doDatumTransform
    requires s.doInverseProjection ==> s.src.Some? && s.src.value.target.proj.Some?
    requires s.doForwardProjection ==> s.dest.Some? && s.dest.value.target.proj.Some?
    requires TargetShiftInvertible(s)
    ensures var geo := if s.doInverseProjection then s.src.value.target.proj.value.inverse(p) else Ok(p);
            Transform(f, s, p)
              == if geo.Err? then Err(geo.error)
                 else if s.doForwardProjection then s.dest.value.target.proj.value.forward(geo.value)
                 else geo
  {
  }

  /** When the two datums are `isEqual` the datum step is skipped, even if
      the strategy goes through geocentric coordinates. */
  lemma EqualDatumsShortcut(f: Formulas, s: Strategy, p: Point2)
    requires s.doDatumTransform && DatumPair(s).Ok? && Datums.IsEqual(DatumPair(s).value.0, DatumPair(s).value.1)
    requires s.doInverseProjection ==> s.src.Some? && s.src.value.target.proj.Some?
    requires s.doForwardProjection ==> s.dest.Some? && s.dest.value.target.proj.Some?
    requires TargetShiftInvertible(s)
    ensures var geo := if s.doInverseProjection then s.src.value.target.proj.value.inverse(p) else Ok(p);
            Transform(f, s, p)
              == if geo.Err? then Err(geo.error)
                 else if s.doForwardProjection then s.dest.value.target.proj.value.forward(geo.value)
                 else geo
  {
  }

  /** A source datum that asks for a shift keeps the constructor from
      looking at the target datum, so a null target datum is only found by
      `transform`, which fails on every point the source projection can
      invert. */
  lemma NullTargetDatumFailsLate(f: Formulas, src: Ref<CoordinateSystem>, dest: Ref<CoordinateSystem>, p: Point2)
    requires ConvertibleRadii(Some(src)) && ConvertibleRadii(Some(dest))
    requires src.address != GEO_ADDRESS && dest.address != GEO_ADDRESS
    requires src.target.proj.Some? && dest.target.proj.Some?
    requires src.target.datum.Some? && IsTransform(src.target.datum.value.target)
    requires dest.target.datum.None?
    ensures Create(Some(src), Some(dest)).Ok?
    ensures Create(Some(src), Some(dest)).value.doDatumTransform
    ensures TargetShiftInvertible(Create(Some(src), Some(dest)).value)
    ensures Transform(f, Create(Some(src), Some(dest)).value, p)
              == if src.target.proj.value.inverse(p).Err? then src.target.proj.value.inverse(p)
                 else Err(NullDereference)
  {
  }

  /** A latitude the geocentric converter rejects stops `transform` when
      the datum step goes through geocentric coordinates. */
  lemma OutOfRangeLatitudeFails(f: Formulas, s: Strategy, p: Point2)
    requires TargetShiftInvertible(s)
    requires !s.doInverseProjection && Shifts(s)
    requires s.srcGeoConv.Some? && s.destGeoConv.Some?
    requires Geocentric.ClampLatitude(f.show, p.y).Err?
    ensures Transform(f, s, p) == Err(IllegalState(Geocentric.LATITUDE_RANGE + f.show(p.y)))
  {
  }
}
